=== FILE: README.md ===
# Tab list of the tiny IRC client, modelled in Dafny

tiny is a terminal IRC client. Its terminal front-end keeps one tab per
server, channel and private conversation in a tab bar. This project models
the part of the front-end that manages that bar:

- opening server, channel and user tabs in server blocks;
- choosing each tab's Alt-key switch character;
- closing tabs and moving them left and right;
- selecting tabs;
- routing messages to tabs through message targets (`apply_to_target`);
- the front-end commands `/clear`, `/ignore`, `/notify` and `/switch`;
- key and paste handling and the result of the external editor;
- drawing a tab label;
- the desktop-notification decision;
- the graphical front-end's owned copy of a message target.

The model is functional. The controller state is a value
`Tui(bar, next, prev)`, and each operation returns a new state. Each tab keeps
its message view as a record of the calls the controller made on it. The
properties proved are these:

- the tab list's order invariant: the list starts with a server tab, every
  channel or user tab follows a tab of its own server, and no server has two
  server tabs; together these make each server's tabs one block headed by its
  server tab (`TabOrder.OneBlockPerServer`);
- that every creation, closing and move keeps that invariant;
- that lookups find exactly the first match;
- that the switch-key choice is the unique least-used choice;
- that word splitting inverts joining;
- round trips for the owned message target;
- that selection, creation, moves and the corrected closes keep the active
  index inside the list (the closes as written do not: see Findings).

Modules, one per file:

| module | file | models |
|---|---|---|
| `Msg` | `msg.dfy` | message sources and targets, tab style, notification level, UTF-8 length |
| `Seqs` | `seqs.dfy` | the vector operations used: insert, remove, retain, drain-and-splice |
| `Messaging` | `messaging.dfy` | the per-tab message view, as the list of calls made on it |
| `Lookup` | `lookup.dfy` | `find_serv_tab_idx`, `find_chan_tab_idx`, `find_user_tab_idx`, `find_last_serv_tab_idx`, `user_tab_exists` |
| `SwitchKey` | `switch_key.dfy` | the Alt-key switch choice of `new_tab` |
| `TabOrder` | `tab_order.dfy` | the server-block order of the tab list, and which edits keep it |
| `Termbox` | `termbox.dfy` | `print_chars` on a cell grid |
| `TuiTab` | `tab.dfy` | `Tab`, label drawing, `arrow_style`, `TabWidget` |
| `UiTabs` | `ui_tabs.dfy` | the front-end-independent `Tabs<W>` |
| `Tui` | `tui_state.dfy` | controller state, selection, tab creation |
| `TuiClose` | `tui_close.dfy` | closing tabs, and corrected versions |
| `TuiTarget` | `tui_target.dfy` | target resolution, `maybe_create_tab`, `apply_to_target` and its callers |
| `TuiMove` | `tui_move.dfy` | `server_tab_range`, `move_tab_left`, `move_tab_right` |
| `TuiCmd` | `tui_cmd.dfy` | `split_whitespace`, `try_handle_cmd`, `notify`, `switch` |
| `TuiInput` | `tui_input.dfy` | `handle_input_event`, `keypressed`, `handle_keypress`, `handle_editor_result` |
| `Notifications` | `notifier.dfy` | `notify_privmsg` |
| `Gui` | `gui.dfy` | `MsgTargetOwned::from` and `borrow` |

Some things the state depends on are not modelled: `next_tab_` and
`prev_tab_` have empty bodies in libtiny_tui/src/tui.rs:759-765. Each one is
a `Step` parameter of the state, which is any function that keeps the index
in range. Ctrl-N, Ctrl-P, the `next_tab` of `new_chan_tab` and the Alt-digit
loop are stated in terms of these steps: the Alt-digit key lands where
repeating the step the source repeats lands (`TuiInput.DigitLanding`), and
that is the digit's tab whenever the steps move by one
(`TuiInput.DigitLandsOnTarget`). `select_tab` loops on the steps until the
requested index is active; it is modelled by that exit condition: the index
becomes active and its tab is shown as read.

## Model

| member | source | states |
|---|---|---|
| Msg.Utf8LenIsCountIffAscii | libtiny_tui/src/tab.rs:48-51 | the label width (`str::len`, UTF-8 bytes) equals the character count exactly when the label is ASCII |
| Msg.Utf8LenAscii | libtiny_tui/src/tab.rs:48-51 | on ASCII labels the byte length is the character count |
| Msg.Utf8LenNonAscii | libtiny_tui/src/tab.rs:48-51 | one non-ASCII character makes the byte length exceed the character count |
| Msg.Utf8Len | libtiny_tui/src/tab.rs:48-51 | byte length is between the character count and four times it |
| Msg.MsgSource.ToTarget | libtiny_tui/src/tui.rs:181-186 | a source's own target is a server, channel or user target on the same server |
| Messaging.View.Record | libtiny_tui/src/tui.rs:931-943 | recording a call on a view appends exactly that call and keeps its ignore state and nick |
| Messaging.View.SetOrToggleIgnore | libtiny_tui/src/tui.rs:1052-1072 | a given value replaces the ignore state, none flips it; nothing else changes |
| Messaging.View.SetNick | libtiny_tui/src/tui.rs:1036-1041 | the view's own nick becomes the given one, nothing else changes |
| Lookup.FirstFrom | libtiny_ui/src/tabs.rs:91-123 | the least index at or after `from` holding the source; none exactly when no such index exists |
| Lookup.LastBefore | libtiny_tui/src/tui.rs:1139-1146 | the greatest index below the bound whose server name matches; none exactly when none matches |
| Lookup.FindServTabIdx | libtiny_tui/src/tui.rs:1105-1114 | the first server tab of `serv`; none exactly when no tab is that server tab |
| Lookup.FindChanTabIdx | libtiny_tui/src/tui.rs:1116-1125 | the first tab of channel `chan` on `serv`; none exactly when there is none |
| Lookup.FindUserTabIdx | libtiny_tui/src/tui.rs:1127-1137 | the first private tab with `nick` on `serv`; none exactly when there is none |
| Lookup.FindLastServTabIdx | libtiny_tui/src/tui.rs:1139-1146 | the last tab of any kind on server `serv`; none exactly when the server has no tab |
| Lookup.UserTabExists | libtiny_tui/src/tui.rs:1074-1083 | true exactly when some tab is the private tab with that nick on that server |
| Lookup.UserTabExistsIffFound | libtiny_tui/src/tui.rs:1074-1083 | the existence test agrees with the user-tab lookup |
| SwitchKey.UsesPositive | libtiny_tui/src/tui.rs:251-259 | a key is counted exactly when some tab holds it |
| SwitchKey.KeyCounts | libtiny_tui/src/tui.rs:251-259 | the key map holds exactly the keys in use, each with its number of tabs |
| SwitchKey.Scan | libtiny_tui/src/tui.rs:260-283 | the label scan returns the unique switch choice for the name and counts |
| SwitchKey.ChooseSwitch | libtiny_ui/src/tabs.rs:48-76 | the switch key is the first unused letter of the label, else the first least-used letter, else none |
| SwitchKey.SwitchChoiceUnique | libtiny_tui/src/tui.rs:260-283 | the switch-choice specification admits one answer only |
| SwitchKey.SharedKeyOnlyWhenAllTaken | libtiny_tui/src/tui.rs:260-283 | an already used key is chosen only when every letter of the label is already used |
| SwitchKey.ChooseSwitchSomeIff | libtiny_tui/src/tui.rs:260-283 | a tab gets a switch key exactly when its label has a letter |
| Seqs.Insert | libtiny_tui/src/tui.rs:290-305 | `Vec::insert`: one longer, the element at the index, the rest shifted, same multiset plus the element |
| Seqs.InsertAtEnd | libtiny_ui/src/tabs.rs:18-34 | inserting at the length appends |
| Seqs.InsertAfterAppend | libtiny_tui/src/tui.rs:345-348 | inserting right after an appended element appends both |
| Seqs.RemoveAt | libtiny_tui/src/tui.rs:385-393 | `Vec::remove`: one shorter, later elements shift down, the multiset loses the removed element |
| Seqs.Retain | libtiny_tui/src/tui.rs:329-339 | `Vec::retain`: only kept elements remain, and every kept element of the input remains |
| Seqs.RetainAppend | libtiny_tui/src/tui.rs:329-339 | retaining distributes over concatenation |
| Seqs.RetainAll | libtiny_tui/src/tui.rs:329-339 | retaining when every element is kept changes nothing |
| Seqs.RetainIndex | libtiny_tui/src/tui.rs:329-339 | a kept element lands at the number of kept elements before it |
| Seqs.RetainSubMultiset | libtiny_tui/src/tui.rs:329-339 | retaining never holds an element more often than the input |
| Seqs.MoveBlock | libtiny_tui/src/tui.rs:779-781 | drain-and-splice keeps the length and multiset and puts the block at the insertion index |
| Seqs.MoveBlockBefore | libtiny_tui/src/tui.rs:779-781 | moving a block left equals exchanging it with the stretch it jumps over |
| Seqs.MoveBlockAfter | libtiny_tui/src/tui.rs:806-809 | moving a block right equals exchanging it with the stretch it jumps over |
| Seqs.RemoveInsertSwaps | libtiny_tui/src/tui.rs:785-791 | removing a tab and reinserting it next door swaps the two neighbours |
| Seqs.SwapPermutes | libtiny_tui/src/tui.rs:785-791 | a swap keeps the multiset |
| TabOrder.DistinctServerAt | libtiny_tui/src/tui.rs:309-326 | in a list without repeated server tabs, a server tab is different from every later tab |
| TabOrder.HeadOfBlock | libtiny_tui/src/tui.rs:1156-1167 | every tab has the server tab of its server at or before it, with only tabs of that server in between |
| TabOrder.OneBlockPerServer | libtiny_tui/src/tui.rs:342-423 | in a well-formed list every tab between two tabs of one server belongs to that server: each server's tabs are one block |
| TabOrder.SubMultisetDistinct | libtiny_tui/src/tui.rs:309-326 | dropping or rearranging tabs keeps server tabs unrepeated |
| TabOrder.RetainChained | libtiny_tui/src/tui.rs:329-339 | dropping a server's tabs keeps every non-server tab next to tabs of its own server |
| TabOrder.RetainWellFormed | libtiny_tui/src/tui.rs:329-339 | dropping all tabs of one server keeps the block order |
| TabOrder.InsertAfterKeepsWellFormed | libtiny_tui/src/tui.rs:342-383 | inserting a channel or user tab after a tab of its server keeps the block order |
| TabOrder.RemoveNonServerKeepsWellFormed | libtiny_tui/src/tui.rs:385-393 | removing a channel or user tab keeps the block order |
| TabOrder.AppendServerKeepsWellFormed | libtiny_tui/src/tui.rs:309-326 | appending the server tab of a server that has none keeps the block order |
| TabOrder.FindChanAfterInsert | libtiny_tui/src/tui.rs:342-383 | after inserting a missing channel tab, lookup finds it at the insertion index |
| TabOrder.FindUserAfterInsert | libtiny_tui/src/tui.rs:396-423 | after inserting a missing user tab, lookup finds it at the insertion index |
| TabOrder.FindAfterServerAppend | libtiny_tui/src/tui.rs:342-383 | a server without tabs, once its server tab is appended, has that tab as first and last, and still no channel or user tab |
| TabOrder.SliceHeaded | libtiny_tui/src/tui.rs:1156-1167 | a stretch starting at a server tab itself starts with a server tab and is chained |
| TabOrder.ConcatHeaded | libtiny_tui/src/tui.rs:767-822 | two chained lists headed by server tabs concatenate to one |
| TabOrder.SwapBlocksPermutes | libtiny_tui/src/tui.rs:767-822 | exchanging two adjacent stretches rearranges the list |
| TabOrder.SwapBlocksKeepsWellFormed | libtiny_tui/src/tui.rs:767-822 | exchanging two adjacent server blocks keeps the block order |
| TabOrder.SwapNeighboursKeepsWellFormed | libtiny_tui/src/tui.rs:767-822 | swapping two adjacent channel or user tabs keeps the block order |
| Termbox.PrintChars | libtiny_tui/src/termbox.rs:6-15 | the i-th character lands in column x+i of the row in the given style; cells outside the run are untouched |
| TuiTab.Tab.SetStyle | libtiny_tui/src/tab.rs:37-39 | only the style changes |
| TuiTab.Tab.Width | libtiny_tui/src/tab.rs:48-51 | the width is the label's byte length: the character count on ASCII labels, more otherwise |
| TuiTab.Tab.Draw | libtiny_tui/src/tab.rs:53-78 | an active tab is drawn in the active colour, others in their style's colour; one cell per character |
| TuiTab.TabStyleColor | libtiny_tui/src/tab.rs:21-27 | each style maps to its own colour-scheme entry |
| TuiTab.DrawLabelFrame | libtiny_tui/src/tab.rs:67-76 | the label loop touches no cell outside its run |
| TuiTab.DrawLabelHead | libtiny_tui/src/tab.rs:67-76 | the first character is underlined exactly when it is the switch key not yet drawn |
| TuiTab.FirstSwitchShift | libtiny_tui/src/tab.rs:67-76 | the first-occurrence position shifts by one when the first character is dropped |
| TuiTab.DrawLabelCell | libtiny_tui/src/tab.rs:67-76 | each character's cell holds it, underlined exactly at the first occurrence of the switch key |
| TuiTab.DrawLabelSpec | libtiny_tui/src/tab.rs:67-76 | the label occupies exactly its run, other cells keep their contents |
| TuiTab.UnderlineAtMostOnce | libtiny_tui/src/tab.rs:67-76 | at most one cell of a label is underlined |
| TuiTab.MaxStyle | libtiny_tui/src/tab.rs:150-155 | the greatest style of the tabs, or Normal for none |
| TuiTab.ArrowStyle | libtiny_tui/src/tab.rs:150-161 | the arrow takes the colour of the most urgent tab style, Normal's colour with no tabs |
| TuiTab.NewTabWidget | libtiny_tui/src/tab.rs:102-112 | a new bar is empty, active index 0, height 1, no scroll window, visible |
| UiTabs.Tabs.Sources | libtiny_ui/src/tabs.rs:13-15 | the sources of the tabs, in order |
| UiTabs.Tabs.Switches | libtiny_ui/src/tabs.rs:13-15 | the switch keys of the tabs, in order |
| UiTabs.Tabs.NewTab | libtiny_ui/src/tabs.rs:36-89 | inserts a Normal tab with the chosen switch key at the index and shifts the rest |
| UiTabs.Tabs.NewServerTab | libtiny_ui/src/tabs.rs:18-34 | appends the server tab with notifier Mentions when missing and returns its index; otherwise nothing changes |
| Tui.Tui.WithTabs | libtiny_tui/src/tab.rs:84-88 | replaces the tabs, keeping the active index |
| Tui.Tui.WithActive | libtiny_tui/src/tab.rs:84-88 | replaces the active index, keeping the tabs |
| Tui.Sources | libtiny_tui/src/tui.rs:1105-1146 | the tabs' sources, in order |
| Tui.Switches | libtiny_tui/src/tui.rs:251-259 | the tabs' switch keys, in order |
| Tui.SourcesInsert | libtiny_tui/src/tui.rs:290-305 | sources follow an insertion |
| Tui.SourcesRemoveAt | libtiny_tui/src/tui.rs:385-393 | sources follow a removal |
| Tui.SourcesAppend | libtiny_tui/src/tui.rs:309-326 | sources distribute over concatenation |
| Tui.SourcesRetain | libtiny_tui/src/tui.rs:329-339 | sources follow the retain of `close_server_tab` |
| Tui.Restyle | libtiny_tui/src/tui.rs:707-718 | one tab's style changes, the sources and every other tab stay |
| Tui.SelectTab | libtiny_tui/src/tui.rs:707-718 | the index becomes active and its tab is shown as read; nothing else changes |
| Tui.NextTab | libtiny_tui/src/tui.rs:720-723 | the active index takes one forward step and that tab is shown as read |
| Tui.PrevTab | libtiny_tui/src/tui.rs:725-728 | the active index takes one backward step and that tab is shown as read |
| Tui.NewTab | libtiny_tui/src/tui.rs:241-306 | inserts a Normal tab for the source with the unique switch choice, alias, status and notifier; active index kept |
| Tui.TabKeyCountsAgree | libtiny_tui/src/tui.rs:251-259 | the use-count table built tab by tab is the table built from the list of keys |
| Tui.LabelOf | libtiny_tui/src/tui.rs:261-264 | the alias when given, the source's visible name otherwise |
| Tui.OpenTab | libtiny_tui/src/tui.rs:241-306 | as NewTab, with the switch key stated as `KeyChosen`: the unique switch choice for the tab's label against the keys of the tabs open before |
| Tui.NewServerTab | libtiny_tui/src/tui.rs:309-326 | appends the server tab when missing and returns its index, with ignore state `true`, Mentions and the switch key chosen against the tabs open before, otherwise changes nothing; keeps the block order |
| Tui.CopyNick | libtiny_tui/src/tui.rs:375-377 | the new tab's view takes the server tab's nick when it has one; nothing else changes |
| Tui.ServerSettings | libtiny_tui/src/tui.rs:350-360 | the ignore state and notifier of the first server tab of the server; `true` and Mentions when it has none |
| Tui.AdvanceIfShifted | libtiny_tui/src/tui.rs:372-374 | the active index takes one forward step exactly when the insertion was at or before it, and then only the tab it reaches changes: it is shown as read |
| Tui.InsertChanTab | libtiny_tui/src/tui.rs:349-378 | `ChanTabInserted`: the channel tab lands right after the server's last tab with the given status and notifier, the nick of that last tab, no calls, style Normal and the switch key chosen against the tabs open before; every other tab keeps its contents and relative order; when the active index was at or past the insertion it takes one forward step and the tab reached is shown as read |
| Tui.ChanTabAfter | libtiny_tui/src/tui.rs:349-379 | `ChanTabInserted` as for InsertChanTab, with the ignore state and notifier of the server's first server tab (`true` and Mentions without one) and the switch key chosen against the tabs open before; lookup then finds the channel tab at the returned index and the block order is kept |
| Tui.ChanTabWithNewServer | libtiny_tui/src/tui.rs:344-348 | with no tab of the server, the old tabs stay in place, followed by a fresh server tab and a fresh channel tab, both with ignore state `true` and notifying on Mentions; the server tab's switch key is chosen against the old tabs, the channel tab's against the old tabs and the new server tab; active index kept; lookup finds the channel tab |
| Tui.NewChanTab | libtiny_tui/src/tui.rs:342-383 | an existing channel tab leaves everything unchanged and returns none; otherwise exactly one of the two paths above is taken, chosen by whether the server has a tab, with its tab contents and switch keys, the returned index is where lookup finds the tab, and the block order is kept |
| Tui.InsertUserTab | libtiny_tui/src/tui.rs:403-417 | the user tab lands right after the server's last tab with ignore state `true`, notifying on every message, with that tab's nick, the user's join recorded and the switch key chosen against the tabs open before; every other tab keeps its contents and relative order; active index kept |
| Tui.UserTabAfter | libtiny_tui/src/tui.rs:403-419 | as InsertUserTab; lookup then finds the user tab at the returned index and the block order is kept |
| Tui.UserTabWithNewServer | libtiny_tui/src/tui.rs:398-402 | with no tab of the server, the old tabs stay in place, followed by a fresh server tab and the user tab with no nick and the join recorded; the server tab's switch key is chosen against the old tabs, the user tab's against the old tabs and the new server tab; active index kept |
| Tui.NewUserTab | libtiny_tui/src/tui.rs:396-423 | an existing user tab leaves everything unchanged and returns none; otherwise exactly one of the two paths above is taken, with its tab contents and switch keys, lookup finds the tab at the returned index, the active index is kept and the block order is kept |
| TuiClose.CloseServerTab | libtiny_tui/src/tui.rs:329-339 | nothing when the server tab is missing; otherwise exactly the tabs of the server go and the rest keep contents and order; if the server tab was active, the tab at the index before it (or the first) becomes active and is shown as read, otherwise the active index is left as it was |
| TuiClose.CloseAt | libtiny_tui/src/tui.rs:385-393 | exactly the tab at the index goes and the rest keep contents and order; if it was active, the tab before it (or the first) becomes active and is shown as read, otherwise the active index is left as it was |
| TuiClose.CloseChanTab | libtiny_tui/src/tui.rs:385-393 | nothing when there is no such channel tab; otherwise exactly the first matching tab goes, as in CloseAt |
| TuiClose.CloseUserTab | libtiny_tui/src/tui.rs:425-434 | nothing when there is no such user tab; otherwise exactly the first matching tab goes, as in CloseAt |
| TuiClose.CloseServerTabKeepsWellFormed | libtiny_tui/src/tui.rs:329-339 | closing a server keeps the block order |
| TuiClose.CloseChanTabKeepsWellFormed | libtiny_tui/src/tui.rs:385-393 | closing a channel keeps the block order |
| TuiClose.CloseUserTabKeepsWellFormed | libtiny_tui/src/tui.rs:425-434 | closing a user tab keeps the block order |
| TuiClose.CloseChanTabStaleActive | libtiny_tui/src/tui.rs:385-393 | as written, closing a tab before the active one silently makes another tab active, or an index past the end |
| TuiClose.CloseServerTabStaleActive | libtiny_tui/src/tui.rs:329-339 | as written, closing a server before the active tab leaves the active index out of range |
| TuiClose.CloseAtFixed | libtiny_tui/src/tui.rs:385-393 | corrected: the index stays valid and an inactive removal keeps the same tab active |
| TuiClose.CloseBeforeActive | libtiny_tui/src/tui.rs:385-393 | corrected: removing a tab before the active one moves the active index back onto the same tab |
| TuiClose.CloseChanTabFixed | libtiny_tui/src/tui.rs:385-393 | corrected channel close keeps the index valid and the same tab active |
| TuiClose.CloseUserTabFixed | libtiny_tui/src/tui.rs:425-434 | corrected user close keeps the index valid and the same tab active |
| TuiClose.KeepActive | libtiny_tui/src/tui.rs:329-339 | corrected server close when the active tab survives: the same tab stays active |
| TuiClose.SelectBeforeRemoved | libtiny_tui/src/tui.rs:329-339 | corrected server close when the active tab goes: the tab before it among the survivors becomes active |
| TuiClose.CloseServerTabFixed | libtiny_tui/src/tui.rs:329-339 | corrected server close removes the server's tabs and keeps the index valid |
| TuiTarget.AllOfServer | libtiny_tui/src/tui.rs:879-885 | every tab of the server, in ascending order, and nothing else |
| TuiTarget.Resolve | libtiny_tui/src/tui.rs:837-890 | server, channel and user targets find the first exact match, `AllServTabs` every tab of the server, `CurrentTab` the active index |
| TuiTarget.OptionToSeq | libtiny_tui/src/tui.rs:836-877 | a found index as a one-element list, nothing as the empty list |
| TuiTarget.ResolveSingle | libtiny_tui/src/tui.rs:836-877 | an exact target addresses at most one tab, and none exactly when no tab's own target is it |
| TuiTarget.TargetSource | libtiny_tui/src/tui.rs:907-919 | the source whose own target is the given exact target |
| TuiTarget.MaybeCreateTab | libtiny_tui/src/tui.rs:907-919 | `CreatedFor`: creates the addressed tab exactly when it is missing (never for `CurrentTab`) and returns its index; the new tab sits where the creation operation puts it, holds that operation's fresh contents with the switch key chosen against the tabs open before (and the server tab appended first, if any), and every other tab keeps contents and order |
| TuiTarget.OpenServerTarget | libtiny_tui/src/tui.rs:909-911 | `CreatedFor` on server and all-server-tabs targets |
| TuiTarget.OpenChanTarget | libtiny_tui/src/tui.rs:913 | `CreatedFor` on channel targets |
| TuiTarget.OpenUserTarget | libtiny_tui/src/tui.rs:915 | `CreatedFor` on user targets |
| TuiTarget.OpenedKeyChosen | libtiny_tui/src/tui.rs:342-423 | the switch keys `new_chan_tab` and `new_user_tab` choose, restated against the tabs open before each creation step |
| TuiTarget.Apply | libtiny_tui/src/tui.rs:921-943 | each action's effect on a tab: style only rises and never on the active tab; messages append to the view; notifier set |
| TuiTarget.ApplyAt | libtiny_tui/src/tui.rs:899-904 | the action reaches exactly the listed tabs |
| TuiTarget.ApplyToTarget | libtiny_tui/src/tui.rs:828-905 | existing targets: the action reaches exactly the resolved tabs and every other tab is unchanged; a missing one is created as MaybeCreateTab does and only the created tab receives the action; block order kept |
| TuiTarget.SetTabStyle | libtiny_tui/src/tui.rs:921-927 | only addressed inactive tabs change, only their style, which never falls below the given one and moves only to it; a created tab gets the given style unless it is active or the style is Normal |
| TuiTarget.AddClientErrMsg | libtiny_tui/src/tui.rs:931-935 | exactly the addressed tabs get the error appended and nothing else changes; a missing target is created first and gets it alone |
| TuiTarget.AddClientNotifyMsg | libtiny_tui/src/tui.rs:939-943 | exactly the addressed tabs get the notice appended and nothing else changes; a missing target is created first and gets it alone |
| TuiTarget.SetNotifierOf | libtiny_tui/src/tui.rs:1085-1089 | exactly the addressed tabs take the new level and nothing else changes; a missing target is created with it |
| TuiTarget.ShowNotifyModeOf | libtiny_tui/src/tui.rs:1091-1100 | each addressed tab gets a notice naming its own level and nothing else changes; a missing target is created and reports its initial level |
| TuiTarget.ClearOf | libtiny_tui/src/tui.rs:1043-1045 | `Cleared`: exactly the addressed tabs are cleared and nothing else changes; a missing target is created and cleared |
| TuiTarget.ServerIgnoreState | libtiny_tui/src/tui.rs:1053-1061 | the server tab's ignore state, false without a server tab |
| TuiTarget.ToggleIgnore | libtiny_tui/src/tui.rs:1052-1072 | `IgnoreToggled`: all tabs of a server take the opposite of the server tab's state; other targets flip each addressed tab; only the ignore state of those tabs changes |
| TuiTarget.OpenedIdx | libtiny_tui/src/tui.rs:907-919 | where a missing target's tab is opened: after the server's last tab, or after a fresh server tab appended at the end; a server tab at the end |
| TuiTarget.OpenedTab | libtiny_tui/src/tui.rs:907-919 | the fresh tab opened for a missing target: no alias, style Normal, with the creation operation's view and notifier |
| TuiTarget.OpenedAroundSameStart | libtiny_tui/src/tui.rs:907-919 | what creation promises depends only on the tabs, active index and steps it starts from |
| TuiTarget.OpenedAroundKeep | libtiny_tui/src/tui.rs:899-904 | acting on the created tab alone keeps every promise creation makes about the other tabs |
| TuiTarget.ChanOpened | libtiny_tui/src/tui.rs:342-383 | a channel target's creation places and fills its tab as `new_chan_tab` does, switch keys included |
| TuiTarget.ChanOpenedAfter | libtiny_tui/src/tui.rs:348-377 | when the server has tabs, the channel tab opens after its last one with the server's settings and that tab's nick |
| TuiTarget.ChanOpenedWithServer | libtiny_tui/src/tui.rs:343-347 | when the server has no tab, a server tab is appended and the channel tab after it has ignore state `true` and notifies on mentions |
| TuiTarget.UserOpened | libtiny_tui/src/tui.rs:396-423 | a user target's creation places and fills its tab as `new_user_tab` does, switch keys included |
| TuiTarget.ServerOpened | libtiny_tui/src/tui.rs:309-326 | a server target's creation appends its server tab, keeping every other tab and the active index |
| TuiTarget.NotifyModeText | libtiny_tui/src/tui.rs:1091-1100 | each level has its own notice text, and the text tells the level back |
| TuiTarget.ApplyToOpened | libtiny_tui/src/tui.rs:899-919 | a missing target is created and only its tab receives the action |
| TuiTarget.ApplyOpened | libtiny_tui/src/tui.rs:899-904 | applying the action to the created tab keeps creation's promises and puts the acted-on tab in place |
| TuiMove.BlockEnd | libtiny_tui/src/tui.rs:1156-1167 | the first server tab after the index, or the end |
| TuiMove.ServerTabRange | libtiny_tui/src/tui.rs:1156-1167 | the block around the index: from its server tab to the next server tab |
| TuiMove.PrevBlockStart | libtiny_tui/src/tui.rs:775-778 | the backward scan stops at the nearest earlier server tab or at 0 |
| TuiMove.MoveBlockLeft | libtiny_tui/src/tui.rs:773-782 | the active server block lands in front of the block before it, which follows it unchanged; the server tab stays active at the new place and is shown as read; same tabs; block order kept |
| TuiMove.MoveBlockRight | libtiny_tui/src/tui.rs:803-810 | the active server block lands behind the block after it; the server tab stays active at the new place and is shown as read; same tabs; block order kept |
| TuiMove.SwapWith | libtiny_tui/src/tui.rs:784-793 | two neighbouring channel or user tabs exchange places |
| TuiMove.MoveTabLeft | libtiny_tui/src/tui.rs:767-795 | the first tab stays; a server block jumps exactly the previous block; a channel or user tab swaps with a non-server left neighbour and stays put otherwise; the moved tab stays active, the tabs are the same and block order is kept |
| TuiMove.MoveTabRight | libtiny_tui/src/tui.rs:797-822 | the last tab and the last block stay; a server block jumps exactly the next block; a channel or user tab swaps with a non-server right neighbour and stays put otherwise; the moved tab stays active, the tabs are the same and block order is kept |
| TuiMove.SourcesOfBlocks | libtiny_tui/src/tui.rs:779-809 | sources follow a block exchange |
| TuiMove.SourcesOfSwap | libtiny_tui/src/tui.rs:785-791 | sources follow a swap |
| TuiMove.BlockMovedLeft | libtiny_tui/src/tui.rs:779-781 | moving a server block left puts its server tab at the insertion index, exchanges the two blocks and keeps the block order |
| TuiMove.BlockMovedRight | libtiny_tui/src/tui.rs:806-809 | moving a server block right puts its server tab after the block it jumps, exchanges the two blocks and keeps the block order |
| TuiMove.SourcesMovedLeft | libtiny_tui/src/tui.rs:779-781 | the sources of the tabs after a left block move are the sources moved the same way |
| TuiMove.SourcesMovedRight | libtiny_tui/src/tui.rs:806-809 | the sources of the tabs after a right block move are the sources moved the same way |
| TuiMove.MovedLeftKeepsWellFormed | libtiny_tui/src/tui.rs:779-781 | moving a whole server block before the previous block keeps every server's tabs together after its server tab |
| TuiMove.MovedRightKeepsWellFormed | libtiny_tui/src/tui.rs:806-809 | moving a whole server block past the next block keeps every server's tabs together after its server tab |
| TuiCmd.TrimStart | libtiny_tui/src/tui.rs:182 | leading whitespace removed, the rest kept |
| TuiCmd.WordLen | libtiny_tui/src/tui.rs:182 | length of the leading run of non-whitespace |
| TuiCmd.Words | libtiny_tui/src/tui.rs:182 | `split_whitespace` yields non-empty words without whitespace |
| TuiCmd.WordsUnwords | libtiny_tui/src/tui.rs:182 | splitting words joined by single spaces gives the words back |
| TuiCmd.WordsOfWord | libtiny_tui/src/tui.rs:182 | a single word splits to itself |
| TuiCmd.WordsCons | libtiny_tui/src/tui.rs:182 | a word and a space in front add that word in front |
| TuiCmd.WordLenAll | libtiny_tui/src/tui.rs:182 | a word's leading run is all of it |
| TuiCmd.WordLenPrefix | libtiny_tui/src/tui.rs:182 | a word's leading run stops at the following space |
| TuiCmd.WordsAfterSpace | libtiny_tui/src/tui.rs:182 | leading whitespace adds no word |
| TuiCmd.ParseCmd | libtiny_tui/src/tui.rs:181-216 | each of the six commands is chosen exactly when the first word is its name, in both directions; `/notify` takes the other words, `/switch` the second if there is one; any other input is no command |
| TuiCmd.NotifyLevel | libtiny_tui/src/tui.rs:148-170 | `off`, `mentions` and `messages` map to Off, Mentions and Messages, with the confirmation `Notifications turned off` for the first and the texts `show_notify_mode` uses for the others; no other word is a level |
| TuiCmd.LevelTarget | libtiny_tui/src/tui.rs:171-176 | a server tab addresses all its server's tabs, other tabs themselves |
| TuiCmd.NotifyCmd | libtiny_tui/src/tui.rs:133-179 | `Notified`: the next and previous steps stay; no argument: the active tab reports its level; a known level: the active tab gets the confirmation, then the addressed tabs take the level (a missing server tab is created with it); anything else: the active tab gets the usage; no other tab changes |
| TuiCmd.SwitchTo | libtiny_tui/src/tui.rs:730-757 | `SwitchedTo`: the first tab whose name contains the text becomes active unless already active; no such tab changes nothing |
| TuiCmd.RunCmd | libtiny_tui/src/tui.rs:181-216 | `CmdOutcome`: `/clear` has ClearOf's effect on the tab of the source, `/ignore` ToggleIgnore's and `/notify` NotifyCmd's on the server's tabs or the tab itself, `/switch` SwitchTo's or the usage on the active tab, including the case where the target tab is created; `/statusline` and `/reload` change nothing |
| TuiCmd.TryHandleCmd | libtiny_tui/src/tui.rs:181-216 | handled exactly for the six front-end commands; the first word selects the effect (`Cleared`, `IgnoreToggled`, `Notified` on the other words, `SwitchedTo` the second word or the usage); anything else changes nothing |
| TuiCmd.OnActive | libtiny_tui/src/tui.rs:136-166 | a message on the active tab appends to that tab only |
| TuiInput.DigitValue | libtiny_tui/src/tui.rs:573-574 | digits and only digits have a value |
| TuiInput.DigitTarget | libtiny_tui/src/tui.rs:575-579 | Alt+1..9 reach that tab when it exists, Alt+0 or a too-large digit reach the last tab |
| TuiInput.ScanWrap | libtiny_tui/src/tui.rs:601-603 | the Alt-character scan visits the tabs after the active one, wrapping around |
| TuiInput.ScanCovers | libtiny_tui/src/tui.rs:601-608 | the scan visits every tab exactly once, the active one last |
| TuiInput.AltCharScan | libtiny_tui/src/tui.rs:601-608 | finds the first tab after the active one, wrapping, with the switch key; none exactly when no tab has it |
| TuiInput.AltSwitch | libtiny_tui/src/tui.rs:598-610 | selects the first tab after the active one, wrapping, with the key, and shows it as read; no tab with the key changes nothing |
| TuiInput.HandleKeypress | libtiny_tui/src/tui.rs:552-625 | `KeyOutcome`: Ctrl-N/P take one step; Ctrl-X asks for the editor; Alt+digit lands where repeated steps toward the digit's tab land; Alt+char and Alt+arrows do what AltSwitch, MoveTabLeft and MoveTabRight promise; other keys change nothing |
| TuiInput.Keypressed | libtiny_tui/src/tui.rs:530-550 | `Pressed`: a consumed key, an abort or a completed line is passed on with the tab bar unchanged (a line with the active tab's source); a key the view ignored has exactly HandleKeypress's effect (`KeyOutcome`) |
| TuiInput.HandleInputEvent | libtiny_tui/src/tui.rs:436-461 | a key has exactly Keypressed's effect (`Pressed`); pasted text with a line break opens the editor, other text is handled; other events are ignored |
| TuiInput.HistoryCalls | libtiny_tui/src/tui.rs:480-482 | one history call per line, in order |
| TuiInput.HandleEditorResult | libtiny_tui/src/tui.rs:463-528 | one line fills the input field; more lines go to history and are sent from the active tab; errors are reported on the active tab |
| TuiInput.Repeat | libtiny_tui/src/tui.rs:581-593 | stepping any number of times stays inside the list |
| TuiInput.DigitLanding | libtiny_tui/src/tui.rs:575-593 | the Alt-digit loop ends inside the list |
| TuiInput.RepeatForward | libtiny_tui/src/tui.rs:582-586 | steps that move forward by one reach the index that many places on |
| TuiInput.RepeatBackward | libtiny_tui/src/tui.rs:587-591 | steps that move backward by one reach the index that many places back |
| TuiInput.DigitLandsOnTarget | libtiny_tui/src/tui.rs:575-593 | with steps that move by one, the Alt-digit loop lands exactly on the digit's tab |
| TuiInput.AltDigit | libtiny_tui/src/tui.rs:573-597 | repeats the forward or backward step toward the digit's tab, shows the tab reached as read, and changes nothing else |
| TuiInput.IsMultiline | libtiny_tui/src/tui.rs:448 | true exactly when the text holds a line feed or a carriage return |
| Notifications.NotifyPrivmsg | libtiny_tui/src/notifier.rs:10-40 | no notification for one's own messages or other targets; channels need Messages, or Mentions and a mention; private messages need a level other than Off |
| Notifications.NotifyMonotone | libtiny_tui/src/notifier.rs:24-39 | raising the level never takes a notification away |
| Notifications.MentionOnlyAdds | libtiny_tui/src/notifier.rs:24-29 | a mention never takes a notification away |
| Gui.From | libtiny_gui/src/main.rs:21-40 | the same variant with copies of its names |
| Gui.Borrow | libtiny_gui/src/main.rs:42-51 | the same variant over the owned names |
| Gui.BorrowFrom | libtiny_gui/src/main.rs:21-51 | borrowing an owned copy gives the original target back |
| Gui.FromBorrow | libtiny_gui/src/main.rs:21-51 | copying a borrowed target gives the owned value back |

## Left out

- Integer widths: the `i8` switch-key counts, `i32` columns and `usize` indices are unbounded here; no realistic tab list reaches their limits.
- Msg.IsAlphabetic: Rust's `char::is_alphabetic` is Unicode-wide; the model takes ASCII letters, because Unicode tables are out of reach.
- TuiCmd.Words: `split_whitespace` splits on Unicode whitespace; the model splits on ASCII whitespace only.
- `MsgSource::visible_name` and `serv_name` are defined with `MsgSource`, which libtiny_tui/src/tui.rs:17 imports from the crate root. That definition is not part of this model. The two accessors follow the label code in libtiny_ui/src/tabs.rs:39-43.
- The message view (`MessagingUI`) is opaque. Only the calls made on it, its ignore state and its nick are kept. Scrollback, input editing and rendering are out of scope.
- `next_tab_`, `prev_tab_`, `resize`, `draw`, `TabWidget::draw`, `handle_close` and the scroll/wrap layout have empty or stubbed bodies. The steps are parameters, and the layout is not modelled.
- TuiInput.HandleInputEvent: pasted single-line text is fed back as typed characters, which only reach the message view. The model keeps the tab bar unchanged and does not expand the paste into keys.
- Tui.SelectTab: the `select_tab` loop over `next_tab_`/`prev_tab_` is modelled by its exit condition, so the model assumes the steps eventually reach the requested index; with the empty step bodies of the source the loop would not end.
- Running the external editor is I/O. The Ctrl-X key and a multi-line paste return the text to edit in `Outcome.editor`, and `run_editor`'s own failure is left to `HandleEditorResult`. The error texts of `handle_editor_err` are recorded as the error kind, not formatted.
- TuiCmd.RunCmd: `/statusline` toggles a layout flag outside the tab bar, and `/reload` reads the configuration file (I/O). Both leave the model state unchanged.
- The message view's status flag and ignore state are one field. This rests on two assumptions about `MessagingUI`, whose definition is not part of this model. The `status` passed to `MessagingUI::new` (libtiny_tui/src/tui.rs:294-298) is what `get_ignore_state` then reports (libtiny_tui/src/tui.rs:355). `set_or_toggle_ignore(Some(v))` sets that state to `v`, and `None` flips it (libtiny_tui/src/tui.rs:1052-1072).
- The other callers of `apply_to_target` are not modelled, since each only forwards a call to the opaque view: `add_client_msg`, `add_privmsg`, `add_msg`, `add_err_msg`, `set_topic`, nick list changes and `set_nick`.
- Preconditions where the source panics: an active index into an empty list (`CurrentTab`, `handle_keypress`, `handle_editor_result`), `WidgetRet::Remove` (unimplemented in the source), `move_tab_right` on an empty list (its `len - 1` underflows), `server_tab_range` with no server tab before the index, and `close_server_tab`, `close_chan_tab` and `close_user_tab` when closing the active tab leaves no tab to select (`select_tab` indexes the list, libtiny_tui/src/tui.rs:717): `TuiClose.CanCloseServerTab` and `TuiClose.CanCloseAt` exclude that case, and the as-written closes do not promise an in-range active index otherwise.
- Notifications.NotifyPrivmsg: showing the desktop notification is I/O. `remove_irc_control_chars` is a parameter `clean`, because its definition is not part of this model.
- The underline attribute takes termbox's value 0x0200, because termbox_simple is not part of this model.
- The GTK `main` of the graphical front-end is not modelled.

## Findings

| source | as written | input that shows it | evidently intended | confidence | as-written member | corrected member |
|---|---|---|---|---|---|---|
| libtiny_tui/src/tui.rs:385-393 (and 425-434 for user tabs) | closing a tab adjusts the active index only when the closed tab was active | tabs `[s, s/#a, s/#b]`, `#b` active (index 2); close `#a` | the active index drops by one so `#b` stays active; as written the index 2 is past the end of the two remaining tabs | not executed | TuiClose.CloseChanTabStaleActive | TuiClose.CloseChanTabFixed, TuiClose.CloseUserTabFixed |
| libtiny_tui/src/tui.rs:329-339 | `close_server_tab` leaves the active index alone when the active tab survives | tabs `[a, a/#x, b]`, `b` active (index 2); close server `a` | the index follows `b` to 0; as written the index 2 is past the end of the one remaining tab | not executed | TuiClose.CloseServerTabStaleActive | TuiClose.CloseServerTabFixed |

Not listed as a finding: `new_user_tab` does not advance the active index
when it inserts at or before the active tab, while `new_chan_tab` does
(libtiny_tui/src/tui.rs:372-374). The index stays in range, but it may then
name a different tab. `Tui.NewUserTab` states this as written: it keeps the
index.

=== FILE: gui.dfy ===
/** The graphical front-end's owned copy of a message target, kept so a
    target can outlive the borrowed names it was built from. */
module Gui {
  import opened Msg

  datatype MsgTargetOwned =
    | OwnedServer(serv: string)
    | OwnedChan(serv: string, chan: string)
    | OwnedUser(serv: string, nick: string)
    | OwnedAllServTabs(serv: string)
    | OwnedCurrentTab

  /** `MsgTargetOwned::from`: the same variant with copies of its names. */
  function From(t: MsgTarget): (o: MsgTargetOwned)
    ensures t.Server? <==> o.OwnedServer?
    ensures t.Chan? <==> o.OwnedChan?
    ensures t.User? <==> o.OwnedUser?
    ensures t.AllServTabs? <==> o.OwnedAllServTabs?
    ensures t.CurrentTab? <==> o.OwnedCurrentTab?
    ensures !t.CurrentTab? ==> o.serv == t.serv
    ensures t.Chan? ==> o.chan == t.chan
    ensures t.User? ==> o.nick == t.nick
  {
    match t
    case Server(s) => OwnedServer(s)
    case Chan(s, c) => OwnedChan(s, c)
    case User(s, n) => OwnedUser(s, n)
    case AllServTabs(s) => OwnedAllServTabs(s)
    case CurrentTab => OwnedCurrentTab
  }

  /** `MsgTargetOwned::borrow`: the same-named target over the owned names. */
  function Borrow(o: MsgTargetOwned): (t: MsgTarget)
    ensures t.Server? <==> o.OwnedServer?
    ensures t.Chan? <==> o.OwnedChan?
    ensures t.User? <==> o.OwnedUser?
    ensures t.AllServTabs? <==> o.OwnedAllServTabs?
    ensures t.CurrentTab? <==> o.OwnedCurrentTab?
    ensures !o.OwnedCurrentTab? ==> t.serv == o.serv
    ensures o.OwnedChan? ==> t.chan == o.chan
    ensures o.OwnedUser? ==> t.nick == o.nick
  {
    match o
    case OwnedServer(s) => MsgTarget.Server(s)
    case OwnedChan(s, c) => MsgTarget.Chan(s, c)
    case OwnedUser(s, n) => MsgTarget.User(s, n)
    case OwnedAllServTabs(s) => MsgTarget.AllServTabs(s)
    case OwnedCurrentTab => CurrentTab
  }

  /** Borrowing an owned copy gives back the target it was made from. */
  lemma BorrowFrom(t: MsgTarget)
    ensures Borrow(From(t)) == t
  {
  }

  /** Copying a borrowed target gives back the owned value. */
  lemma FromBorrow(o: MsgTargetOwned)
    ensures From(Borrow(o)) == o
  {
  }
}

=== FILE: lookup.dfy ===
/** Linear lookups over the sources of the open tabs, in tab order. */
module Lookup {
  import opened Msg

  /** Smallest index at or after `from` holding `x`. */
  function FirstFrom(srcs: seq<MsgSource>, x: MsgSource, from: nat): (r: Option<nat>)
    requires from <= |srcs|
    ensures r.Some? ==> from <= r.value < |srcs| && srcs[r.value] == x
    ensures r.Some? ==> forall k :: from <= k < r.value ==> srcs[k] != x
    ensures r.None? <==> forall k :: from <= k < |srcs| ==> srcs[k] != x
    decreases |srcs| - from
  {
    if from == |srcs| then None
    else if srcs[from] == x then Some(from)
    else FirstFrom(srcs, x, from + 1)
  }

  /** Largest index below `upto` whose source belongs to server `serv` (a
      reverse scan). */
  function LastBefore(srcs: seq<MsgSource>, serv: string, upto: nat): (r: Option<nat>)
    requires upto <= |srcs|
    ensures r.Some? ==> r.value < upto && srcs[r.value].ServName() == serv
    ensures r.Some? ==> forall k :: r.value < k < upto ==> srcs[k].ServName() != serv
    ensures r.None? <==> forall k :: 0 <= k < upto ==> srcs[k].ServName() != serv
  {
    if upto == 0 then None
    else if srcs[upto - 1].ServName() == serv then Some(upto - 1)
    else LastBefore(srcs, serv, upto - 1)
  }

  /** Index of the server tab `serv`: the first exact `Serv` match. */
  function FindServTabIdx(srcs: seq<MsgSource>, serv: string): (r: Option<nat>)
    ensures r.Some? ==> r.value < |srcs| && srcs[r.value] == MsgSource.Serv(serv)
    ensures r.Some? ==> forall k :: 0 <= k < r.value ==> srcs[k] != MsgSource.Serv(serv)
    ensures r.None? <==> forall k :: 0 <= k < |srcs| ==> srcs[k] != MsgSource.Serv(serv)
  {
    FirstFrom(srcs, MsgSource.Serv(serv), 0)
  }

  /** Index of the channel tab `chan` of `serv`: the first exact `Chan` match. */
  function FindChanTabIdx(srcs: seq<MsgSource>, serv: string, chan: string): (r: Option<nat>)
    ensures r.Some? ==> r.value < |srcs| && srcs[r.value] == MsgSource.Chan(serv, chan)
    ensures r.Some? ==> forall k :: 0 <= k < r.value ==> srcs[k] != MsgSource.Chan(serv, chan)
    ensures r.None? <==> forall k :: 0 <= k < |srcs| ==> srcs[k] != MsgSource.Chan(serv, chan)
  {
    FirstFrom(srcs, MsgSource.Chan(serv, chan), 0)
  }

  /** Index of the private tab with `nick` on `serv`: the first exact `User` match. */
  function FindUserTabIdx(srcs: seq<MsgSource>, serv: string, nick: string): (r: Option<nat>)
    ensures r.Some? ==> r.value < |srcs| && srcs[r.value] == MsgSource.User(serv, nick)
    ensures r.Some? ==> forall k :: 0 <= k < r.value ==> srcs[k] != MsgSource.User(serv, nick)
    ensures r.None? <==> forall k :: 0 <= k < |srcs| ==> srcs[k] != MsgSource.User(serv, nick)
  {
    FirstFrom(srcs, MsgSource.User(serv, nick), 0)
  }

  /** Index of the last tab, of any kind, whose server name is `serv`. */
  function FindLastServTabIdx(srcs: seq<MsgSource>, serv: string): (r: Option<nat>)
    ensures r.Some? ==> r.value < |srcs| && srcs[r.value].ServName() == serv
    ensures r.Some? ==> forall k :: r.value < k < |srcs| ==> srcs[k].ServName() != serv
    ensures r.None? <==> forall k :: 0 <= k < |srcs| ==> srcs[k].ServName() != serv
  {
    LastBefore(srcs, serv, |srcs|)
  }

  /** `user_tab_exists`: some tab is the private tab with `nick` on `serv`. */
  function UserTabExists(srcs: seq<MsgSource>, serv: string, nick: string): (b: bool)
    ensures b <==> exists k :: 0 <= k < |srcs| && srcs[k] == MsgSource.User(serv, nick)
  {
    if |srcs| == 0 then false
    else
      var rest := UserTabExists(srcs[1..], serv, nick);
      assert forall k :: 0 < k < |srcs| ==> srcs[k] == srcs[1..][k - 1];
      srcs[0] == MsgSource.User(serv, nick) || rest
  }

  /** The existence test and the lookup agree. */
  lemma UserTabExistsIffFound(srcs: seq<MsgSource>, serv: string, nick: string)
    ensures UserTabExists(srcs, serv, nick) <==> FindUserTabIdx(srcs, serv, nick).Some?
  {
  }
}

=== FILE: messaging.dfy ===
/** The per-tab message view, kept opaque: the model records the flag it was
    created with, the nick it was last given, and the calls the controller
    makes on it, in order. How the view reacts to those calls (scrollback,
    rendering, input editing) is not part of this model. */
module Messaging {
  import opened Msg

  /** Failure reported by the external line editor. */
  datatype EditorError = Io | VarNotPresent | VarNotUnicode

  /** A call made on a tab's message view. */
  datatype ViewCall =
    | ClientErrMsg(text: string)
    | ClientNotifyMsg(text: string)
    | SetInputField(line: string)
    | AddInputFieldHistory(line: string)
    | Join(who: string)
    | EditorErr(err: EditorError)
    | ClearLines

  /** `ignore` is the ignore state the view reports: the status flag it was
      created with, until set or toggled; `nick` is the own nick it was last
      given. */
  datatype View = View(ignore: bool, nick: Option<string>, log: seq<ViewCall>)
  {
    /** `MessagingUI::new(.., status, ..)`: a fresh view with no calls yet. */
    static function Create(status: bool): (v: View)
      ensures v.ignore == status && v.nick.None? && |v.log| == 0
    {
      View(status, None, [])
    }

    /** Records one more call, changing nothing else. */
    function Record(call: ViewCall): (v: View)
      ensures v.log == log + [call]
      ensures v.ignore == ignore && v.nick == nick
    {
      this.(log := log + [call])
    }

    /** `set_or_toggle_ignore`: a given value replaces the ignore state,
        none flips it. */
    function SetOrToggleIgnore(value: Option<bool>): (v: View)
      ensures value.Some? ==> v.ignore == value.value
      ensures value.None? ==> v.ignore != ignore
      ensures v.nick == nick && v.log == log
    {
      this.(ignore := if value.Some? then value.value else !ignore)
    }

    function SetNick(n: string): (v: View)
      ensures v.nick == Some(n)
      ensures v.ignore == ignore && v.log == log
    {
      this.(nick := Some(n))
    }
  }
}

=== FILE: msg.dfy ===
/** Message sources, message targets and the small enumerations that every
    front-end of the client shares (tab style, notification level). */
module Msg {

  datatype Option<+T> = None | Some(value: T)

  /** Identity of a tab: a server, a channel on a server, or a private
      conversation with a user on a server. */
  datatype MsgSource =
    | Serv(serv: string)
    | Chan(serv: string, chan: string)
    | User(serv: string, nick: string)
  {
    /** Name of the server the source belongs to (every variant carries one). */
    function ServName(): string { serv }

    /** Label shown for a tab without an alias: the server, channel or nick name. */
    function VisibleName(): string
    {
      match this
      case Serv(s) => s
      case Chan(_, c) => c
      case User(_, n) => n
    }

    /** Exact target addressing this source. */
    function ToTarget(): (t: MsgTarget)
      ensures t.Server? || t.Chan? || t.User?
      ensures t.serv == serv
    {
      match this
      case Serv(s) => MsgTarget.Server(s)
      case Chan(s, c) => MsgTarget.Chan(s, c)
      case User(s, n) => MsgTarget.User(s, n)
    }
  }

  /** Addressing mode used to reach zero or more tabs; resolved on use, never stored. */
  datatype MsgTarget =
    | Server(serv: string)
    | Chan(serv: string, chan: string)
    | User(serv: string, nick: string)
    | AllServTabs(serv: string)
    | CurrentTab

  /** Urgency of an inactive tab, totally ordered Normal < NewMsg < Highlight. */
  datatype TabStyle = Normal | NewMsg | Highlight
  {
    function Rank(): nat
    {
      match this
      case Normal => 0
      case NewMsg => 1
      case Highlight => 2
    }
  }

  /** Per-tab desktop notification level. */
  datatype Notifier = Off | Mentions | Messages

  /** `hay` has `needle` as a contiguous sub-string (Rust's `str::contains`). */
  predicate Contains(hay: string, needle: string)
  {
    exists i :: 0 <= i <= |hay| && OccursAt(hay, needle, i)
  }

  predicate OccursAt(hay: string, needle: string, i: int)
  {
    0 <= i <= |hay| - |needle| && hay[i..i + |needle|] == needle
  }

  /** Characters eligible as switch keys. */
  predicate IsAlphabetic(c: char)
  {
    ('a' <= c <= 'z') || ('A' <= c <= 'Z')
  }

  predicate IsAscii(c: char)
  {
    (c as int) < 0x80
  }

  /** Number of bytes in the UTF-8 encoding of `s` (Rust's `str::len`). */
  function Utf8Len(s: string): (n: nat)
    ensures n >= |s|
    ensures n <= 4 * |s|
  {
    if |s| == 0 then 0
    else
      var c := s[0] as int;
      var w := if c < 0x80 then 1 else if c < 0x800 then 2 else if c < 0x10000 then 3 else 4;
      w + Utf8Len(s[1..])
  }

  /** On ASCII text the byte length is the character count. */
  lemma {:induction false} Utf8LenAscii(s: string)
    requires forall i :: 0 <= i < |s| ==> IsAscii(s[i])
    ensures Utf8Len(s) == |s|
  {
    if |s| > 0 {
      Utf8LenAscii(s[1..]);
    }
  }

  /** A single non-ASCII character already makes the byte length exceed the
      character count. */
  lemma {:induction false} Utf8LenNonAscii(s: string, k: nat)
    requires k < |s| && !IsAscii(s[k])
    ensures Utf8Len(s) > |s|
  {
    if k > 0 {
      Utf8LenNonAscii(s[1..], k - 1);
    }
  }

  /** Byte length and character count agree exactly on ASCII text. */
  lemma Utf8LenIsCountIffAscii(s: string)
    ensures Utf8Len(s) == |s| <==> forall i :: 0 <= i < |s| ==> IsAscii(s[i])
  {
    if forall i :: 0 <= i < |s| ==> IsAscii(s[i]) {
      Utf8LenAscii(s);
    } else {
      var k :| 0 <= k < |s| && !IsAscii(s[k]);
      Utf8LenNonAscii(s, k);
    }
  }
}

=== FILE: notifier.dfy ===
/** Desktop-notification decision for an incoming message: whether a
    notification is raised, and with which summary and body. Delivering it is
    outside this model. */
module Notifications {
  import opened Msg

  /** A notification to show. */
  datatype Notification = Notification(summary: string, body: string)

  /** Rank of a notification level: Off < Mentions < Messages. */
  function LevelRank(n: Notifier): nat
  {
    match n
    case Off => 0
    case Mentions => 1
    case Messages => 2
  }

  /** `notify_privmsg`: nothing for one's own messages; a channel message
      notifies on `Messages`, or on `Mentions` when it mentions us, with
      summary "<sender> in <chan>"; a private message notifies unless the
      level is `Off`, with summary "<nick> sent a private message" naming the
      target's nick; other targets never notify. The body is the message with
      IRC control characters removed by `clean`. */
  function NotifyPrivmsg(notifier: Notifier, sender: string, msg: string, target: MsgTarget,
                         ourNick: string, mention: bool, clean: string -> string): (r: Option<Notification>)
    ensures ourNick == sender ==> r.None?
    ensures !(target.Chan? || target.User?) ==> r.None?
    ensures target.Chan? && ourNick != sender ==>
      (r.Some? <==> (notifier == Messages || (notifier == Mentions && mention)))
    ensures target.User? && ourNick != sender ==> (r.Some? <==> notifier != Off)
    ensures r.Some? && target.Chan? ==> r.value.summary == sender + " in " + target.chan
    ensures r.Some? && target.User? ==> r.value.summary == target.nick + " sent a private message"
    ensures r.Some? ==> r.value.body == clean(msg)
  {
    if ourNick == sender then None
    else
      var body := clean(msg);
      match target
      case Chan(_, chan) =>
        if notifier == Messages || (notifier == Mentions && mention)
        then Some(Notification(sender + " in " + chan, body))
        else None
      case User(_, nick) =>
        if notifier != Off
        then Some(Notification(nick + " sent a private message", body))
        else None
      case _ => None
  }

  /** Raising the level never takes a notification away: what notifies at
      one level notifies, identically, at every higher level. */
  lemma NotifyMonotone(lo: Notifier, hi: Notifier, sender: string, msg: string, target: MsgTarget,
                       ourNick: string, mention: bool, clean: string -> string)
    requires LevelRank(lo) <= LevelRank(hi)
    requires NotifyPrivmsg(lo, sender, msg, target, ourNick, mention, clean).Some?
    ensures NotifyPrivmsg(hi, sender, msg, target, ourNick, mention, clean)
         == NotifyPrivmsg(lo, sender, msg, target, ourNick, mention, clean)
  {
  }

  /** A mention can only add a notification, never remove one. */
  lemma MentionOnlyAdds(notifier: Notifier, sender: string, msg: string, target: MsgTarget,
                        ourNick: string, clean: string -> string)
    requires NotifyPrivmsg(notifier, sender, msg, target, ourNick, false, clean).Some?
    ensures NotifyPrivmsg(notifier, sender, msg, target, ourNick, true, clean)
         == NotifyPrivmsg(notifier, sender, msg, target, ourNick, false, clean)
  {
  }
}

=== FILE: seqs.dfy ===
/** Vec-like edits on sequences: insertion, removal, retention and slice moves. */
module Seqs {

  /** `Vec::insert`: `x` lands at `idx`, later elements shift right by one. */
  function Insert<T>(s: seq<T>, idx: nat, x: T): (r: seq<T>)
    requires idx <= |s|
    ensures |r| == |s| + 1
    ensures r[idx] == x
    ensures forall k :: 0 <= k < idx ==> r[k] == s[k]
    ensures forall k :: idx <= k < |s| ==> r[k + 1] == s[k]
    ensures multiset(r) == multiset(s) + multiset{x}
  {
    assert s == s[..idx] + s[idx..];
    s[..idx] + [x] + s[idx..]
  }

  /** Inserting at the end appends. */
  lemma InsertAtEnd<T>(s: seq<T>, x: T)
    ensures Insert(s, |s|, x) == s + [x]
  {
  }

  /** Inserting at the end of `s + [a]` appends `a` and then `b`. */
  lemma InsertAfterAppend<T>(s: seq<T>, a: T, b: T)
    ensures Insert(s + [a], |s| + 1, b) == s + [a, b]
  {
    assert Insert(s + [a], |s| + 1, b) == s + [a] + [b];
  }

  /** `Vec::remove`: the element at `idx` goes, later elements shift left by one. */
  function RemoveAt<T>(s: seq<T>, idx: nat): (r: seq<T>)
    requires idx < |s|
    ensures |r| == |s| - 1
    ensures forall k :: 0 <= k < idx ==> r[k] == s[k]
    ensures forall k :: idx <= k < |r| ==> r[k] == s[k + 1]
    ensures multiset(r) + multiset{s[idx]} == multiset(s)
  {
    assert s == s[..idx] + [s[idx]] + s[idx + 1..];
    s[..idx] + s[idx + 1..]
  }

  /** `Vec::retain`: keeps, in order, exactly the elements satisfying `keep`. */
  function Retain<T>(s: seq<T>, keep: T -> bool): (r: seq<T>)
    ensures |r| <= |s|
    ensures forall k :: 0 <= k < |r| ==> keep(r[k])
    ensures forall k :: 0 <= k < |r| ==> r[k] in s
    ensures forall k :: 0 <= k < |s| && keep(s[k]) ==> s[k] in r
    decreases |s|
  {
    if |s| == 0 then []
    else (if keep(s[0]) then [s[0]] else []) + Retain(s[1..], keep)
  }

  /** Retaining over a concatenation retains each part. */
  lemma {:induction false} RetainAppend<T>(a: seq<T>, b: seq<T>, keep: T -> bool)
    ensures Retain(a + b, keep) == Retain(a, keep) + Retain(b, keep)
    decreases |a|
  {
    if |a| == 0 {
      assert a + b == b;
    } else {
      assert (a + b)[0] == a[0];
      assert (a + b)[1..] == a[1..] + b;
      RetainAppend(a[1..], b, keep);
    }
  }

  /** Retaining keeps no element more often than the sequence holds it. */
  lemma {:induction false} RetainSubMultiset<T>(s: seq<T>, keep: T -> bool)
    ensures multiset(Retain(s, keep)) <= multiset(s)
    decreases |s|
  {
    if |s| > 0 {
      RetainSubMultiset(s[1..], keep);
      assert s == [s[0]] + s[1..];
    }
  }

  /** Retaining everything changes nothing. */
  lemma {:induction false} RetainAll<T>(s: seq<T>, keep: T -> bool)
    requires forall k :: 0 <= k < |s| ==> keep(s[k])
    ensures Retain(s, keep) == s
    decreases |s|
  {
    if |s| > 0 {
      RetainAll(s[1..], keep);
    }
  }

  /** The element at `a`, when kept, sits in the retained sequence right after
      the retained elements before it. */
  lemma RetainIndex<T>(s: seq<T>, keep: T -> bool, a: nat)
    requires a < |s| && keep(s[a])
    ensures |Retain(s[..a], keep)| < |Retain(s, keep)|
    ensures Retain(s, keep)[|Retain(s[..a], keep)|] == s[a]
  {
    var t := s[a..];
    assert s == s[..a] + t;
    RetainAppend(s[..a], t, keep);
    assert t[0] == s[a];
    assert Retain(t, keep) == [s[a]] + Retain(t[1..], keep);
  }

  /** `Vec::drain(lo..hi)` followed by splicing the drained block back in at
      `at` of what remains. */
  function MoveBlock<T>(s: seq<T>, lo: nat, hi: nat, at: nat): (r: seq<T>)
    requires lo <= hi <= |s| && at + (hi - lo) <= |s|
    ensures |r| == |s| && multiset(r) == multiset(s)
    ensures r[at..at + (hi - lo)] == s[lo..hi]
  {
    var rest := s[..lo] + s[hi..];
    assert s == s[..lo] + s[lo..hi] + s[hi..];
    assert rest == rest[..at] + rest[at..];
    var r := rest[..at] + s[lo..hi] + rest[at..];
    assert r[at..at + (hi - lo)] == s[lo..hi];
    assert multiset(r) == multiset(rest[..at]) + multiset(s[lo..hi]) + multiset(rest[at..]);
    assert multiset(rest) == multiset(rest[..at]) + multiset(rest[at..]);
    assert multiset(rest) == multiset(s[..lo]) + multiset(s[hi..]);
    assert multiset(s) == multiset(s[..lo]) + multiset(s[lo..hi]) + multiset(s[hi..]);
    assert multiset(r) == multiset(rest) + multiset(s[lo..hi]);
    r
  }

  /** Moving a block to an earlier position puts the block, then the elements
      it jumped over, between the untouched prefix and suffix. */
  lemma MoveBlockBefore<T>(s: seq<T>, lo: nat, hi: nat, at: nat)
    requires at <= lo <= hi <= |s|
    ensures MoveBlock(s, lo, hi, at) == s[..at] + s[lo..hi] + s[at..lo] + s[hi..]
  {
    var rest := s[..lo] + s[hi..];
    assert rest[..at] == s[..at];
    assert rest[at..] == s[at..lo] + s[hi..];
  }

  /** Moving a block to a later position puts the elements it jumped over
      first, then the block. */
  lemma MoveBlockAfter<T>(s: seq<T>, lo: nat, hi: nat, at: nat, mid: nat)
    requires lo <= hi <= mid <= |s| && at + (hi - lo) == mid
    ensures MoveBlock(s, lo, hi, at) == s[..lo] + s[hi..mid] + s[lo..hi] + s[mid..]
  {
    var rest := s[..lo] + s[hi..];
    assert rest[..at] == s[..lo] + s[hi..mid];
    assert rest[at..] == s[mid..];
  }

  /** `Vec::remove(i)` then `Vec::insert(j, x)` with `j` next to `i`: the two
      neighbours trade places. */
  lemma RemoveInsertSwaps<T>(s: seq<T>, i: nat, j: nat)
    requires i < |s| && j < |s| && (j + 1 == i || i + 1 == j)
    ensures Insert(RemoveAt(s, i), j, s[i]) == s[i := s[j]][j := s[i]]
  {
  }

  /** Exchanging two elements permutes the sequence. */
  lemma SwapPermutes<T>(s: seq<T>, i: nat, j: nat)
    requires i < |s| && j < |s|
    ensures multiset(s[i := s[j]][j := s[i]]) == multiset(s)
  {
    var t := s[i := s[j]];
    assert multiset(t) == multiset(s) - multiset{s[i]} + multiset{s[j]};
  }
}

=== FILE: switch_key.dfy ===
/** Choice of the Alt-character shortcut ("switch key") of a new tab: the first
    alphabetic character of its name that no open tab uses yet, otherwise the
    alphabetic character with the fewest current users, earliest on ties. */
module SwitchKey {
  import opened Msg

  /** Number of tabs whose switch key is `c`. */
  function Uses(keys: seq<Option<char>>, c: char): nat
  {
    if |keys| == 0 then 0
    else Uses(keys[..|keys| - 1], c) + (if keys[|keys| - 1] == Some(c) then 1 else 0)
  }

  /** A key has users exactly when some tab carries it. */
  lemma {:induction false} UsesPositive(keys: seq<Option<char>>, c: char)
    ensures Uses(keys, c) > 0 <==> exists i :: 0 <= i < |keys| && keys[i] == Some(c)
    decreases |keys|
  {
    if |keys| > 0 {
      var init := keys[..|keys| - 1];
      UsesPositive(init, c);
      if exists i :: 0 <= i < |init| && init[i] == Some(c) {
        var i :| 0 <= i < |init| && init[i] == Some(c);
        assert keys[i] == Some(c);
      }
      if exists i :: 0 <= i < |keys| && keys[i] == Some(c) {
        var i :| 0 <= i < |keys| && keys[i] == Some(c);
        if i < |init| {
          assert init[i] == Some(c);
        }
      }
    }
  }

  /** The use-count table built by walking every open tab's switch key: a
      character is present exactly when it is in use, mapped to its number of
      users. */
  function KeyCounts(keys: seq<Option<char>>): (m: map<char, nat>)
    ensures forall c :: c in m <==> Uses(keys, c) > 0
    ensures forall c :: c in m ==> m[c] == Uses(keys, c)
  {
    if |keys| == 0 then map[]
    else
      var m := KeyCounts(keys[..|keys| - 1]);
      match keys[|keys| - 1]
      case None => m
      case Some(k) => m[k := if k in m then m[k] + 1 else 1]
  }

  /** Every alphabetic character among the first `i` of `name` is in use. */
  ghost predicate AllUsedBefore(name: string, counts: map<char, nat>, i: int)
  {
    forall k :: 0 <= k < i && k < |name| && IsAlphabetic(name[k]) ==> name[k] in counts
  }

  /** No character among the first `i` of `name` is alphabetic. */
  ghost predicate NoCandidate(name: string, i: int)
  {
    forall k :: 0 <= k < i && k < |name| ==> !IsAlphabetic(name[k])
  }

  /** `name[j]` is the first alphabetic character of `name` that no tab uses. */
  ghost predicate FirstUnusedAt(name: string, counts: map<char, nat>, j: int)
  {
    0 <= j < |name| && IsAlphabetic(name[j]) && name[j] !in counts
    && AllUsedBefore(name, counts, j)
  }

  /** Among the alphabetic characters of `name[..i]`, all of them in use,
      `name[j]` has the strictly smallest count of every earlier one and no
      larger count than any later one. */
  ghost predicate LeastUsedAt(name: string, counts: map<char, nat>, i: int, j: int)
  {
    0 <= j < i <= |name| && IsAlphabetic(name[j]) && name[j] in counts
    && (forall k :: 0 <= k < i && IsAlphabetic(name[k]) ==>
          name[k] in counts && counts[name[j]] <= counts[name[k]])
    && (forall k :: 0 <= k < j && IsAlphabetic(name[k]) ==> counts[name[k]] > counts[name[j]])
  }

  /** Reference description of the switch key a name should get. */
  ghost predicate IsSwitchChoice(name: string, counts: map<char, nat>, r: Option<char>)
  {
    match r
    case None => NoCandidate(name, |name|)
    case Some(c) =>
      exists j :: 0 <= j < |name| && name[j] == c
        && (FirstUnusedAt(name, counts, j)
            || (AllUsedBefore(name, counts, |name|) && LeastUsedAt(name, counts, |name|, j)))
  }

  /** The scan loop over the characters of the name: `ret` is the best candidate
      so far and `n` its use count. An unused alphabetic character ends the scan;
      a used one replaces the candidate only with a strictly smaller count. */
  function Scan(name: string, counts: map<char, nat>, i: nat, ret: Option<char>, n: nat): (r: Option<char>)
    requires i <= |name|
    requires AllUsedBefore(name, counts, i)
    requires ret.None? ==> NoCandidate(name, i) && n == 0
    requires ret.Some? ==>
      exists j :: LeastUsedAt(name, counts, i, j) && name[j] == ret.value && counts[name[j]] == n
    ensures IsSwitchChoice(name, counts, r)
    decreases |name| - i
  {
    if i == |name| then ret
    else
      var ch := name[i];
      if !IsAlphabetic(ch) then Scan(name, counts, i + 1, ret, n)
      else if ch !in counts then
        assert FirstUnusedAt(name, counts, i);
        Some(ch)
      else if ret.None? || n > counts[ch] then
        assert LeastUsedAt(name, counts, i + 1, i);
        Scan(name, counts, i + 1, Some(ch), counts[ch])
      else
        Scan(name, counts, i + 1, ret, n)
  }

  /** Switch key for a tab named `name`, given the use counts of the open tabs. */
  function ChooseSwitch(name: string, counts: map<char, nat>): (r: Option<char>)
    ensures IsSwitchChoice(name, counts, r)
  {
    Scan(name, counts, 0, None, 0)
  }

  /** The reference description admits exactly one answer, so `ChooseSwitch`
      is the only function satisfying it. */
  lemma SwitchChoiceUnique(name: string, counts: map<char, nat>, r1: Option<char>, r2: Option<char>)
    requires IsSwitchChoice(name, counts, r1)
    requires IsSwitchChoice(name, counts, r2)
    ensures r1 == r2
  {
    match r1
    case None =>
    case Some(c1) =>
      var j1 :| 0 <= j1 < |name| && name[j1] == c1
        && (FirstUnusedAt(name, counts, j1)
            || (AllUsedBefore(name, counts, |name|) && LeastUsedAt(name, counts, |name|, j1)));
      assert IsAlphabetic(name[j1]);
      match r2
      case None =>
      case Some(c2) =>
        var j2 :| 0 <= j2 < |name| && name[j2] == c2
          && (FirstUnusedAt(name, counts, j2)
              || (AllUsedBefore(name, counts, |name|) && LeastUsedAt(name, counts, |name|, j2)));
        assert j1 == j2;
  }

  /** A new tab shares its switch key with an open tab only when every
      alphabetic character of its name is already taken. */
  lemma SharedKeyOnlyWhenAllTaken(name: string, counts: map<char, nat>)
    ensures var r := ChooseSwitch(name, counts);
      r.Some? && r.value in counts ==> AllUsedBefore(name, counts, |name|)
  {
    var r := ChooseSwitch(name, counts);
    if r.Some? && r.value in counts {
      var j :| 0 <= j < |name| && name[j] == r.value
        && (FirstUnusedAt(name, counts, j)
            || (AllUsedBefore(name, counts, |name|) && LeastUsedAt(name, counts, |name|, j)));
      assert !FirstUnusedAt(name, counts, j);
    }
  }

  /** A name with an alphabetic character always gets a key; one without gets none. */
  lemma ChooseSwitchSomeIff(name: string, counts: map<char, nat>)
    ensures ChooseSwitch(name, counts).Some? <==> exists k :: 0 <= k < |name| && IsAlphabetic(name[k])
  {
    var r := ChooseSwitch(name, counts);
    if r.Some? {
      var j :| 0 <= j < |name| && name[j] == r.value
        && (FirstUnusedAt(name, counts, j)
            || (AllUsedBefore(name, counts, |name|) && LeastUsedAt(name, counts, |name|, j)));
      assert IsAlphabetic(name[j]);
    }
  }
}

=== FILE: tab.dfy ===
/** One tab of the terminal UI, how its label is drawn into the tab bar, and
    the tab-bar widget that holds the ordered list of tabs. */
module TuiTab {
  import opened Msg
  import opened Messaging
  import opened Termbox

  datatype Tab = Tab(
    alias: Option<string>,
    widget: View,
    src: MsgSource,
    style: TabStyle,
    /** Alt-character that switches to this tab. */
    switch: Option<char>,
    notifier: Notifier)
  {
    /** Label of the tab: the alias when one is set, the source's name otherwise. */
    function VisibleName(): string
    {
      match alias
      case Some(a) => a
      case None => src.VisibleName()
    }

    function SetStyle(s: TabStyle): (t: Tab)
      ensures t.style == s
      ensures t.alias == alias && t.widget == widget && t.src == src
      ensures t.switch == switch && t.notifier == notifier
    {
      this.(style := s)
    }

    /** Width of the label in columns, counted as the label's UTF-8 byte
        length; on an ASCII label this is the number of characters. */
    function Width(): (w: nat)
      ensures w >= |VisibleName()|
      ensures (forall i :: 0 <= i < |VisibleName()| ==> IsAscii(VisibleName()[i])) ==> w == |VisibleName()|
      ensures (exists i :: 0 <= i < |VisibleName()| && !IsAscii(VisibleName()[i])) ==> w > |VisibleName()|
    {
      var name := VisibleName();
      Utf8LenIsCountIffAscii(name);
      Utf8Len(name)
    }

    /** Draws the label at (x, y): active tabs in the active colour, others in
        the colour of their style; the first occurrence of the switch key is
        underlined. */
    function Draw(g: Grid, colors: Colors, x: int, y: int, active: bool): (g': Grid)
      ensures var st := if active then colors.tabActive else TabStyleColor(style, colors);
        var name := VisibleName();
        && (forall i :: 0 <= i < |name| ==>
              (x + i, y) in g'
              && g'[(x + i, y)]
                 == Cell(name[i], if FirstSwitchAt(name, switch, i) then st.fg | TB_UNDERLINE else st.fg, st.bg))
        && (forall p :: p in g' <==> p in g || InRun(p, x, y, |name|))
        && (forall p :: p in g && !InRun(p, x, y, |name|) ==> g'[p] == g[p])
    {
      var st := if active then colors.tabActive else TabStyleColor(style, colors);
      DrawLabelSpec(g, VisibleName(), x, y, st, switch, false);
      DrawLabel(g, VisibleName(), x, y, st, switch, false)
    }
  }

  /** The tab colours of the colour scheme. */
  datatype Colors = Colors(tabActive: Style, tabNormal: Style, tabNewMsg: Style, tabHighlight: Style)

  /** Colour of an inactive tab with the given style. */
  function TabStyleColor(style: TabStyle, colors: Colors): (s: Style)
    ensures style == Normal ==> s == colors.tabNormal
    ensures style == NewMsg ==> s == colors.tabNewMsg
    ensures style == Highlight ==> s == colors.tabHighlight
  {
    match style
    case Normal => colors.tabNormal
    case NewMsg => colors.tabNewMsg
    case Highlight => colors.tabHighlight
  }

  /** Index `i` holds the first occurrence of the switch key in `name`. */
  predicate FirstSwitchAt(name: string, switch: Option<char>, i: int)
  {
    0 <= i < |name| && switch == Some(name[i]) && forall k :: 0 <= k < i ==> name[k] != name[i]
  }

  /** The label loop: one cell per character; `drawn` records that the switch
      key has already been underlined. */
  function DrawLabel(g: Grid, name: string, x: int, y: int, st: Style, switch: Option<char>, drawn: bool): Grid
    decreases |name|
  {
    if |name| == 0 then g
    else
      var under := switch == Some(name[0]) && !drawn;
      var g1 := ChangeCell(g, x, y, name[0], if under then st.fg | TB_UNDERLINE else st.fg, st.bg);
      DrawLabel(g1, name[1..], x + 1, y, st, switch, drawn || under)
  }

  /** A position outside the run keeps its cell, or stays empty. */
  lemma {:induction false} DrawLabelFrame(g: Grid, name: string, x: int, y: int, st: Style, switch: Option<char>, drawn: bool, p: (int, int))
    requires !InRun(p, x, y, |name|)
    ensures var g' := DrawLabel(g, name, x, y, st, switch, drawn);
      (p in g' <==> p in g) && (p in g ==> g'[p] == g[p])
    decreases |name|
  {
    if |name| > 0 {
      var under := switch == Some(name[0]) && !drawn;
      var g1 := ChangeCell(g, x, y, name[0], if under then st.fg | TB_UNDERLINE else st.fg, st.bg);
      DrawLabelFrame(g1, name[1..], x + 1, y, st, switch, drawn || under, p);
    }
  }

  /** The first cell of the run holds the first character, underlined exactly
      when it is the switch key and none was underlined before. */
  lemma DrawLabelHead(g: Grid, name: string, x: int, y: int, st: Style, switch: Option<char>, drawn: bool)
    requires 0 < |name|
    ensures var g' := DrawLabel(g, name, x, y, st, switch, drawn);
      && (x, y) in g'
      && g'[(x, y)]
         == Cell(name[0], if !drawn && FirstSwitchAt(name, switch, 0) then st.fg | TB_UNDERLINE else st.fg, st.bg)
  {
    var under := switch == Some(name[0]) && !drawn;
    var g1 := ChangeCell(g, x, y, name[0], if under then st.fg | TB_UNDERLINE else st.fg, st.bg);
    DrawLabelFrame(g1, name[1..], x + 1, y, st, switch, drawn || under, (x, y));
    assert under <==> !drawn && FirstSwitchAt(name, switch, 0);
    assert DrawLabel(g, name, x, y, st, switch, drawn) == DrawLabel(g1, name[1..], x + 1, y, st, switch, drawn || under);
  }

  /** Past the first character, the first occurrence of the switch key in the
      label is the first occurrence in the rest, unless the first character
      already was the switch key. */
  lemma FirstSwitchShift(name: string, switch: Option<char>, drawn: bool, i: int)
    requires 0 < i < |name|
    ensures var under := switch == Some(name[0]) && !drawn;
      !(drawn || under) && FirstSwitchAt(name[1..], switch, i - 1) <==> !drawn && FirstSwitchAt(name, switch, i)
  {
    var rest := name[1..];
    assert rest[i - 1] == name[i];
    assert forall k :: 0 <= k < i - 1 ==> rest[k] == name[k + 1];
    if !drawn && FirstSwitchAt(name, switch, i) {
      assert name[0] != name[i];
    }
  }

  /** Cell `i` of the run holds the i-th character of the label, underlined
      exactly when it is the first occurrence of the switch key and no earlier
      cell was underlined. */
  lemma {:induction false} DrawLabelCell(g: Grid, name: string, x: int, y: int, st: Style, switch: Option<char>, drawn: bool, i: int)
    requires 0 <= i < |name|
    ensures var g' := DrawLabel(g, name, x, y, st, switch, drawn);
      && (x + i, y) in g'
      && g'[(x + i, y)]
         == Cell(name[i], if !drawn && FirstSwitchAt(name, switch, i) then st.fg | TB_UNDERLINE else st.fg, st.bg)
    decreases |name|
  {
    if i == 0 {
      DrawLabelHead(g, name, x, y, st, switch, drawn);
    } else {
      var under := switch == Some(name[0]) && !drawn;
      var g1 := ChangeCell(g, x, y, name[0], if under then st.fg | TB_UNDERLINE else st.fg, st.bg);
      var rest := name[1..];
      DrawLabelCell(g1, rest, x + 1, y, st, switch, drawn || under, i - 1);
      assert rest[i - 1] == name[i];
      FirstSwitchShift(name, switch, drawn, i);
      assert DrawLabel(g, name, x, y, st, switch, drawn) == DrawLabel(g1, rest, x + 1, y, st, switch, drawn || under);
      assert (x + 1 + (i - 1), y) == (x + i, y);
    }
  }

  /** Drawing a label fills exactly the run: every cell of the run is set as
      `DrawLabelCell` states, and everything outside it is left alone. */
  lemma DrawLabelSpec(g: Grid, name: string, x: int, y: int, st: Style, switch: Option<char>, drawn: bool)
    ensures var g' := DrawLabel(g, name, x, y, st, switch, drawn);
      && (forall i :: 0 <= i < |name| ==>
            (x + i, y) in g'
            && g'[(x + i, y)]
               == Cell(name[i], if !drawn && FirstSwitchAt(name, switch, i) then st.fg | TB_UNDERLINE else st.fg, st.bg))
      && (forall p :: p in g' <==> p in g || InRun(p, x, y, |name|))
      && (forall p :: p in g && !InRun(p, x, y, |name|) ==> g'[p] == g[p])
  {
    var g' := DrawLabel(g, name, x, y, st, switch, drawn);
    forall i | 0 <= i < |name|
      ensures (x + i, y) in g'
        && g'[(x + i, y)]
           == Cell(name[i], if !drawn && FirstSwitchAt(name, switch, i) then st.fg | TB_UNDERLINE else st.fg, st.bg)
    {
      DrawLabelCell(g, name, x, y, st, switch, drawn, i);
    }
    forall p | !InRun(p, x, y, |name|)
      ensures (p in g' <==> p in g) && (p in g ==> g'[p] == g[p])
    {
      DrawLabelFrame(g, name, x, y, st, switch, drawn, p);
    }
    forall p | InRun(p, x, y, |name|)
      ensures p in g'
    {
      DrawLabelCell(g, name, x, y, st, switch, drawn, p.0 - x);
    }
  }

  /** At most one cell of a label is the first occurrence of the switch key. */
  lemma UnderlineAtMostOnce(name: string, switch: Option<char>, i: int, j: int)
    requires FirstSwitchAt(name, switch, i) && FirstSwitchAt(name, switch, j)
    ensures i == j
  {
  }

  /** Highest style among `tabs`, `Normal` when there are none. */
  function MaxStyle(tabs: seq<Tab>): (s: TabStyle)
    ensures forall k :: 0 <= k < |tabs| ==> tabs[k].style.Rank() <= s.Rank()
    ensures s == Normal || exists k :: 0 <= k < |tabs| && tabs[k].style == s
  {
    if |tabs| == 0 then Normal
    else
      var rest := MaxStyle(tabs[1..]);
      assert forall k :: 1 <= k < |tabs| ==> tabs[k] == tabs[1..][k - 1];
      if tabs[0].style.Rank() >= rest.Rank() then tabs[0].style else rest
  }

  /** Colour of a scroll arrow: the colour of the most urgent style among the
      tabs hidden on that side. */
  function ArrowStyle(tabs: seq<Tab>, colors: Colors): (s: Style)
    ensures exists m: TabStyle ::
      s == TabStyleColor(m, colors)
      && (forall k :: 0 <= k < |tabs| ==> tabs[k].style.Rank() <= m.Rank())
      && (m == Normal || exists k :: 0 <= k < |tabs| && tabs[k].style == m)
    ensures |tabs| == 0 ==> s == colors.tabNormal
  {
    var m := MaxStyle(tabs);
    TabStyleColor(m, colors)
  }

  /** The tab-bar widget: ordered tabs, the active index and layout state. */
  datatype TabWidget = TabWidget(
    tabs: seq<Tab>,
    active: nat,
    width: int,
    /** Height, invalidated on resize and tab addition. */
    height: Option<int>,
    maxHeight: int,
    /** Range of indices of the visible tabs when scrolling. */
    scrollWindow: Option<(nat, nat)>,
    visible: bool)
  {
    function GetActiveIdx(): nat { active }
  }

  /** A fresh tab bar: no tabs, first index active, one row high, not scrolled, visible. */
  function NewTabWidget(width: int, maxHeight: int): (w: TabWidget)
    ensures |w.tabs| == 0 && w.GetActiveIdx() == 0
    ensures w.height == Some(1) && w.scrollWindow.None? && w.visible
    ensures w.width == width && w.maxHeight == maxHeight
  {
    TabWidget([], 0, width, Some(1), maxHeight, None, true)
  }
}

=== FILE: tab_order.dfy ===
/** The order of the tab list, read on the tabs' sources: each server's tabs
    form one block headed by its server tab, and no server has two server
    tabs. Inserting and removing tabs the way the controller does keeps that
    order. */
module TabOrder {
  import opened Msg
  import opened Seqs
  import opened Lookup

  /** The list starts with a server tab, every channel or user tab belongs to
      the server of the tab before it, and no server tab is repeated. */
  predicate WellFormed(srcs: seq<MsgSource>)
  {
    Headed(srcs) && DistinctServers(srcs)
  }

  /** The list starts with a server tab and is chained. */
  predicate Headed(srcs: seq<MsgSource>)
  {
    (|srcs| > 0 ==> srcs[0].Serv?) && Chained(srcs)
  }

  /** Every channel or user tab has the server name of the tab before it. */
  predicate Chained(srcs: seq<MsgSource>)
  {
    forall k :: 0 < k < |srcs| && !srcs[k].Serv? ==> srcs[k].ServName() == srcs[k - 1].ServName()
  }

  /** Each server tab occurs once. Stated on the multiset of sources, so any
      rearrangement of the tabs keeps it. */
  predicate DistinctServers(srcs: seq<MsgSource>)
  {
    forall x :: x in multiset(srcs) && x.Serv? ==> multiset(srcs)[x] == 1
  }

  /** Two tabs at different indices are never the same server tab. */
  lemma DistinctServerAt(s: seq<MsgSource>, i: nat, j: nat)
    requires DistinctServers(s) && i < j < |s| && s[i].Serv?
    ensures s[i] != s[j]
  {
    var x := s[i];
    assert s == s[..j] + s[j..];
    assert s[..j][i] == x;
    assert multiset(s)[x] == multiset(s[..j])[x] + multiset(s[j..])[x];
    assert multiset(s[j..])[x] == 0;
    assert s[j..][0] == s[j];
  }

  /** Every tab of a well-formed list has the server tab of its server at or
      before it, with only tabs of that server in between. */
  lemma {:induction false} HeadOfBlock(s: seq<MsgSource>, j: nat) returns (h: nat)
    requires Headed(s) && j < |s|
    ensures h <= j && s[h] == MsgSource.Serv(s[j].ServName())
    ensures forall k :: h <= k <= j ==> s[k].ServName() == s[j].ServName()
  {
    if s[j].Serv? {
      h := j;
    } else {
      h := HeadOfBlock(s, j - 1);
    }
  }

  /** Each server's tabs are contiguous: every tab between two tabs of one
      server belongs to that server. */
  lemma OneBlockPerServer(s: seq<MsgSource>, i: nat, k: nat, j: nat)
    requires WellFormed(s) && i <= k <= j < |s| && s[i].ServName() == s[j].ServName()
    ensures s[k].ServName() == s[j].ServName()
  {
    var hj := HeadOfBlock(s, j);
    if k < hj {
      var hi := HeadOfBlock(s, i);
      DistinctServerAt(s, hi, hj);
    }
  }

  /** A list holding each element at most as often as a list without repeated
      server tabs has no repeated server tabs either. */
  lemma SubMultisetDistinct(a: seq<MsgSource>, b: seq<MsgSource>)
    requires DistinctServers(b) && multiset(a) <= multiset(b)
    ensures DistinctServers(a)
  {
    forall x | x in multiset(a) && x.Serv?
      ensures multiset(a)[x] == 1
    {
      assert multiset(a)[x] <= multiset(b)[x];
    }
  }

  /** Sources `close_server_tab` keeps: those of other servers. */
  function OtherServer(serv: string): MsgSource -> bool
  {
    (s: MsgSource) => s.ServName() != serv
  }

  /** Dropping every tab of one server keeps the chain, and the first kept tab
      is a server tab unless it is the first tab itself. */
  lemma {:induction false} RetainChained(s: seq<MsgSource>, serv: string)
    requires Chained(s)
    ensures Chained(Retain(s, OtherServer(serv)))
    ensures |Retain(s, OtherServer(serv))| > 0 && !Retain(s, OtherServer(serv))[0].Serv? ==>
      Retain(s, OtherServer(serv))[0] == s[0]
    decreases |s|
  {
    if |s| > 0 {
      var keep := OtherServer(serv);
      var t := s[1..];
      var rt := Retain(t, keep);
      RetainChained(t, serv);
      var head := if keep(s[0]) then [s[0]] else [];
      var r := head + rt;
      assert Retain(s, keep) == r;
      if |rt| > 0 && !rt[0].Serv? {
        assert rt[0] == t[0] == s[1];
      }
      if keep(s[0]) {
        forall k | 0 < k < |r| && !r[k].Serv?
          ensures r[k].ServName() == r[k - 1].ServName()
        {
          assert r[k] == rt[k - 1];
          if k > 1 {
            assert r[k - 1] == rt[k - 2];
          }
        }
      }
    }
  }

  /** The tabs `close_server_tab` keeps of a well-formed list are well formed. */
  lemma RetainWellFormed(s: seq<MsgSource>, serv: string)
    requires WellFormed(s)
    ensures WellFormed(Retain(s, OtherServer(serv)))
  {
    RetainChained(s, serv);
    RetainSubMultiset(s, OtherServer(serv));
    SubMultisetDistinct(Retain(s, OtherServer(serv)), s);
  }

  /** A channel or user tab inserted right after a tab of its own server keeps
      the order well formed. */
  lemma InsertAfterKeepsWellFormed(srcs: seq<MsgSource>, l: nat, x: MsgSource)
    requires WellFormed(srcs) && l < |srcs|
    requires !x.Serv? && x.ServName() == srcs[l].ServName()
    ensures WellFormed(Insert(srcs, l + 1, x))
  {
    var r := Insert(srcs, l + 1, x);
    forall k | 0 < k < |r| && !r[k].Serv?
      ensures r[k].ServName() == r[k - 1].ServName()
    {
      if k == l + 2 {
        assert r[k] == srcs[l + 1] && r[k - 1] == x;
      } else if k > l + 2 {
        assert r[k] == srcs[k - 1] && r[k - 1] == srcs[k - 2];
      }
    }
    forall y | y in multiset(r) && y.Serv?
      ensures multiset(r)[y] == 1
    {
      assert y != x;
    }
  }

  /** Removing a channel or user tab keeps the order well formed. */
  lemma RemoveNonServerKeepsWellFormed(srcs: seq<MsgSource>, idx: nat)
    requires WellFormed(srcs) && idx < |srcs| && !srcs[idx].Serv?
    ensures WellFormed(RemoveAt(srcs, idx))
  {
    var r := RemoveAt(srcs, idx);
    forall k | 0 < k < |r| && !r[k].Serv?
      ensures r[k].ServName() == r[k - 1].ServName()
    {
      if k == idx {
        assert r[k] == srcs[idx + 1] && r[k - 1] == srcs[idx - 1];
        assert srcs[idx + 1].ServName() == srcs[idx].ServName();
      } else if k > idx {
        assert r[k] == srcs[k + 1] && r[k - 1] == srcs[k];
      }
    }
    SubMultisetDistinct(r, srcs);
  }

  /** Appending the server tab of a server that has none keeps the order well
      formed. */
  lemma AppendServerKeepsWellFormed(srcs: seq<MsgSource>, serv: string)
    requires WellFormed(srcs) && FindServTabIdx(srcs, serv).None?
    ensures WellFormed(srcs + [MsgSource.Serv(serv)])
  {
    var r := srcs + [MsgSource.Serv(serv)];
    assert forall k :: 0 <= k < |srcs| ==> r[k] == srcs[k];
    assert MsgSource.Serv(serv) !in multiset(srcs);
  }

  /** Inserting a channel tab that was not open makes the lookup find it at
      the insertion index. */
  lemma FindChanAfterInsert(srcs: seq<MsgSource>, i: nat, serv: string, chan: string)
    requires i <= |srcs| && FindChanTabIdx(srcs, serv, chan).None?
    ensures FindChanTabIdx(Insert(srcs, i, MsgSource.Chan(serv, chan)), serv, chan) == Some(i)
  {
    var r := Insert(srcs, i, MsgSource.Chan(serv, chan));
    assert forall k :: 0 <= k < i ==> r[k] == srcs[k];
  }

  /** Inserting a private tab that was not open makes the lookup find it at
      the insertion index. */
  lemma FindUserAfterInsert(srcs: seq<MsgSource>, i: nat, serv: string, nick: string)
    requires i <= |srcs| && FindUserTabIdx(srcs, serv, nick).None?
    ensures FindUserTabIdx(Insert(srcs, i, MsgSource.User(serv, nick)), serv, nick) == Some(i)
  {
    var r := Insert(srcs, i, MsgSource.User(serv, nick));
    assert forall k :: 0 <= k < i ==> r[k] == srcs[k];
  }

  /** Appending the server tab of a server without tabs makes both the server
      lookup and the last-tab-of-server lookup find it at the end, while its
      channel and user lookups still find nothing. */
  lemma FindAfterServerAppend(srcs: seq<MsgSource>, serv: string, chan: string, nick: string)
    requires FindLastServTabIdx(srcs, serv).None?
    ensures FindServTabIdx(srcs, serv).None?
    ensures FindServTabIdx(srcs + [MsgSource.Serv(serv)], serv) == Some(|srcs|)
    ensures FindLastServTabIdx(srcs + [MsgSource.Serv(serv)], serv) == Some(|srcs|)
    ensures FindChanTabIdx(srcs + [MsgSource.Serv(serv)], serv, chan).None?
    ensures FindUserTabIdx(srcs + [MsgSource.Serv(serv)], serv, nick).None?
  {
    var r := srcs + [MsgSource.Serv(serv)];
    assert forall k :: 0 <= k < |srcs| ==> r[k] == srcs[k];
    assert r[|srcs|].ServName() == serv;
  }

  /** A piece of a chained list that starts with a server tab is headed. */
  lemma SliceHeaded(s: seq<MsgSource>, i: nat, j: nat)
    requires Chained(s) && i <= j <= |s| && (i < j ==> s[i].Serv?)
    ensures Headed(s[i..j])
  {
    var t := s[i..j];
    forall k | 0 < k < |t| && !t[k].Serv?
      ensures t[k].ServName() == t[k - 1].ServName()
    {
      assert t[k] == s[i + k] && t[k - 1] == s[i + k - 1];
    }
  }

  /** Headed lists concatenate to a headed list. */
  lemma ConcatHeaded(a: seq<MsgSource>, b: seq<MsgSource>)
    requires Headed(a) && Headed(b)
    ensures Headed(a + b)
  {
    var r := a + b;
    forall k | 0 < k < |r| && !r[k].Serv?
      ensures r[k].ServName() == r[k - 1].ServName()
    {
      if k < |a| {
        assert r[k] == a[k] && r[k - 1] == a[k - 1];
      } else {
        assert r[k] == b[k - |a|] && r[k - 1] == b[k - |a| - 1];
      }
    }
  }

  /** Exchanging two adjacent server blocks `[p, a)` and `[a, e)` keeps the
      order well formed. */
  lemma SwapBlocksKeepsWellFormed(s: seq<MsgSource>, p: nat, a: nat, e: nat)
    requires WellFormed(s) && p <= a <= e <= |s|
    requires p < a ==> s[p].Serv?
    requires a < e ==> s[a].Serv?
    requires e < |s| ==> s[e].Serv?
    ensures WellFormed(s[..p] + s[a..e] + s[p..a] + s[e..])
  {
    SliceHeaded(s, 0, p);
    assert s[..p] == s[0..p];
    SliceHeaded(s, a, e);
    SliceHeaded(s, p, a);
    SliceHeaded(s, e, |s|);
    assert s[e..] == s[e..|s|];
    ConcatHeaded(s[..p], s[a..e]);
    ConcatHeaded(s[..p] + s[a..e], s[p..a]);
    ConcatHeaded(s[..p] + s[a..e] + s[p..a], s[e..]);
    SwapBlocksPermutes(s, p, a, e);
    SubMultisetDistinct(s[..p] + s[a..e] + s[p..a] + s[e..], s);
  }

  /** Exchanging two adjacent pieces rearranges the list. */
  lemma SwapBlocksPermutes(s: seq<MsgSource>, p: nat, a: nat, e: nat)
    requires p <= a <= e <= |s|
    ensures multiset(s[..p] + s[a..e] + s[p..a] + s[e..]) == multiset(s)
  {
    assert s == s[..p] + s[p..a] + s[a..e] + s[e..];
  }

  /** Exchanging two adjacent channel or user tabs keeps the order well formed. */
  lemma SwapNeighboursKeepsWellFormed(s: seq<MsgSource>, i: nat, j: nat)
    requires WellFormed(s) && i < |s| && j < |s| && (i + 1 == j || j + 1 == i)
    requires !s[i].Serv? && !s[j].Serv?
    ensures WellFormed(s[i := s[j]][j := s[i]])
  {
    var lo := if i < j then i else j;
    var r := s[i := s[j]][j := s[i]];
    forall k | 0 < k < |r| && !r[k].Serv?
      ensures r[k].ServName() == r[k - 1].ServName()
    {
      if k == lo {
        assert s[lo + 1].ServName() == s[lo].ServName() == s[lo - 1].ServName();
      } else if k == lo + 2 {
        assert s[lo + 2].ServName() == s[lo + 1].ServName();
      }
    }
    SwapPermutes(s, i, j);
    SubMultisetDistinct(r, s);
  }
}

=== FILE: termbox.dfy ===
/** The terminal screen as a map from (column, row) to a cell, and the
    row-write helper that prints a run of characters in one style. */
module Termbox {

  /** Foreground and background attributes of a colour-scheme entry. */
  datatype Style = Style(fg: bv16, bg: bv16)

  datatype Cell = Cell(ch: char, fg: bv16, bg: bv16)

  type Grid = map<(int, int), Cell>

  /** Attribute bit that underlines a cell, or-ed into the foreground. */
  const TB_UNDERLINE: bv16 := 0x0200

  /** One `change_cell` call: the cell at (x, y) is replaced. */
  function ChangeCell(g: Grid, x: int, y: int, ch: char, fg: bv16, bg: bv16): Grid
  {
    g[(x, y) := Cell(ch, fg, bg)]
  }

  /** Columns `[x, x + n)` of row `y`. */
  predicate InRun(p: (int, int), x: int, y: int, n: nat)
  {
    p.1 == y && x <= p.0 < x + n
  }

  /** `print_chars`: the i-th character lands in column `x + i` of row `y` with
      the style's attributes; nothing outside that run changes. */
  function PrintChars(g: Grid, x: int, y: int, style: Style, chars: seq<char>): (g': Grid)
    ensures forall i :: 0 <= i < |chars| ==>
      (x + i, y) in g' && g'[(x + i, y)] == Cell(chars[i], style.fg, style.bg)
    ensures forall p :: p in g' <==> p in g || InRun(p, x, y, |chars|)
    ensures forall p :: p in g && !InRun(p, x, y, |chars|) ==> g'[p] == g[p]
    ensures |chars| == 0 ==> g' == g
    decreases |chars|
  {
    if |chars| == 0 then g
    else
      var g' := PrintChars(ChangeCell(g, x, y, chars[0], style.fg, style.bg), x + 1, y, style, chars[1..]);
      assert forall i :: 1 <= i < |chars| ==> chars[i] == chars[1..][i - 1];
      g'
  }
}

=== FILE: tui_close.dfy ===
/** Closing tabs: `close_server_tab`, `close_chan_tab` and `close_user_tab` as
    the controller performs them, the tab order they keep, and corrected
    versions that keep the active index on the tab it named. */
module TuiClose {
  import opened Msg
  import opened Seqs
  import opened Lookup
  import opened Messaging
  import opened TuiTab
  import opened TabOrder
  import opened Tui

  /** Index selected after closing the tab at `idx` while it was active: the
      one before it, or the first. */
  function AfterClose(idx: nat): nat
  {
    if idx == 0 then 0 else idx - 1
  }

  /** Closing server `serv` while its server tab is active leaves a tab to
      select (the source would index past the end of the list otherwise). */
  predicate CanCloseServerTab(c: Tui, serv: string)
  {
    match FindServTabIdx(Sources(c.Tabs()), serv)
    case None => true
    case Some(i) => c.Active() == i ==> AfterClose(i) < |Retain(c.Tabs(), KeepOtherServers(serv))|
  }

  /** `close_server_tab`: when the server tab exists, removes every tab of
      that server, keeping the others in order; if the server tab was the
      active one, the tab before it (or the first) is selected. The active
      index is otherwise left as it was. */
  function CloseServerTab(c: Tui, serv: string): (r: Tui)
    requires CanCloseServerTab(c, serv)
    ensures r.next == c.next && r.prev == c.prev
    ensures FindServTabIdx(Sources(c.Tabs()), serv).None? ==> r == c
    ensures FindServTabIdx(Sources(c.Tabs()), serv).Some? ==>
      var i := FindServTabIdx(Sources(c.Tabs()), serv).value;
      && Sources(r.Tabs()) == Retain(Sources(c.Tabs()), OtherServer(serv))
      && (forall k :: 0 <= k < |r.Tabs()| ==> r.Tabs()[k].src.ServName() != serv)
      && (c.Active() == i ==>
            && r.Active() == AfterClose(i) < |r.Tabs()|
            && r.Tabs() == Restyle(Retain(c.Tabs(), KeepOtherServers(serv)), AfterClose(i), Normal))
      && (c.Active() != i ==> r.Active() == c.Active() && r.Tabs() == Retain(c.Tabs(), KeepOtherServers(serv)))
  {
    match FindServTabIdx(Sources(c.Tabs()), serv)
    case None => c
    case Some(i) =>
      var kept := Retain(c.Tabs(), KeepOtherServers(serv));
      SourcesRetain(c.Tabs(), serv);
      assert forall k :: 0 <= k < |kept| ==> KeepOtherServers(serv)(kept[k]);
      var c1 := c.WithTabs(kept);
      if c.Active() == i then SelectTab(c1, AfterClose(i)) else c1
  }

  /** Closing the tab found, if any, does not empty the list while it is active
      (the source would index past the end of the list otherwise). */
  predicate CanCloseAt(c: Tui, found: Option<nat>)
  {
    found.Some? && found.value < |c.Tabs()| && c.Active() == found.value ==> |c.Tabs()| > 1
  }

  /** Common tail of `close_chan_tab` and `close_user_tab`: removes the tab at
      `idx`; if it was active, the tab before it (or the first) is selected.
      The active index is otherwise left as it was. */
  function CloseAt(c: Tui, idx: nat): (r: Tui)
    requires idx < |c.Tabs()|
    requires c.Active() == idx ==> |c.Tabs()| > 1
    ensures r.next == c.next && r.prev == c.prev
    ensures Sources(r.Tabs()) == RemoveAt(Sources(c.Tabs()), idx)
    ensures c.Active() == idx ==>
      r.Active() == AfterClose(idx) < |r.Tabs()| && r.Tabs() == Restyle(RemoveAt(c.Tabs(), idx), AfterClose(idx), Normal)
    ensures c.Active() != idx ==> r.Active() == c.Active() && r.Tabs() == RemoveAt(c.Tabs(), idx)
  {
    SourcesRemoveAt(c.Tabs(), idx);
    var c1 := c.WithTabs(RemoveAt(c.Tabs(), idx));
    if c.Active() == idx then SelectTab(c1, AfterClose(idx)) else c1
  }

  /** `close_chan_tab`: removes only the first matching channel tab; nothing
      changes when there is none. */
  function CloseChanTab(c: Tui, serv: string, chan: string): (r: Tui)
    requires CanCloseAt(c, FindChanTabIdx(Sources(c.Tabs()), serv, chan))
    ensures r.next == c.next && r.prev == c.prev
    ensures FindChanTabIdx(Sources(c.Tabs()), serv, chan).None? ==> r == c
    ensures FindChanTabIdx(Sources(c.Tabs()), serv, chan).Some? ==>
      var i := FindChanTabIdx(Sources(c.Tabs()), serv, chan).value;
      && Sources(r.Tabs()) == RemoveAt(Sources(c.Tabs()), i)
      && (c.Active() == i ==>
            r.Active() == AfterClose(i) && r.Tabs() == Restyle(RemoveAt(c.Tabs(), i), AfterClose(i), Normal))
      && (c.Active() != i ==> r.Active() == c.Active() && r.Tabs() == RemoveAt(c.Tabs(), i))
  {
    match FindChanTabIdx(Sources(c.Tabs()), serv, chan)
    case None => c
    case Some(i) => CloseAt(c, i)
  }

  /** `close_user_tab`: removes only the first matching private tab; nothing
      changes when there is none. */
  function CloseUserTab(c: Tui, serv: string, nick: string): (r: Tui)
    requires CanCloseAt(c, FindUserTabIdx(Sources(c.Tabs()), serv, nick))
    ensures r.next == c.next && r.prev == c.prev
    ensures FindUserTabIdx(Sources(c.Tabs()), serv, nick).None? ==> r == c
    ensures FindUserTabIdx(Sources(c.Tabs()), serv, nick).Some? ==>
      var i := FindUserTabIdx(Sources(c.Tabs()), serv, nick).value;
      && Sources(r.Tabs()) == RemoveAt(Sources(c.Tabs()), i)
      && (c.Active() == i ==>
            r.Active() == AfterClose(i) && r.Tabs() == Restyle(RemoveAt(c.Tabs(), i), AfterClose(i), Normal))
      && (c.Active() != i ==> r.Active() == c.Active() && r.Tabs() == RemoveAt(c.Tabs(), i))
  {
    match FindUserTabIdx(Sources(c.Tabs()), serv, nick)
    case None => c
    case Some(i) => CloseAt(c, i)
  }

  /** Closing a server keeps the tab order well formed. */
  lemma CloseServerTabKeepsWellFormed(c: Tui, serv: string)
    requires CanCloseServerTab(c, serv) && WellFormed(Sources(c.Tabs()))
    ensures WellFormed(Sources(CloseServerTab(c, serv).Tabs()))
  {
    RetainWellFormed(Sources(c.Tabs()), serv);
  }

  /** Closing a channel tab keeps the tab order well formed. */
  lemma CloseChanTabKeepsWellFormed(c: Tui, serv: string, chan: string)
    requires CanCloseAt(c, FindChanTabIdx(Sources(c.Tabs()), serv, chan)) && WellFormed(Sources(c.Tabs()))
    ensures WellFormed(Sources(CloseChanTab(c, serv, chan).Tabs()))
  {
    match FindChanTabIdx(Sources(c.Tabs()), serv, chan)
    case None =>
    case Some(i) => RemoveNonServerKeepsWellFormed(Sources(c.Tabs()), i);
  }

  /** Closing a private tab keeps the tab order well formed. */
  lemma CloseUserTabKeepsWellFormed(c: Tui, serv: string, nick: string)
    requires CanCloseAt(c, FindUserTabIdx(Sources(c.Tabs()), serv, nick)) && WellFormed(Sources(c.Tabs()))
    ensures WellFormed(Sources(CloseUserTab(c, serv, nick).Tabs()))
  {
    match FindUserTabIdx(Sources(c.Tabs()), serv, nick)
    case None =>
    case Some(i) => RemoveNonServerKeepsWellFormed(Sources(c.Tabs()), i);
  }

  /** A tab for the examples below: no alias, a fresh view, style `Normal`. */
  function PlainTab(src: MsgSource): Tab
  {
    Tab(None, View.Create(true), src, Normal, None, Mentions)
  }

  /** A controller over `tabs` with `active` selected. */
  function PlainTui(tabs: seq<Tab>, active: nat, next: Step, prev: Step): Tui
  {
    Tui(NewTabWidget(80, 3).(tabs := tabs, active := active), next, prev)
  }

  /** As written, closing a channel tab before the active one leaves the
      active index where it was: with tabs `[s, #a, #b]` and `#b` active,
      closing `#a` leaves index 2 active in a list of two tabs. */
  lemma CloseChanTabStaleActive(next: Step, prev: Step)
    ensures var c := PlainTui([PlainTab(MsgSource.Serv("s")), PlainTab(MsgSource.Chan("s", "#a")),
                               PlainTab(MsgSource.Chan("s", "#b"))], 2, next, prev);
      && c.Valid()
      && FindChanTabIdx(Sources(c.Tabs()), "s", "#a") == Some(1)
      && CanCloseAt(c, FindChanTabIdx(Sources(c.Tabs()), "s", "#a"))
      && !CloseChanTab(c, "s", "#a").Valid()
  {
    var c := PlainTui([PlainTab(MsgSource.Serv("s")), PlainTab(MsgSource.Chan("s", "#a")),
                       PlainTab(MsgSource.Chan("s", "#b"))], 2, next, prev);
    var srcs := Sources(c.Tabs());
    assert srcs[0] != MsgSource.Chan("s", "#a");
    assert srcs[1] == MsgSource.Chan("s", "#a");
  }

  /** As written, closing a server whose block precedes the active tab leaves
      the active index where it was: with tabs `[a, a/#x, b]` and `b` active,
      closing server `a` leaves index 2 active in a list of one tab. */
  lemma CloseServerTabStaleActive(next: Step, prev: Step)
    ensures var c := PlainTui([PlainTab(MsgSource.Serv("a")), PlainTab(MsgSource.Chan("a", "#x")),
                               PlainTab(MsgSource.Serv("b"))], 2, next, prev);
      && c.Valid()
      && FindServTabIdx(Sources(c.Tabs()), "a") == Some(0)
      && CanCloseServerTab(c, "a")
      && !CloseServerTab(c, "a").Valid()
  {
    var c := PlainTui([PlainTab(MsgSource.Serv("a")), PlainTab(MsgSource.Chan("a", "#x")),
                       PlainTab(MsgSource.Serv("b"))], 2, next, prev);
    var srcs := [MsgSource.Serv("a"), MsgSource.Chan("a", "#x"), MsgSource.Serv("b")];
    assert Sources(c.Tabs()) == srcs;
    var other := OtherServer("a");
    assert Retain(srcs[2..], other) == [MsgSource.Serv("b")] by {
      assert srcs[2..][1..] == [];
    }
    assert Retain(srcs[1..], other) == [MsgSource.Serv("b")] by {
      assert srcs[1..][1..] == srcs[2..];
    }
    assert Retain(srcs, other) == [MsgSource.Serv("b")];
    var r := CloseServerTab(c, "a");
    assert r.Active() == 2 && |r.Tabs()| == |Sources(r.Tabs())| == 1;
  }

  /** Corrected tail of `close_chan_tab` and `close_user_tab`: removing a tab
      before the active one moves the active index back by one, so that it
      names the same tab. */
  function CloseAtFixed(c: Tui, idx: nat): (r: Tui)
    requires c.Valid() && idx < |c.Tabs()|
    requires c.Active() == idx ==> |c.Tabs()| > 1
    ensures r.Valid() && r.next == c.next && r.prev == c.prev
    ensures Sources(r.Tabs()) == RemoveAt(Sources(c.Tabs()), idx)
    ensures c.Active() != idx ==> r.Tabs() == RemoveAt(c.Tabs(), idx) && r.Tabs()[r.Active()] == c.Tabs()[c.Active()]
    ensures c.Active() <= idx ==> r == CloseAt(c, idx)
  {
    if c.Active() > idx then CloseBeforeActive(c, idx) else CloseAt(c, idx)
  }

  /** Removes a tab before the active one and moves the active index back by
      one, onto the same tab. */
  function CloseBeforeActive(c: Tui, idx: nat): (r: Tui)
    requires c.Valid() && idx < c.Active()
    ensures r.Valid() && r.next == c.next && r.prev == c.prev
    ensures Sources(r.Tabs()) == RemoveAt(Sources(c.Tabs()), idx)
    ensures r.Tabs() == RemoveAt(c.Tabs(), idx) && r.Tabs()[r.Active()] == c.Tabs()[c.Active()]
  {
    var tabs := RemoveAt(c.Tabs(), idx);
    SourcesRemoveAt(c.Tabs(), idx);
    assert tabs[c.Active() - 1] == c.Tabs()[c.Active()];
    c.WithTabs(tabs).WithActive(c.Active() - 1)
  }

  /** Corrected `close_chan_tab`: the active tab stays selected unless it is
      the one closed. */
  function CloseChanTabFixed(c: Tui, serv: string, chan: string): (r: Tui)
    requires c.Valid() && CanCloseAt(c, FindChanTabIdx(Sources(c.Tabs()), serv, chan))
    ensures r.Valid()
    ensures FindChanTabIdx(Sources(c.Tabs()), serv, chan).None? ==> r == c
    ensures FindChanTabIdx(Sources(c.Tabs()), serv, chan).Some? ==>
      var i := FindChanTabIdx(Sources(c.Tabs()), serv, chan).value;
      && Sources(r.Tabs()) == RemoveAt(Sources(c.Tabs()), i)
      && (c.Active() != i ==> r.Tabs() == RemoveAt(c.Tabs(), i) && r.Tabs()[r.Active()] == c.Tabs()[c.Active()])
      && (c.Active() == i ==>
            r.Active() == AfterClose(i) && r.Tabs() == Restyle(RemoveAt(c.Tabs(), i), AfterClose(i), Normal))
  {
    match FindChanTabIdx(Sources(c.Tabs()), serv, chan)
    case None => c
    case Some(i) => CloseAtFixed(c, i)
  }

  /** Corrected `close_user_tab`: the active tab stays selected unless it is
      the one closed. */
  function CloseUserTabFixed(c: Tui, serv: string, nick: string): (r: Tui)
    requires c.Valid() && CanCloseAt(c, FindUserTabIdx(Sources(c.Tabs()), serv, nick))
    ensures r.Valid()
    ensures FindUserTabIdx(Sources(c.Tabs()), serv, nick).None? ==> r == c
    ensures FindUserTabIdx(Sources(c.Tabs()), serv, nick).Some? ==>
      var i := FindUserTabIdx(Sources(c.Tabs()), serv, nick).value;
      && Sources(r.Tabs()) == RemoveAt(Sources(c.Tabs()), i)
      && (c.Active() != i ==> r.Tabs() == RemoveAt(c.Tabs(), i) && r.Tabs()[r.Active()] == c.Tabs()[c.Active()])
      && (c.Active() == i ==>
            r.Active() == AfterClose(i) && r.Tabs() == Restyle(RemoveAt(c.Tabs(), i), AfterClose(i), Normal))
  {
    match FindUserTabIdx(Sources(c.Tabs()), serv, nick)
    case None => c
    case Some(i) => CloseAtFixed(c, i)
  }

  /** Position, among the tabs kept by closing `serv`, of the first tab at or
      after the active one. */
  function KeptBefore(c: Tui, serv: string): nat
    requires c.Active() <= |c.Tabs()|
  {
    |Retain(c.Tabs()[..c.Active()], KeepOtherServers(serv))|
  }

  /** Closing server `serv` while one of its tabs is active leaves a tab to
      select. */
  predicate CanCloseServerTabFixed(c: Tui, serv: string)
    requires c.Valid()
  {
    FindServTabIdx(Sources(c.Tabs()), serv).Some? && c.Active() < |c.Tabs()|
      && !KeepOtherServers(serv)(c.Tabs()[c.Active()])
    ==> |Retain(c.Tabs(), KeepOtherServers(serv))| > 0
  }

  /** The kept tabs with the active tab, which is kept, still selected. */
  function KeepActive(c: Tui, serv: string): (r: Tui)
    requires c.Active() < |c.Tabs()| && KeepOtherServers(serv)(c.Tabs()[c.Active()])
    ensures r.Valid() && r.next == c.next && r.prev == c.prev
    ensures r.Tabs() == Retain(c.Tabs(), KeepOtherServers(serv))
    ensures r.Tabs()[r.Active()] == c.Tabs()[c.Active()]
  {
    RetainIndex(c.Tabs(), KeepOtherServers(serv), c.Active());
    c.WithTabs(Retain(c.Tabs(), KeepOtherServers(serv))).WithActive(KeptBefore(c, serv))
  }

  /** The kept tabs with the kept tab before the removed active one (or the
      first) selected. */
  function SelectBeforeRemoved(c: Tui, serv: string): (r: Tui)
    requires c.Active() < |c.Tabs()| && !KeepOtherServers(serv)(c.Tabs()[c.Active()])
    requires |Retain(c.Tabs(), KeepOtherServers(serv))| > 0
    ensures r.Valid() && r.next == c.next && r.prev == c.prev
    ensures Sources(r.Tabs()) == Sources(Retain(c.Tabs(), KeepOtherServers(serv)))
    ensures r.Active() == AfterClose(KeptBefore(c, serv))
    ensures r.Tabs() == Restyle(Retain(c.Tabs(), KeepOtherServers(serv)), r.Active(), Normal)
  {
    var keep := KeepOtherServers(serv);
    var kept := Retain(c.Tabs(), keep);
    var p := KeptBefore(c, serv);
    assert p <= |kept| by {
      assert c.Tabs() == c.Tabs()[..c.Active()] + c.Tabs()[c.Active()..];
      RetainAppend(c.Tabs()[..c.Active()], c.Tabs()[c.Active()..], keep);
    }
    SelectTab(c.WithTabs(kept), AfterClose(p))
  }

  /** Corrected `close_server_tab`: an active tab of another server stays
      selected at its new index; when the active tab is one of the closed
      server's, the kept tab before it (or the first) is selected. */
  function CloseServerTabFixed(c: Tui, serv: string): (r: Tui)
    requires c.Valid() && CanCloseServerTabFixed(c, serv)
    ensures r.Valid() && r.next == c.next && r.prev == c.prev
    ensures FindServTabIdx(Sources(c.Tabs()), serv).None? ==> r == c
    ensures FindServTabIdx(Sources(c.Tabs()), serv).Some? ==>
      && 0 < |c.Tabs()|
      && Sources(r.Tabs()) == Retain(Sources(c.Tabs()), OtherServer(serv))
      && |r.Tabs()| == |Retain(c.Tabs(), KeepOtherServers(serv))| && r.Active() < |r.Tabs()|
      && (c.Tabs()[c.Active()].src.ServName() != serv ==>
            r.Tabs() == Retain(c.Tabs(), KeepOtherServers(serv)) && r.Tabs()[r.Active()] == c.Tabs()[c.Active()])
      && (c.Tabs()[c.Active()].src.ServName() == serv ==>
            && r.Active() == AfterClose(KeptBefore(c, serv))
            && r.Tabs() == Restyle(Retain(c.Tabs(), KeepOtherServers(serv)), r.Active(), Normal))
  {
    match FindServTabIdx(Sources(c.Tabs()), serv)
    case None => c
    case Some(i) =>
      SourcesRetain(c.Tabs(), serv);
      if KeepOtherServers(serv)(c.Tabs()[c.Active()]) then KeepActive(c, serv)
      else SelectBeforeRemoved(c, serv)
  }
}

=== FILE: tui_cmd.dfy ===
/** Commands the terminal front-end handles itself (`/clear`, `/ignore`,
    `/notify`, `/switch`, `/statusline`, `/reload`), and the `/switch` and
    `/notify` effects on the tab bar. */
module TuiCmd {
  import opened Msg
  import opened Messaging
  import opened TuiTab
  import opened Tui
  import opened TuiTarget

  /** Separators `split_whitespace` splits on (the ASCII ones). */
  predicate IsSpace(c: char)
  {
    c == ' ' || c == '\t' || c == '\n' || c == '\r' || c == '\U{0B}' || c == '\U{0C}'
  }

  /** A non-empty run of non-separator characters. */
  predicate IsWord(w: string)
  {
    |w| > 0 && forall i :: 0 <= i < |w| ==> !IsSpace(w[i])
  }

  /** `s` without its leading separators. */
  function TrimStart(s: string): (t: string)
    ensures |t| <= |s| && t == s[|s| - |t|..]
    ensures |t| > 0 ==> !IsSpace(t[0])
    ensures forall i :: 0 <= i < |s| - |t| ==> IsSpace(s[i])
  {
    if |s| > 0 && IsSpace(s[0]) then TrimStart(s[1..]) else s
  }

  /** Length of the word `s` starts with. */
  function WordLen(s: string): (n: nat)
    ensures n <= |s|
    ensures forall i :: 0 <= i < n ==> !IsSpace(s[i])
    ensures n < |s| ==> IsSpace(s[n])
    ensures |s| > 0 && !IsSpace(s[0]) ==> n > 0
  {
    if |s| > 0 && !IsSpace(s[0]) then 1 + WordLen(s[1..]) else 0
  }

  /** `str::split_whitespace`: the words of `s`, in order. */
  function Words(s: string): (ws: seq<string>)
    ensures forall j :: 0 <= j < |ws| ==> IsWord(ws[j])
    decreases |s|
  {
    var t := TrimStart(s);
    if |t| == 0 then []
    else
      var n := WordLen(t);
      var ws := Words(t[n..]);
      FirstWord(t);
      WordsCons1(t[..n], ws);
      [t[..n]] + ws
  }

  /** A string that starts outside a separator starts with a word. */
  lemma FirstWord(t: string)
    requires |t| > 0 && !IsSpace(t[0])
    ensures WordLen(t) > 0 && IsWord(t[..WordLen(t)])
  {
    var n := WordLen(t);
    forall i | 0 <= i < n ensures !IsSpace(t[..n][i]) { assert t[..n][i] == t[i]; }
  }

  /** A word in front of words gives words. */
  lemma WordsCons1(w: string, ws: seq<string>)
    requires IsWord(w) && forall j :: 0 <= j < |ws| ==> IsWord(ws[j])
    ensures forall j :: 0 <= j < |[w] + ws| ==> IsWord(([w] + ws)[j])
  {
    forall j | 0 <= j < |[w] + ws| ensures IsWord(([w] + ws)[j]) {
      if j > 0 { assert ([w] + ws)[j] == ws[j - 1]; }
    }
  }

  /** Words joined by single spaces. */
  function Unwords(ws: seq<string>): string
  {
    if |ws| == 0 then ""
    else if |ws| == 1 then ws[0]
    else ws[0] + " " + Unwords(ws[1..])
  }

  /** Splitting words joined by single spaces gives back the words. */
  lemma {:induction false} WordsUnwords(ws: seq<string>)
    requires forall j :: 0 <= j < |ws| ==> IsWord(ws[j])
    ensures Words(Unwords(ws)) == ws
    decreases |ws|
  {
    if |ws| == 1 {
      WordsOfWord(ws[0]);
      assert Unwords(ws) == ws[0];
    } else if |ws| > 1 {
      AllWordsTail(ws);
      WordsUnwords(ws[1..]);
      WordsUnwordsStep(ws);
    }
  }

  /** The tail of a list of words is a list of words. */
  lemma AllWordsTail(ws: seq<string>)
    requires |ws| > 0 && forall j :: 0 <= j < |ws| ==> IsWord(ws[j])
    ensures forall j :: 0 <= j < |ws[1..]| ==> IsWord(ws[1..][j])
  {
    forall j | 0 <= j < |ws[1..]| ensures IsWord(ws[1..][j]) { assert ws[1..][j] == ws[j + 1]; }
  }

  /** The inductive step of `WordsUnwords`: one more word in front. */
  lemma WordsUnwordsStep(ws: seq<string>)
    requires |ws| > 1 && IsWord(ws[0]) && Words(Unwords(ws[1..])) == ws[1..]
    ensures Words(Unwords(ws)) == ws
  {
    var w, rest := ws[0], Unwords(ws[1..]);
    assert Unwords(ws) == w + " " + rest;
    WordsCons(w, rest);
    assert ws == [w] + ws[1..];
  }

  /** A single word splits into itself. */
  lemma WordsOfWord(w: string)
    requires IsWord(w)
    ensures Words(w) == [w]
  {
    assert TrimStart(w) == w;
    WordLenAll(w);
    assert w[..|w|] == w;
    assert TrimStart(w[|w|..]) == [];
  }

  /** A word, a space and the rest split into the word and the rest's words. */
  lemma WordsCons(w: string, rest: string)
    requires IsWord(w)
    ensures Words(w + " " + rest) == [w] + Words(rest)
  {
    var s := w + " " + rest;
    assert TrimStart(s) == s;
    WordLenPrefix(w, " " + rest);
    assert s == w + (" " + rest);
    assert s[..|w|] == w && s[|w|..] == " " + rest;
    WordsAfterSpace(rest);
  }

  /** A word is read to its end. */
  lemma {:induction false} WordLenAll(w: string)
    requires forall i :: 0 <= i < |w| ==> !IsSpace(w[i])
    ensures WordLen(w) == |w|
    decreases |w|
  {
    if |w| > 0 {
      WordLenAll(w[1..]);
    }
  }

  /** A word followed by a separator is read up to the separator. */
  lemma {:induction false} WordLenPrefix(w: string, rest: string)
    requires forall i :: 0 <= i < |w| ==> !IsSpace(w[i])
    requires |rest| > 0 && IsSpace(rest[0])
    ensures WordLen(w + rest) == |w|
    decreases |w|
  {
    if |w| == 0 {
      assert w + rest == rest;
    } else {
      assert (w + rest)[1..] == w[1..] + rest;
      WordLenPrefix(w[1..], rest);
    }
  }

  /** Leading separators do not change the words. */
  lemma WordsAfterSpace(rest: string)
    ensures Words(" " + rest) == Words(rest)
  {
    var s := " " + rest;
    assert s[0] == ' ' && s[1..] == rest;
    assert TrimStart(s) == TrimStart(rest);
    WordsOfTrimmed(s);
    WordsOfTrimmed(rest);
  }

  /** The words of a string are those of its trimmed form. */
  lemma WordsOfTrimmed(s: string)
    ensures Words(s) == var t := TrimStart(s); if |t| == 0 then [] else [t[..WordLen(t)]] + Words(t[WordLen(t)..])
  {
  }

  /** A command the front-end recognises, read from the words of the input. */
  datatype Cmd =
    | Clear
    | Ignore
    | Notify(args: seq<string>)
    | Switch(name: Option<string>)
    | Statusline
    | Reload
    | NotACmd

  /** Dispatch on the first word, as `try_handle_cmd` does. */
  function ParseCmd(cmd: string): (c: Cmd)
    ensures c == Clear <==> |Words(cmd)| > 0 && Words(cmd)[0] == "clear"
    ensures c == Ignore <==> |Words(cmd)| > 0 && Words(cmd)[0] == "ignore"
    ensures c.Notify? <==> |Words(cmd)| > 0 && Words(cmd)[0] == "notify"
    ensures c.Switch? <==> |Words(cmd)| > 0 && Words(cmd)[0] == "switch"
    ensures c == Statusline <==> |Words(cmd)| > 0 && Words(cmd)[0] == "statusline"
    ensures c == Reload <==> |Words(cmd)| > 0 && Words(cmd)[0] == "reload"
    ensures c.Notify? ==> Words(cmd) == ["notify"] + c.args
    ensures c.Switch? ==>
      && |Words(cmd)| > 0 && Words(cmd)[0] == "switch"
      && (c.name.Some? <==> |Words(cmd)| > 1)
      && (c.name.Some? ==> c.name.value == Words(cmd)[1])
    ensures c.NotACmd? <==>
      (|Words(cmd)| == 0 || Words(cmd)[0] !in {"clear", "ignore", "notify", "switch", "statusline", "reload"})
  {
    var ws := Words(cmd);
    if |ws| == 0 then NotACmd
    else if ws[0] == "clear" then Clear
    else if ws[0] == "ignore" then Ignore
    else if ws[0] == "notify" then Notify(ws[1..])
    else if ws[0] == "switch" then Switch(if |ws| > 1 then Some(ws[1]) else None)
    else if ws[0] == "statusline" then Statusline
    else if ws[0] == "reload" then Reload
    else NotACmd
  }

  const NotifyUsage: string := "/notify usage: /notify [off|mentions|messages]"
  const SwitchUsage: string := "/switch usage: /switch <tab name>"

  /** Level a `/notify` argument selects, with the confirmation shown. */
  function NotifyLevel(w: string): (r: Option<(Notifier, string)>)
    ensures r.Some? <==> w in {"off", "mentions", "messages"}
    ensures w == "off" ==> r == Some((Off, "Notifications turned off"))
    ensures w == "mentions" ==> r.Some? && r.value.0 == Mentions
    ensures w == "messages" ==> r.Some? && r.value.0 == Messages
    ensures r.Some? && r.value.0 != Off ==> r.value.1 == NotifyModeText(r.value.0)
  {
    if w == "off" then Some((Off, "Notifications turned off"))
    else if w == "mentions" then Some((Mentions, "Notifications enabled for mentions"))
    else if w == "messages" then Some((Messages, "Notifications enabled for all messages"))
    else None
  }

  /** Tabs that `/notify` and `/ignore` issued from tab `src` address: every
      tab of the server for a server tab, the tab itself otherwise. */
  function LevelTarget(src: MsgSource): (t: MsgTarget)
    ensures !src.Serv? ==> t == src.ToTarget()
    ensures src.Serv? ==> t == AllServTabs(src.serv)
  {
    match src
    case Serv(s) => AllServTabs(s)
    case Chan(s, c) => MsgTarget.Chan(s, c)
    case User(s, n) => MsgTarget.User(s, n)
  }

  /** `c` with `call` recorded in the view of the active tab. */
  function OnActive(c: Tui, call: ViewCall): (r: Tui)
    requires c.Active() < |c.Tabs()|
    ensures r.Active() == c.Active() && r.next == c.next && r.prev == c.prev
    ensures |r.Tabs()| == |c.Tabs()| && Sources(r.Tabs()) == Sources(c.Tabs())
    ensures forall k :: 0 <= k < |c.Tabs()| && k != c.Active() ==> r.Tabs()[k] == c.Tabs()[k]
    ensures r.Tabs()[c.Active()].widget.log == c.Tabs()[c.Active()].widget.log + [call]
  {
    var a := c.Active();
    c.WithTabs(c.Tabs()[a := c.Tabs()[a].(widget := c.Tabs()[a].widget.Record(call))])
  }

  /** `notify`: no argument shows the active tab's level; one known level
      confirms it on the active tab and then sets it on the tabs of `src`
      (every tab of the server for a server tab), opening that tab when it is
      missing; anything else shows the usage on the active tab. */
  ghost predicate Notified(c: Tui, words: seq<string>, src: MsgSource, r: Tui)
    requires c.Valid() && c.Active() < |c.Tabs()|
  {
    && r.Valid() && r.next == c.next && r.prev == c.prev
    && (|words| == 0 ==>
          r.Active() == c.Active() && r.Tabs() == OnActive(c, ClientNotifyMsg(NotifyModeText(c.Tabs()[c.Active()].notifier))).Tabs())
    && ((|words| > 1 || (|words| == 1 && NotifyLevel(words[0]).None?)) ==>
          r.Active() == c.Active() && r.Tabs() == OnActive(c, ClientErrMsg(NotifyUsage)).Tabs())
    && (|words| == 1 && NotifyLevel(words[0]).Some? ==>
          var level, text := NotifyLevel(words[0]).value.0, NotifyLevel(words[0]).value.1;
          var c1, target := OnActive(c, ClientNotifyMsg(text)), LevelTarget(src);
          var targets := Resolve(Sources(c.Tabs()), c.Active(), target);
          if |targets| > 0 then
            && |r.Tabs()| == |c.Tabs()| && r.Active() == c.Active()
            && forall k :: 0 <= k < |c.Tabs()| ==>
                 r.Tabs()[k] == if k in targets then c1.Tabs()[k].(notifier := level) else c1.Tabs()[k]
          else
            && OpenedIdx(c1.Tabs(), target) < |r.Tabs()| && OpenedAround(c1, target, r)
            && r.Tabs()[OpenedIdx(c1.Tabs(), target)]
               == OpenedTab(c1.Tabs(), target, r.Tabs()[OpenedIdx(c1.Tabs(), target)].switch).(notifier := level))
  }

  /** `notify` as a method: its effect is `Notified`. */
  method NotifyCmd(c: Tui, words: seq<string>, src: MsgSource) returns (r: Tui)
    requires c.Valid() && c.Active() < |c.Tabs()|
    ensures Notified(c, words, src, r)
  {
    if |words| == 0 {
      r := ShowNotifyModeOf(c, CurrentTab);
      assert r.Tabs() == OnActive(c, ClientNotifyMsg(NotifyModeText(c.Tabs()[c.Active()].notifier))).Tabs();
    } else if |words| != 1 || NotifyLevel(words[0]).None? {
      r := AddClientErrMsg(c, NotifyUsage, CurrentTab);
      assert r.Tabs() == OnActive(c, ClientErrMsg(NotifyUsage)).Tabs();
    } else {
      var level, text := NotifyLevel(words[0]).value.0, NotifyLevel(words[0]).value.1;
      var c1 := AddClientNotifyMsg(c, text, CurrentTab);
      var noted := OnActive(c, ClientNotifyMsg(text));
      assert c1.Tabs() == noted.Tabs();
      r := SetNotifierOf(c1, level, LevelTarget(src));
      if |Resolve(Sources(c.Tabs()), c.Active(), LevelTarget(src))| == 0 {
        OpenedAroundSameStart(c1, noted, LevelTarget(src), r);
      }
    }
  }

  /** `switch`: the first tab, in bar order, whose server, channel or nick
      name contains `s` becomes active unless it already is; with no such
      tab nothing changes. */
  ghost predicate SwitchedTo(c: Tui, s: string, r: Tui)
  {
    && r.Valid() && r.next == c.next && r.prev == c.prev
    && ((forall k :: 0 <= k < |c.Tabs()| ==> !Contains(c.Tabs()[k].src.VisibleName(), s)) ==> r == c)
    && forall i :: 0 <= i < |c.Tabs()| && Contains(c.Tabs()[i].src.VisibleName(), s)
                   && (forall k :: 0 <= k < i ==> !Contains(c.Tabs()[k].src.VisibleName(), s)) ==>
         if i == c.Active() then r == c else r.Active() == i && r.Tabs() == Restyle(c.Tabs(), i, Normal)
  }

  /** `switch` as a method: its effect is `SwitchedTo`. */
  method SwitchTo(c: Tui, s: string) returns (r: Tui)
    requires c.Valid()
    ensures SwitchedTo(c, s, r)
  {
    var tabs := c.Tabs();
    var k := 0;
    var found := false;
    while k < |tabs| && !found
      invariant 0 <= k <= |tabs|
      invariant found ==> 0 < k && Contains(tabs[k - 1].src.VisibleName(), s)
      invariant forall j :: 0 <= j < (if found then k - 1 else k) ==> !Contains(tabs[j].src.VisibleName(), s)
      decreases |tabs| - k, if found then 0 else 1
    {
      found := Contains(tabs[k].src.VisibleName(), s);
      k := k + 1;
    }
    r := c;
    if found && k - 1 != c.Active() {
      r := SelectTab(c, k - 1);
    }
  }

  /** `/switch` without a name: the usage goes to the active tab. */
  ghost predicate SwitchUsageShown(c: Tui, r: Tui)
    requires c.Active() < |c.Tabs()|
  {
    && r.Valid() && r.next == c.next && r.prev == c.prev
    && r.Active() == c.Active() && r.Tabs() == OnActive(c, ClientErrMsg(SwitchUsage)).Tabs()
  }

  /** Effect of the recognised command `p`, issued from tab `src`, on the tab
      bar: `/clear` clears the tab of `src`; `/ignore` and `/notify` act on
      every tab of the server for a server tab and on the tab itself
      otherwise; `/switch` selects by name or shows its usage; `/statusline`
      and `/reload` leave the tab bar as it is. */
  ghost predicate CmdOutcome(c: Tui, p: Cmd, src: MsgSource, r: Tui)
    requires c.Valid()
    requires p.Notify? || p == Switch(None) ==> c.Active() < |c.Tabs()|
  {
    match p
    case Clear => Cleared(c, src.ToTarget(), r)
    case Ignore => IgnoreToggled(c, LevelTarget(src), r)
    case Notify(args) => Notified(c, args, src, r)
    case Switch(name) => if name.Some? then SwitchedTo(c, name.value, r) else SwitchUsageShown(c, r)
    case _ => r == c
  }

  /** Effect of a recognised command on the tab bar. */
  method RunCmd(c: Tui, p: Cmd, src: MsgSource) returns (r: Tui)
    requires c.Valid()
    requires p.Notify? || p == Switch(None) ==> c.Active() < |c.Tabs()|
    ensures r.Valid()
    ensures p in {NotACmd, Statusline, Reload} ==> r == c
    ensures CmdOutcome(c, p, src, r)
  {
    r := c;
    match p
    case Clear =>
      r := ClearOf(c, src.ToTarget());
    case Ignore =>
      r := ToggleIgnore(c, LevelTarget(src));
    case Notify(args) =>
      r := NotifyCmd(c, args, src);
    case Switch(name) =>
      if name.Some? {
        r := SwitchTo(c, name.value);
      } else {
        r := AddClientErrMsg(c, SwitchUsage, CurrentTab);
        assert r.Tabs() == OnActive(c, ClientErrMsg(SwitchUsage)).Tabs();
      }
    case _ =>
  }

  /** `try_handle_cmd`: whether the command is one of the front-end's own,
      and its effect on the tab bar. `/statusline` and `/reload` act on parts
      outside this model and leave the tab bar as it is. The usage messages
      go to the active tab. */
  method TryHandleCmd(c: Tui, cmd: string, src: MsgSource) returns (r: Tui, handled: bool)
    requires c.Valid()
    requires ParseCmd(cmd).Notify? || ParseCmd(cmd) == Switch(None) ==> c.Active() < |c.Tabs()|
    ensures r.Valid()
    ensures handled <==> |Words(cmd)| > 0 && Words(cmd)[0] in {"clear", "ignore", "notify", "switch", "statusline", "reload"}
    ensures !handled ==> r == c
    ensures handled && Words(cmd)[0] in {"statusline", "reload"} ==> r == c
    ensures handled && Words(cmd)[0] == "clear" ==> Cleared(c, src.ToTarget(), r)
    ensures handled && Words(cmd)[0] == "ignore" ==> IgnoreToggled(c, LevelTarget(src), r)
    ensures handled && Words(cmd)[0] == "notify" ==> c.Active() < |c.Tabs()| && Notified(c, Words(cmd)[1..], src, r)
    ensures handled && Words(cmd)[0] == "switch" && |Words(cmd)| > 1 ==> SwitchedTo(c, Words(cmd)[1], r)
    ensures handled && Words(cmd)[0] == "switch" && |Words(cmd)| == 1 ==> c.Active() < |c.Tabs()| && SwitchUsageShown(c, r)
    ensures CmdOutcome(c, ParseCmd(cmd), src, r)
  {
    var p := ParseCmd(cmd);
    r := RunCmd(c, p, src);
    handled := !p.NotACmd?;
  }
}

=== FILE: tui_input.dfy ===
/** Keyboard and paste input reaching the terminal front-end: what the active
    tab's view does not consume is tab navigation (Ctrl-n, Ctrl-p, Alt with a
    digit or a switch key, Alt with an arrow), and the result of the external
    editor is put back into the active tab. */
module TuiInput {
  import opened Msg
  import opened Messaging
  import opened TuiTab
  import opened Tui
  import opened TuiMove

  datatype Arrow = Left | Right | Up | Down

  /** Keys the front-end distinguishes; every other key is `OtherKey`. */
  datatype Key =
    | Char(c: char)
    | Ctrl(c: char)
    | AltChar(c: char)
    | AltArrow(arrow: Arrow)
    | OtherKey(name: string)

  /** Terminal input events: a key, a pasted string, anything else. */
  datatype Event =
    | KeyEvent(key: Key)
    | Paste(text: string)
    | OtherEvent(name: string)

  /** What the active tab's view makes of a key. */
  datatype WidgetRet =
    | WidgetKeyHandled
    | WidgetKeyIgnored
    | WidgetInput(msg: seq<char>)
    | WidgetRemove
    | WidgetAbort

  /** What the front-end reports to the client. */
  datatype TuiRet =
    | KeyHandled
    | KeyIgnored(key: Key)
    | EventIgnored(ev: Event)
    | Abort
    | Input(msg: seq<char>, from: MsgSource)

  /** State after an input, with the text the external editor is started on
      when it is (the editor itself runs outside this model). */
  datatype Outcome = Outcome(tui: Tui, ret: TuiRet, editor: Option<string>)

  /** `char::to_digit(10)`. */
  function DigitValue(c: char): (d: Option<nat>)
    ensures d.Some? <==> '0' <= c <= '9'
    ensures d.Some? ==> d.value < 10 && d.value == (c as int) - ('0' as int)
  {
    if '0' <= c <= '9' then Some((c as int - '0' as int) as nat) else None
  }

  /** Tab Alt with digit `d` selects: the `d`-th tab counting from one, the
      last tab for 0 or a digit past the end. */
  function DigitTarget(d: nat, len: nat): (i: nat)
    requires len > 0
    ensures i < len
    ensures 0 < d <= len ==> i + 1 == d
    ensures (d == 0 || d > len) ==> i == len - 1
  {
    if d > len || d == 0 then len - 1 else d - 1
  }

  /** The scan order of Alt with a switch key: the tabs after the active one,
      wrapping around, the active one last. */
  function ScanIndex(active: nat, i: nat, len: nat): nat
    requires len > 0
  {
    (active + i) % len
  }

  /** The step at which the scan reaches tab `k`. */
  function ScanStep(active: nat, len: nat, k: nat): nat
    requires active < len && k < len
  {
    if k > active then k - active else len - active + k
  }

  /** Multiplying by a positive number keeps the side of the bounds. */
  lemma MulBounds(n: int, q: int)
    requires n > 0
    ensures q >= 1 ==> n * q >= n
    ensures q >= 2 ==> n * q >= 2 * n
    ensures q <= 0 ==> n * q <= 0
    ensures q <= -1 ==> n * q <= -n
  {
  }

  lemma ModSmall(x: int, n: int)
    requires 0 <= x < n
    ensures x % n == x
  {
    MulBounds(n, x / n);
  }

  lemma ModOfRange(x: int, n: int)
    requires 0 < n <= x < 2 * n
    ensures x % n == x - n
  {
    MulBounds(n, x / n);
  }

  /** One round of the scan reaches the tab `i` places after the active one,
      wrapping past the end. */
  lemma ScanWrap(active: nat, i: nat, len: nat)
    requires active < len && 1 <= i <= len
    ensures ScanIndex(active, i, len) == if active + i < len then active + i else active + i - len
  {
    if active + i < len {
      ModSmall(active + i, len);
    } else {
      ModOfRange(active + i, len);
    }
  }

  /** The scan visits every tab: tab `k` is reached at step `ScanStep`, and
      that is the only step of the round that reaches it. */
  lemma ScanCovers(active: nat, len: nat, k: nat)
    requires active < len && k < len
    ensures 1 <= ScanStep(active, len, k) <= len
    ensures ScanIndex(active, ScanStep(active, len, k), len) == k
    ensures forall i :: 1 <= i <= len && ScanIndex(active, i, len) == k ==> i == ScanStep(active, len, k)
  {
    ScanWrap(active, ScanStep(active, len, k), len);
    forall i | 1 <= i <= len && ScanIndex(active, i, len) == k
      ensures i == ScanStep(active, len, k)
    {
      ScanWrap(active, i, len);
    }
  }

  /** The first step `1..len` of the scan whose tab has switch key `ch`. */
  method AltCharScan(switches: seq<Option<char>>, active: nat, ch: char) returns (found: Option<nat>)
    requires active < |switches|
    ensures found.Some? ==>
      && 1 <= found.value <= |switches|
      && switches[ScanIndex(active, found.value, |switches|)] == Some(ch)
      && forall i :: 1 <= i < found.value ==> switches[ScanIndex(active, i, |switches|)] != Some(ch)
    ensures found.None? <==> forall k :: 0 <= k < |switches| ==> switches[k] != Some(ch)
  {
    var n := |switches|;
    var i := 1;
    found := None;
    while i <= n
      invariant 1 <= i <= n + 1
      invariant forall j :: 1 <= j < i ==> switches[ScanIndex(active, j, n)] != Some(ch)
      decreases n + 1 - i
    {
      if switches[ScanIndex(active, i, n)] == Some(ch) {
        found := Some(i);
        return;
      }
      i := i + 1;
    }
    forall k | 0 <= k < n
      ensures switches[k] != Some(ch)
    {
      ScanCovers(active, n, k);
    }
  }

  /** What Alt with the non-digit key `ch` promises: the first tab in scan
      order whose switch key it is becomes active and is shown as read; with
      no such tab nothing changes. */
  ghost predicate SwitchedByKey(c: Tui, ch: char, r: Tui)
    requires c.Valid() && |c.Tabs()| > 0
  {
    && r.Valid() && r.next == c.next && r.prev == c.prev
    && ((forall k :: 0 <= k < |c.Tabs()| ==> c.Tabs()[k].switch != Some(ch)) ==> r == c)
    && ((exists k :: 0 <= k < |c.Tabs()| && c.Tabs()[k].switch == Some(ch)) ==>
          && r.Active() < |c.Tabs()| && c.Tabs()[r.Active()].switch == Some(ch)
          && r.Tabs() == Restyle(c.Tabs(), r.Active(), Normal)
          && forall j :: 1 <= j < ScanStep(c.Active(), |c.Tabs()|, r.Active()) ==>
               c.Tabs()[ScanIndex(c.Active(), j, |c.Tabs()|)].switch != Some(ch))
  }

  /** Alt with a non-digit key: the scan for its switch key. */
  method AltSwitch(c: Tui, ch: char) returns (r: Tui)
    requires c.Valid() && |c.Tabs()| > 0
    ensures SwitchedByKey(c, ch, r)
  {
    var n := |c.Tabs()|;
    var found := AltCharScan(Switches(c.Tabs()), c.Active(), ch);
    r := c;
    if found.Some? {
      var idx := ScanIndex(c.Active(), found.value, n);
      ScanCovers(c.Active(), n, idx);
      r := SelectTab(c, idx);
    }
  }

  /** `times` moves by `step` from index `a` among `n` tabs. */
  function Repeat(step: Step, a: nat, n: nat, times: nat): (r: nat)
    requires a < n
    ensures r < n
    decreases times
  {
    if times == 0 then a else step(Repeat(step, a, n, times - 1), n)
  }

  /** The tab bar's forward move goes to the next tab, short of the end. */
  predicate StepsForward(step: Step, n: nat)
  {
    forall x: nat :: x + 1 < n ==> step(x, n) == x + 1
  }

  /** The tab bar's backward move goes to the previous tab, short of the start. */
  predicate StepsBackward(step: Step, n: nat)
  {
    forall x: nat :: 0 < x < n ==> step(x, n) == x - 1
  }

  /** Where Alt with digit `d` leaves the active index: the distance from the
      active tab to `DigitTarget` is walked with forward moves when the target
      lies after it, with backward moves when it lies before it. */
  function DigitLanding(c: Tui, d: nat): (i: nat)
    requires c.Valid() && |c.Tabs()| > 0
    ensures i < |c.Tabs()|
  {
    var n, a := |c.Tabs()|, c.Active();
    var target := DigitTarget(d, n);
    if target > a then Repeat(c.next, a, n, target - a)
    else if target < a then Repeat(c.prev, a, n, a - target)
    else a
  }

  /** Forward moves of one tab each walk exactly the distance. */
  lemma {:induction false} RepeatForward(step: Step, a: nat, n: nat, t: nat)
    requires StepsForward(step, n) && a + t < n
    ensures Repeat(step, a, n, t) == a + t
    decreases t
  {
    if t > 0 {
      RepeatForward(step, a, n, t - 1);
      assert step(a + t - 1, n) == a + t;
    }
  }

  /** Backward moves of one tab each walk exactly the distance. */
  lemma {:induction false} RepeatBackward(step: Step, a: nat, n: nat, t: nat)
    requires StepsBackward(step, n) && t <= a < n
    ensures Repeat(step, a, n, t) == a - t
    decreases t
  {
    if t > 0 {
      RepeatBackward(step, a, n, t - 1);
      assert step(a - (t - 1), n) == a - t;
    }
  }

  /** When the tab bar moves one tab at a time, Alt with a digit lands on the
      `d`-th tab (the last one for 0 or a digit past the end). */
  lemma DigitLandsOnTarget(c: Tui, d: nat)
    requires c.Valid() && |c.Tabs()| > 0
    requires StepsForward(c.next, |c.Tabs()|) && StepsBackward(c.prev, |c.Tabs()|)
    ensures DigitLanding(c, d) == DigitTarget(d, |c.Tabs()|)
  {
    var n, a := |c.Tabs()|, c.Active();
    var target := DigitTarget(d, n);
    if target > a {
      RepeatForward(c.next, a, n, target - a);
    } else if target < a {
      RepeatBackward(c.prev, a, n, a - target);
    }
  }

  /** Alt with digit `d`: as many `next_tab_` (or `prev_tab_`) moves as the
      target lies after (or before) the active tab, counted before moving;
      then the tab reached is shown as read. */
  method AltDigit(c: Tui, d: nat) returns (r: Tui)
    requires c.Valid() && |c.Tabs()| > 0
    ensures r.Valid() && r.next == c.next && r.prev == c.prev
    ensures r.Active() == DigitLanding(c, d)
    ensures r.Tabs() == Restyle(c.Tabs(), r.Active(), Normal)
  {
    var n, a := |c.Tabs()|, c.Active();
    var target := DigitTarget(d, n);
    r := c;
    if target > a {
      var k := 0;
      while k < target - a
        invariant k <= target - a
        invariant r.Tabs() == c.Tabs() && r.next == c.next && r.prev == c.prev
        invariant r.Active() == Repeat(c.next, a, n, k)
      {
        r := r.WithActive(c.next(r.Active(), n));
        k := k + 1;
      }
    } else if target < a {
      var k := 0;
      while k < a - target
        invariant k <= a - target
        invariant r.Tabs() == c.Tabs() && r.next == c.next && r.prev == c.prev
        invariant r.Active() == Repeat(c.prev, a, n, k)
      {
        r := r.WithActive(c.prev(r.Active(), n));
        k := k + 1;
      }
    }
    r := r.WithTabs(Restyle(r.Tabs(), r.Active(), Normal));
  }

  /** What `handle_keypress` does with a key the active view did not
      consume: Ctrl-x starts the editor on an empty string, Ctrl-n and Ctrl-p
      step through the tabs, Alt with a digit walks to the numbered tab, Alt
      with another character switches by key, Alt with an arrow moves the
      active tab; any other key is handed back and changes nothing. */
  ghost predicate KeyOutcome(c: Tui, key: Key, o: Outcome)
    requires c.Valid() && |c.Tabs()| > 0
  {
    && o.tui.Valid()
    && (o.editor.Some? <==> key == Ctrl('x'))
    && (key == Ctrl('x') ==> o.tui == c && o.editor == Some(""))
    && (key == Ctrl('n') ==> o.tui == NextTab(c))
    && (key == Ctrl('p') ==> o.tui == PrevTab(c))
    && (key.AltChar? && DigitValue(key.c).Some? ==>
          && o.tui.Active() == DigitLanding(c, DigitValue(key.c).value)
          && o.tui.Tabs() == Restyle(c.Tabs(), o.tui.Active(), Normal))
    && (key.AltChar? && DigitValue(key.c).None? ==> SwitchedByKey(c, key.c, o.tui))
    && (key == AltArrow(Left) ==> MovedTabLeft(c, o.tui))
    && (key == AltArrow(Right) ==> MovedTabRight(c, o.tui))
    && o.ret == (if key in {Ctrl('n'), Ctrl('p'), Ctrl('x'), AltArrow(Left), AltArrow(Right)} || key.AltChar?
                 then KeyHandled else KeyIgnored(key))
    && (o.ret.KeyIgnored? ==> o.tui == c)
  }

  /** `handle_keypress`. The list must not be empty (the only caller has
      already read the active tab). */
  method HandleKeypress(c: Tui, key: Key) returns (o: Outcome)
    requires c.Valid() && |c.Tabs()| > 0
    ensures o.tui.Valid()
    ensures KeyOutcome(c, key, o)
  {
    o := Outcome(c, KeyIgnored(key), None);
    match key {
      case Ctrl(ch) =>
        if ch == 'n' {
          o := Outcome(NextTab(c), KeyHandled, None);
        } else if ch == 'p' {
          o := Outcome(PrevTab(c), KeyHandled, None);
        } else if ch == 'x' {
          o := Outcome(c, KeyHandled, Some(""));
        }
      case AltChar(ch) =>
        var d := DigitValue(ch);
        if d.Some? {
          var r := AltDigit(c, d.value);
          o := Outcome(r, KeyHandled, None);
        } else {
          var r := AltSwitch(c, ch);
          o := Outcome(r, KeyHandled, None);
        }
      case AltArrow(arrow) =>
        if arrow == Left {
          var r := MoveTabLeft(c);
          o := Outcome(r, KeyHandled, None);
        } else if arrow == Right {
          var r := MoveTabRight(c);
          o := Outcome(r, KeyHandled, None);
        }
      case _ =>
    }
  }

  /** `keypressed`: the active view sees the key first; a key it does not
      consume goes to `handle_keypress`, a line it completes is reported with
      the active tab's source. The view's reply is a parameter; its removal
      request is unimplemented in the source and is excluded. */
  ghost predicate Pressed(c: Tui, key: Key, reply: WidgetRet, o: Outcome)
    requires c.Valid() && |c.Tabs()| > 0
  {
    && o.tui.Valid()
    && (reply.WidgetKeyHandled? ==> o == Outcome(c, KeyHandled, None))
    && (reply.WidgetAbort? ==> o == Outcome(c, Abort, None))
    && (reply.WidgetInput? ==> o == Outcome(c, Input(reply.msg, c.Tabs()[c.Active()].src), None))
    && (reply.WidgetKeyIgnored? ==> KeyOutcome(c, key, o))
  }

  /** `keypressed` as a method: its effect is `Pressed`. */
  method Keypressed(c: Tui, key: Key, reply: WidgetRet) returns (o: Outcome)
    requires c.Valid() && |c.Tabs()| > 0 && !reply.WidgetRemove?
    ensures o.tui.Valid()
    ensures reply.WidgetKeyIgnored? ==> o.ret == KeyHandled || o.ret == KeyIgnored(key)
    ensures Pressed(c, key, reply, o)
  {
    match reply
    case WidgetKeyHandled =>
      o := Outcome(c, KeyHandled, None);
    case WidgetKeyIgnored =>
      o := HandleKeypress(c, key);
    case WidgetInput(msg) =>
      o := Outcome(c, Input(msg, c.Tabs()[c.Active()].src), None);
    case WidgetAbort =>
      o := Outcome(c, Abort, None);
  }

  /** Pasted text goes to the external editor when it spans lines: when it
      holds a line feed or a carriage return. */
  function IsMultiline(text: string): (b: bool)
    ensures b <==> exists i :: 0 <= i < |text| && (text[i] == '\n' || text[i] == '\r')
  {
    '\n' in text || '\r' in text
  }

  /** `handle_input_event`: a key goes through `keypressed`; pasted text with
      a line break starts the editor on it, other pasted text is typed into
      the active view one character at a time (which touches only the view,
      outside this model); any other event is handed back. */
  method HandleInputEvent(c: Tui, ev: Event, reply: WidgetRet) returns (o: Outcome)
    requires c.Valid() && !reply.WidgetRemove?
    requires ev.KeyEvent? || (ev.Paste? && |ev.text| > 0) ==> |c.Tabs()| > 0
    ensures o.tui.Valid()
    ensures ev.Paste? ==> o.tui == c && o.ret == KeyHandled
    ensures ev.Paste? ==> (o.editor.Some? <==> IsMultiline(ev.text))
    ensures ev.Paste? && IsMultiline(ev.text) ==> o.editor == Some(ev.text)
    ensures ev.OtherEvent? ==> o == Outcome(c, EventIgnored(ev), None)
    ensures ev.KeyEvent? ==> o.ret != EventIgnored(ev)
    ensures ev.KeyEvent? ==> Pressed(c, ev.key, reply, o)
  {
    match ev
    case KeyEvent(key) =>
      o := Keypressed(c, key, reply);
    case Paste(text) =>
      if IsMultiline(text) {
        o := Outcome(c, KeyHandled, Some(text));
      } else {
        o := Outcome(c, KeyHandled, None);
      }
    case OtherEvent(_) =>
      o := Outcome(c, EventIgnored(ev), None);
  }

  /** What the external editor returned. */
  datatype EditorResult = EditorFailed(err: EditorError) | EditorLines(lines: seq<string>)

  /** The calls adding each line to the input history, in order. */
  function HistoryCalls(lines: seq<string>): (calls: seq<ViewCall>)
    ensures |calls| == |lines|
    ensures forall k :: 0 <= k < |lines| ==> calls[k] == AddInputFieldHistory(lines[k])
  {
    if |lines| == 0 then [] else [AddInputFieldHistory(lines[0])] + HistoryCalls(lines[1..])
  }

  /** `handle_editor_result`: a failure is reported on the active tab; one
      line is put into the active tab's input field and not sent; any other
      number of lines (none included) goes into the input history and is
      returned to be sent from the active tab. Only the active tab's view
      changes. */
  method HandleEditorResult(c: Tui, res: EditorResult) returns (r: Tui, send: Option<(seq<string>, MsgSource)>)
    requires c.Valid() && c.Active() < |c.Tabs()|
    ensures r.Valid() && r.Active() == c.Active() && r.next == c.next && r.prev == c.prev
    ensures |r.Tabs()| == |c.Tabs()|
    ensures forall k :: 0 <= k < |c.Tabs()| && k != c.Active() ==> r.Tabs()[k] == c.Tabs()[k]
    ensures var t, t' := c.Tabs()[c.Active()], r.Tabs()[c.Active()];
      && t'.src == t.src && t'.style == t.style && t'.notifier == t.notifier && t'.switch == t.switch
      && (res.EditorFailed? ==> t'.widget.log == t.widget.log + [EditorErr(res.err)] && send.None?)
      && (res.EditorLines? && |res.lines| == 1 ==> t'.widget.log == t.widget.log + [SetInputField(res.lines[0])] && send.None?)
      && (res.EditorLines? && |res.lines| != 1 ==>
            t'.widget.log == t.widget.log + HistoryCalls(res.lines) && send == Some((res.lines, t.src)))
  {
    var a := c.Active();
    var t := c.Tabs()[a];
    var calls: seq<ViewCall>;
    match res {
      case EditorFailed(err) =>
        calls := [EditorErr(err)];
        send := None;
      case EditorLines(lines) =>
        if |lines| == 1 {
          calls := [SetInputField(lines[0])];
          send := None;
        } else {
          calls := HistoryCalls(lines);
          send := Some((lines, t.src));
        }
    }
    var t' := t.(widget := t.widget.(log := t.widget.log + calls));
    r := c.WithTabs(c.Tabs()[a := t']);
  }
}

=== FILE: tui_move.dfy ===
/** Reordering the tab bar: a channel or user tab trades places with a
    neighbour of its own server, and a server tab carries its whole block past
    the neighbouring block. */
module TuiMove {
  import opened Msg
  import opened Seqs
  import opened TuiTab
  import opened TabOrder
  import opened Tui

  /** End of the block containing index `i`: the first server tab after `i`,
      or the end of the list. */
  function BlockEnd(srcs: seq<MsgSource>, i: nat): (e: nat)
    requires i < |srcs|
    ensures i < e <= |srcs|
    ensures forall k :: i < k < e ==> !srcs[k].Serv?
    ensures e == |srcs| || srcs[e].Serv?
    decreases |srcs| - i
  {
    if i + 1 == |srcs| || srcs[i + 1].Serv? then i + 1 else BlockEnd(srcs, i + 1)
  }

  /** `server_tab_range`: the block of the server owning tab `idx`, from its
      server tab up to the next server tab. A server tab must sit at or
      before `idx` (the source's backward scan underflows otherwise). */
  method ServerTabRange(srcs: seq<MsgSource>, idx: nat) returns (l: nat, r: nat)
    requires idx < |srcs|
    requires exists j :: 0 <= j <= idx && srcs[j].Serv?
    ensures l <= idx < r <= |srcs|
    ensures srcs[l].Serv? && forall k :: l < k < r ==> !srcs[k].Serv?
    ensures r == |srcs| || srcs[r].Serv?
    ensures r == BlockEnd(srcs, idx)
  {
    l := idx;
    while !srcs[l].Serv?
      invariant l <= idx
      invariant forall k :: l < k <= idx ==> !srcs[k].Serv?
      decreases l
    {
      l := l - 1;
    }
    r := idx + 1;
    while r < |srcs| && !srcs[r].Serv?
      invariant idx < r <= |srcs|
      invariant forall k :: idx < k < r ==> !srcs[k].Serv?
      decreases |srcs| - r
    {
      r := r + 1;
    }
  }

  /** The backward scan of `move_tab_left`: from just before `left`, down to
      the nearest server tab or index 0. */
  method PrevBlockStart(srcs: seq<MsgSource>, left: nat) returns (ins: nat)
    requires 0 < left <= |srcs|
    ensures ins < left
    ensures ins == 0 || srcs[ins].Serv?
    ensures forall k :: ins < k < left ==> !srcs[k].Serv?
  {
    ins := left - 1;
    while ins > 0 && !srcs[ins].Serv?
      invariant ins < left
      invariant forall k :: ins < k < left ==> !srcs[k].Serv?
      decreases ins
    {
      ins := ins - 1;
    }
  }

  /** The part every move promises: the bar holds `moved`, a rearrangement
      of the old tabs, except that the tab that was active, now at the active
      index, is shown as read; no tab's contents change otherwise, and the
      order of server blocks stays well formed. */
  ghost predicate Moved(c: Tui, r: Tui, moved: seq<Tab>)
    requires c.Valid() && c.Active() < |c.Tabs()|
  {
    && r.Valid() && r.next == c.next && r.prev == c.prev
    && |moved| == |c.Tabs()| && r.Active() < |moved|
    && multiset(moved) == multiset(c.Tabs())
    && moved[r.Active()] == c.Tabs()[c.Active()]
    && r.Tabs() == Restyle(moved, r.Active(), Normal)
    && multiset(Sources(r.Tabs())) == multiset(Sources(c.Tabs()))
    && (WellFormed(Sources(c.Tabs())) ==> WellFormed(Sources(r.Tabs())))
  }

  /** The active server tab's block `[a, e)` went in front of the block
      `[p, a)` that preceded it: the server tab stays active at `p`, and the
      sources are the two blocks exchanged. */
  ghost predicate MovedBefore(c: Tui, r: Tui, p: nat, e: nat)
    requires c.Valid() && p <= c.Active() < e <= |c.Tabs()|
  {
    var tabs, srcs, a := c.Tabs(), Sources(c.Tabs()), c.Active();
    && Moved(c, r, MoveBlock(tabs, a, e, p))
    && r.Active() == p
    && Sources(r.Tabs()) == srcs[..p] + srcs[a..e] + srcs[p..a] + srcs[e..]
  }

  /** A server tab and its block `[a, e)` move in front of the block `[p, a)`
      that precedes them, and the server tab stays active at `p`. */
  method MoveBlockLeft(c: Tui, p: nat, e: nat) returns (r: Tui)
    requires c.Valid() && p < c.Active() < e <= |c.Tabs()|
    requires p == 0 || c.Tabs()[p].src.Serv?
    requires c.Tabs()[c.Active()].src.Serv?
    requires e < |c.Tabs()| ==> c.Tabs()[e].src.Serv?
    ensures MovedBefore(c, r, p, e)
  {
    var a, tabs := c.Active(), c.Tabs();
    BlockMovedLeft(tabs, p, a, e);
    r := SelectTab(c.WithTabs(MoveBlock(tabs, a, e, p)), p);
  }

  /** What moving the block `[a, e)` in front of `[p, a)` does to the tabs:
      the moved server tab lands at `p`, and the sources are the two blocks
      exchanged. */
  lemma BlockMovedLeft(tabs: seq<Tab>, p: nat, a: nat, e: nat)
    requires p < a < e <= |tabs|
    requires tabs[p].src.Serv? || p == 0
    requires tabs[a].src.Serv?
    requires e < |tabs| ==> tabs[e].src.Serv?
    ensures var moved, srcs := MoveBlock(tabs, a, e, p), Sources(tabs);
      && moved[p] == tabs[a]
      && Sources(moved) == srcs[..p] + srcs[a..e] + srcs[p..a] + srcs[e..]
      && multiset(Sources(moved)) == multiset(srcs)
      && (WellFormed(srcs) ==> WellFormed(Sources(moved)))
  {
    var srcs := Sources(tabs);
    var moved := MoveBlock(tabs, a, e, p);
    assert moved[p] == tabs[a] by {
      assert moved[p..p + (e - a)][0] == tabs[a..e][0];
    }
    SourcesMovedLeft(tabs, p, a, e);
    MoveBlockBefore(srcs, a, e, p);
    if WellFormed(srcs) {
      assert srcs[a].Serv? && (e < |srcs| ==> srcs[e].Serv?) && (p < a ==> srcs[p].Serv?);
      MovedLeftKeepsWellFormed(srcs, p, a, e);
    }
  }

  /** The active server tab's block `[a, e)` went behind the block `[e, e2)`
      that followed it: the server tab stays active at the index `at` with
      `at + (e - a) == e2`, and the sources are the two blocks exchanged. */
  ghost predicate MovedPast(c: Tui, r: Tui, e: nat, e2: nat)
    requires c.Valid() && c.Active() < e <= e2 <= |c.Tabs()|
  {
    var tabs, srcs, a, at := c.Tabs(), Sources(c.Tabs()), c.Active(), r.Active();
    && at + (e - a) == e2
    && Moved(c, r, MoveBlock(tabs, a, e, at))
    && Sources(r.Tabs()) == srcs[..a] + srcs[e..e2] + srcs[a..e] + srcs[e2..]
  }

  /** A server tab and its block `[a, e)` move behind the block `[e, e2)`
      that follows them, and the server tab stays active. */
  method MoveBlockRight(c: Tui, e: nat, e2: nat) returns (r: Tui)
    requires c.Valid() && c.Active() < e < e2 <= |c.Tabs()|
    requires c.Tabs()[c.Active()].src.Serv? && c.Tabs()[e].src.Serv?
    requires e2 < |c.Tabs()| ==> c.Tabs()[e2].src.Serv?
    ensures MovedPast(c, r, e, e2)
  {
    var a, tabs := c.Active(), c.Tabs();
    var at := e2 - (e - a);
    BlockMovedRight(tabs, a, e, at, e2);
    r := SelectTab(c.WithTabs(MoveBlock(tabs, a, e, at)), at);
  }

  /** What moving the block `[a, e)` behind `[e, e2)` does to the tabs: the
      moved server tab lands at `at`, where `at + (e - a) == e2`, and the
      sources are the two blocks exchanged. */
  lemma BlockMovedRight(tabs: seq<Tab>, a: nat, e: nat, at: nat, e2: nat)
    requires a < e < e2 <= |tabs| && at + (e - a) == e2
    requires tabs[a].src.Serv? && tabs[e].src.Serv?
    requires e2 < |tabs| ==> tabs[e2].src.Serv?
    ensures var moved, srcs := MoveBlock(tabs, a, e, at), Sources(tabs);
      && moved[at] == tabs[a]
      && Sources(moved) == srcs[..a] + srcs[e..e2] + srcs[a..e] + srcs[e2..]
      && multiset(Sources(moved)) == multiset(srcs)
      && (WellFormed(srcs) ==> WellFormed(Sources(moved)))
  {
    var srcs := Sources(tabs);
    var moved := MoveBlock(tabs, a, e, at);
    assert moved[at] == tabs[a] by {
      assert moved[at..at + (e - a)][0] == tabs[a..e][0];
    }
    SourcesMovedRight(tabs, a, e, at, e2);
    MoveBlockAfter(srcs, a, e, at, e2);
    if WellFormed(srcs) {
      assert srcs[a].Serv? && srcs[e].Serv? && (e2 < |srcs| ==> srcs[e2].Serv?);
      MovedRightKeepsWellFormed(srcs, a, e, at, e2);
    }
  }

  /** The active channel or user tab trades places with its neighbour `j`, a
      channel or user tab too, and stays active at `j`. */
  method SwapWith(c: Tui, j: nat) returns (r: Tui)
    requires c.Valid() && j < |c.Tabs()| && c.Active() < |c.Tabs()|
    requires j + 1 == c.Active() || c.Active() + 1 == j
    requires !c.Tabs()[c.Active()].src.Serv? && !c.Tabs()[j].src.Serv?
    ensures Moved(c, r, c.Tabs()[c.Active() := c.Tabs()[j]][j := c.Tabs()[c.Active()]]) && r.Active() == j
    ensures Sources(r.Tabs()) == Sources(c.Tabs())[c.Active() := c.Tabs()[j].src][j := c.Tabs()[c.Active()].src]
  {
    var a, tabs := c.Active(), c.Tabs();
    var srcs := Sources(tabs);
    var moved := Insert(RemoveAt(tabs, a), j, tabs[a]);
    RemoveInsertSwaps(tabs, a, j);
    SourcesOfSwap(tabs, a, j);
    SwapPermutes(srcs, a, j);
    SwapPermutes(tabs, a, j);
    r := SelectTab(c.WithTabs(moved), j);
    if WellFormed(srcs) {
      SwapNeighboursKeepsWellFormed(srcs, a, j);
    }
  }

  /** What `move_tab_left` promises. Nothing happens on the first tab. A
      server tab moves with its block to the start of the previous block (the
      nearest server tab before it, or the start of the list); a channel or
      user tab trades places with its left neighbour unless that is a server
      tab. */
  ghost predicate MovedTabLeft(c: Tui, r: Tui)
    requires c.Valid()
  {
    && (c.Active() == 0 ==> r == c)
    && (0 < c.Active() && !c.Tabs()[c.Active()].src.Serv? ==>
          if c.Tabs()[c.Active() - 1].src.Serv? then r == c
          else
            && Moved(c, r, c.Tabs()[c.Active() := c.Tabs()[c.Active() - 1]][c.Active() - 1 := c.Tabs()[c.Active()]])
            && r.Active() == c.Active() - 1
            && Sources(r.Tabs()) == Sources(c.Tabs())[c.Active() := c.Tabs()[c.Active() - 1].src][c.Active() - 1 := c.Tabs()[c.Active()].src])
    && (0 < c.Active() && c.Tabs()[c.Active()].src.Serv? ==>
          var tabs, srcs, a := c.Tabs(), Sources(c.Tabs()), c.Active();
          var p, e := r.Active(), BlockEnd(srcs, a);
          && p < a
          && MovedBefore(c, r, p, e)
          && (p == 0 || srcs[p].Serv?)
          && (forall k :: p < k < a ==> !srcs[k].Serv?))
  }

  /** `move_tab_left`. */
  method MoveTabLeft(c: Tui) returns (r: Tui)
    requires c.Valid()
    ensures MovedTabLeft(c, r)
  {
    r := c;
    var a := c.Active();
    if a == 0 {
      return;
    }
    var srcs := Sources(c.Tabs());
    if srcs[a].Serv? {
      var left, right := ServerTabRange(srcs, a);
      var ins := PrevBlockStart(srcs, left);
      r := MoveBlockLeft(c, ins, right);
      assert MovedBefore(c, r, r.Active(), BlockEnd(srcs, a));
    } else if !srcs[a - 1].Serv? {
      r := SwapWith(c, a - 1);
    }
  }

  /** What `move_tab_right` promises. Nothing happens on the last tab. A
      server tab moves with its block past the next block, and stays put when
      its block is the last; a channel or user tab trades places with its
      right neighbour unless that is a server tab. */
  ghost predicate MovedTabRight(c: Tui, r: Tui)
    requires c.Valid() && |c.Tabs()| > 0
  {
    && (c.Active() == |c.Tabs()| - 1 ==> r == c)
    && (c.Active() + 1 < |c.Tabs()| && !c.Tabs()[c.Active()].src.Serv? ==>
          if c.Tabs()[c.Active() + 1].src.Serv? then r == c
          else
            && Moved(c, r, c.Tabs()[c.Active() := c.Tabs()[c.Active() + 1]][c.Active() + 1 := c.Tabs()[c.Active()]])
            && r.Active() == c.Active() + 1
            && Sources(r.Tabs()) == Sources(c.Tabs())[c.Active() := c.Tabs()[c.Active() + 1].src][c.Active() + 1 := c.Tabs()[c.Active()].src])
    && (c.Active() + 1 < |c.Tabs()| && c.Tabs()[c.Active()].src.Serv? ==>
          var srcs, a := Sources(c.Tabs()), c.Active();
          var e := BlockEnd(srcs, a);
          if e == |srcs| then r == c else MovedPast(c, r, e, BlockEnd(srcs, e)))
  }

  /** `move_tab_right` (the list must not be empty: the source computes
      `len - 1`). */
  method MoveTabRight(c: Tui) returns (r: Tui)
    requires c.Valid() && |c.Tabs()| > 0
    ensures MovedTabRight(c, r)
  {
    r := c;
    var a := c.Active();
    if a == |c.Tabs()| - 1 {
      return;
    }
    var srcs := Sources(c.Tabs());
    assert srcs[a] == c.Tabs()[a].src && srcs[a + 1] == c.Tabs()[a + 1].src;
    if srcs[a].Serv? {
      var left, right := ServerTabRange(srcs, a);
      if right < |srcs| {
        var _, rightNext := ServerTabRange(srcs, right);
        r := MoveBlockRight(c, right, rightNext);
        assert right == BlockEnd(srcs, a) && rightNext == BlockEnd(srcs, right);
      }
    } else if !srcs[a + 1].Serv? {
      r := SwapWith(c, a + 1);
    }
  }

  /** Sources distribute over the reordered blocks. */
  lemma SourcesOfBlocks(tabs: seq<Tab>, p: nat, a: nat, e: nat)
    requires p <= a <= e <= |tabs|
    ensures Sources(tabs[..p] + tabs[a..e] + tabs[p..a] + tabs[e..])
         == Sources(tabs)[..p] + Sources(tabs)[a..e] + Sources(tabs)[p..a] + Sources(tabs)[e..]
  {
  }

  /** Sources follow a block moved to an earlier position. */
  lemma SourcesMovedLeft(tabs: seq<Tab>, p: nat, a: nat, e: nat)
    requires p <= a <= e <= |tabs|
    ensures Sources(MoveBlock(tabs, a, e, p)) == MoveBlock(Sources(tabs), a, e, p)
  {
    MoveBlockBefore(tabs, a, e, p);
    MoveBlockBefore(Sources(tabs), a, e, p);
    SourcesOfBlocks(tabs, p, a, e);
  }

  /** Sources follow a block moved to a later position. */
  lemma SourcesMovedRight(tabs: seq<Tab>, a: nat, e: nat, at: nat, e2: nat)
    requires a <= e <= e2 <= |tabs| && at + (e - a) == e2
    ensures Sources(MoveBlock(tabs, a, e, at)) == MoveBlock(Sources(tabs), a, e, at)
  {
    MoveBlockAfter(tabs, a, e, at, e2);
    MoveBlockAfter(Sources(tabs), a, e, at, e2);
    SourcesOfBlocks(tabs, a, e, e2);
  }

  /** Moving a server block in front of the previous block keeps the block order. */
  lemma MovedLeftKeepsWellFormed(s: seq<MsgSource>, p: nat, a: nat, e: nat)
    requires WellFormed(s) && p < a < e <= |s|
    requires s[p].Serv? || p == 0
    requires s[a].Serv? && (e < |s| ==> s[e].Serv?)
    ensures WellFormed(MoveBlock(s, a, e, p))
  {
    MoveBlockBefore(s, a, e, p);
    SwapBlocksKeepsWellFormed(s, p, a, e);
  }

  /** Moving a server block behind the next block keeps the block order. */
  lemma MovedRightKeepsWellFormed(s: seq<MsgSource>, a: nat, e: nat, at: nat, e2: nat)
    requires WellFormed(s) && a < e < e2 <= |s| && at + (e - a) == e2
    requires s[a].Serv? && s[e].Serv? && (e2 < |s| ==> s[e2].Serv?)
    ensures WellFormed(MoveBlock(s, a, e, at))
  {
    MoveBlockAfter(s, a, e, at, e2);
    SwapBlocksKeepsWellFormed(s, a, e, e2);
  }

  /** Sources follow an exchange of two tabs. */
  lemma SourcesOfSwap(tabs: seq<Tab>, i: nat, j: nat)
    requires i < |tabs| && j < |tabs|
    ensures Sources(tabs[i := tabs[j]][j := tabs[i]])
         == Sources(tabs)[i := tabs[j].src][j := tabs[i].src]
  {
  }
}

=== FILE: tui_state.dfy ===
/** The terminal UI controller's tab list: the state record, selection, and
    creation and closing of server, channel and user tabs. */
module Tui {
  import opened Msg
  import opened Seqs
  import opened SwitchKey
  import opened Lookup
  import opened Messaging
  import opened TuiTab
  import opened TabOrder

  /** One move of the active index among `n` tabs. The tab bar performs it;
      the model only knows that it stays in range. */
  type Step = f: (nat, nat) -> nat | forall a: nat, n: nat :: a < n ==> f(a, n) < n
    witness (a: nat, n: nat) => 0

  /** Controller state: the tab bar, and the tab bar's forward and backward
      moves of the active index. */
  datatype Tui = Tui(bar: TabWidget, next: Step, prev: Step)
  {
    function Tabs(): seq<Tab> { bar.tabs }

    function Active(): nat { bar.GetActiveIdx() }

    /** The active index names a tab, or the list is empty and the index is 0. */
    predicate Valid()
    {
      (|bar.tabs| == 0 && bar.active == 0) || bar.active < |bar.tabs|
    }

    function WithTabs(tabs: seq<Tab>): (r: Tui)
      ensures r.Tabs() == tabs && r.Active() == Active()
    {
      this.(bar := bar.(tabs := tabs))
    }

    function WithActive(a: nat): (r: Tui)
      ensures r.Tabs() == Tabs() && r.Active() == a
    {
      this.(bar := bar.(active := a))
    }
  }

  datatype Created = Created(tui: Tui, idx: Option<nat>)

  function Sources(tabs: seq<Tab>): (srcs: seq<MsgSource>)
    ensures |srcs| == |tabs|
    ensures forall k :: 0 <= k < |tabs| ==> srcs[k] == tabs[k].src
  {
    seq(|tabs|, k requires 0 <= k < |tabs| => tabs[k].src)
  }

  function Switches(tabs: seq<Tab>): (keys: seq<Option<char>>)
    ensures |keys| == |tabs|
    ensures forall k :: 0 <= k < |tabs| ==> keys[k] == tabs[k].switch
  {
    seq(|tabs|, k requires 0 <= k < |tabs| => tabs[k].switch)
  }

  lemma SourcesInsert(tabs: seq<Tab>, idx: nat, t: Tab)
    requires idx <= |tabs|
    ensures Sources(Insert(tabs, idx, t)) == Insert(Sources(tabs), idx, t.src)
  {
  }

  lemma SourcesRemoveAt(tabs: seq<Tab>, idx: nat)
    requires idx < |tabs|
    ensures Sources(RemoveAt(tabs, idx)) == RemoveAt(Sources(tabs), idx)
  {
  }

  lemma SourcesAppend(a: seq<Tab>, b: seq<Tab>)
    ensures Sources(a + b) == Sources(a) + Sources(b)
  {
  }

  /** Tabs `close_server_tab` keeps: those of other servers. */
  function KeepOtherServers(serv: string): Tab -> bool
  {
    (t: Tab) => t.src.ServName() != serv
  }

  /** Retaining tabs and then taking their sources is retaining sources. */
  lemma {:induction false} SourcesRetain(tabs: seq<Tab>, serv: string)
    ensures Sources(Retain(tabs, KeepOtherServers(serv))) == Retain(Sources(tabs), OtherServer(serv))
    decreases |tabs|
  {
    if |tabs| > 0 {
      var keep := KeepOtherServers(serv);
      var srcs := Sources(tabs);
      var rest := Retain(tabs[1..], keep);
      SourcesRetain(tabs[1..], serv);
      assert Sources(tabs[1..]) == srcs[1..];
      assert keep(tabs[0]) == OtherServer(serv)(srcs[0]);
      var head := if keep(tabs[0]) then [tabs[0]] else [];
      assert Retain(tabs, keep) == head + rest;
      SourcesAppend(head, rest);
      assert Sources(head) == if keep(tabs[0]) then [srcs[0]] else [];
    }
  }

  /** `tabs` with the style of tab `i` replaced. */
  function Restyle(tabs: seq<Tab>, i: nat, s: TabStyle): (r: seq<Tab>)
    requires i < |tabs|
    ensures |r| == |tabs| && r[i] == tabs[i].SetStyle(s)
    ensures forall k :: 0 <= k < |tabs| && k != i ==> r[k] == tabs[k]
    ensures Sources(r) == Sources(tabs)
  {
    tabs[i := tabs[i].SetStyle(s)]
  }

  /** `select_tab`, by the exit condition of its loops: tab `i` becomes active
      and its style is reset to `Normal`. */
  function SelectTab(c: Tui, i: nat): (r: Tui)
    requires i < |c.Tabs()|
    ensures r.Valid() && r.Active() == i
    ensures r.Tabs() == Restyle(c.Tabs(), i, Normal)
    ensures r.next == c.next && r.prev == c.prev
  {
    Tui(c.bar.(tabs := Restyle(c.Tabs(), i, Normal), active := i), c.next, c.prev)
  }

  /** `next_tab`: one forward move, then the tab moved to is shown as read. */
  function NextTab(c: Tui): (r: Tui)
    requires |c.Tabs()| > 0 && c.Active() < |c.Tabs()|
    ensures r.Active() == c.next(c.Active(), |c.Tabs()|)
    ensures r.Tabs() == Restyle(c.Tabs(), r.Active(), Normal)
  {
    SelectTab(c, c.next(c.Active(), |c.Tabs()|))
  }

  /** `prev_tab`: one backward move, then the tab moved to is shown as read. */
  function PrevTab(c: Tui): (r: Tui)
    requires |c.Tabs()| > 0 && c.Active() < |c.Tabs()|
    ensures r.Active() == c.prev(c.Active(), |c.Tabs()|)
    ensures r.Tabs() == Restyle(c.Tabs(), r.Active(), Normal)
  {
    SelectTab(c, c.prev(c.Active(), |c.Tabs()|))
  }

  /** Label the switch key of a tab is chosen from: the alias when given,
      the visible name otherwise. */
  function LabelOf(src: MsgSource, alias: Option<string>): (name: string)
    ensures alias.Some? ==> name == alias.value
    ensures alias.None? ==> name == src.VisibleName()
  {
    match alias
    case Some(a) => a
    case None => src.VisibleName()
  }

  /** The switch key of `t` is the one `new_tab` picks for its label against
      the keys of the tabs in `open`. */
  ghost predicate KeyChosen(open: seq<Tab>, t: Tab)
  {
    IsSwitchChoice(t.VisibleName(), TabKeyCounts(open, |open|), t.switch)
  }

  /** The key choice depends only on a tab's label and key, so a tab that
      keeps its alias, source and key keeps it. */
  lemma KeyChosenKept(open: seq<Tab>, t: Tab, u: Tab)
    requires KeyChosen(open, t)
    requires u.alias == t.alias && u.src == t.src && u.switch == t.switch
    ensures KeyChosen(open, u)
  {
    assert u.VisibleName() == t.VisibleName();
  }

  /** The use-count table of the switch keys of the first `n` of `tabs`,
      built tab by tab the way `KeyCounts` builds it from the list of keys. */
  function TabKeyCounts(tabs: seq<Tab>, n: nat): map<char, nat>
    requires n <= |tabs|
    decreases n, 1
  {
    if n == 0 then map[] else CountedThrough(tabs, n - 1)
  }

  /** `TabKeyCounts(tabs, i)` with the key of tab `i` counted in. */
  function CountedThrough(tabs: seq<Tab>, i: nat): map<char, nat>
    requires i < |tabs|
    decreases i + 1, 0
  {
    var m := TabKeyCounts(tabs, i);
    match tabs[i].switch
    case None => m
    case Some(k) => m[k := if k in m then m[k] + 1 else 1]
  }

  /** The tab-level table is the table `new_tab` builds from the keys. */
  lemma {:induction false} TabKeyCountsAgree(tabs: seq<Tab>, n: nat)
    requires n <= |tabs|
    ensures TabKeyCounts(tabs, n) == KeyCounts(Switches(tabs)[..n])
    decreases n
  {
    if n > 0 {
      assert TabKeyCounts(tabs, n) == CountedThrough(tabs, n - 1);
      TabKeyCountsAgree(tabs, n - 1);
      assert Switches(tabs)[..n][..n - 1] == Switches(tabs)[..n - 1];
    }
  }

  /** `new_tab`: inserts a fresh tab at `idx` with style `Normal`, a new view
      created with `status`, and a switch key chosen from its label (the alias
      when given) against the keys of the tabs already open. */
  method NewTab(c: Tui, idx: nat, src: MsgSource, status: bool, notifier: Notifier, alias: Option<string>) returns (r: Tui)
    requires idx <= |c.Tabs()|
    ensures r.Active() == c.Active() && r.next == c.next && r.prev == c.prev
    ensures |r.Tabs()| == |c.Tabs()| + 1
    ensures r.Tabs() == Insert(c.Tabs(), idx, r.Tabs()[idx])
    ensures Sources(r.Tabs()) == Insert(Sources(c.Tabs()), idx, src)
    ensures var t := r.Tabs()[idx];
      && t.src == src && t.alias == alias && t.style == Normal && t.notifier == notifier
      && t.widget == View.Create(status)
      && IsSwitchChoice(t.VisibleName(), KeyCounts(Switches(c.Tabs())), t.switch)
  {
    var switch := ChooseSwitch(LabelOf(src, alias), KeyCounts(Switches(c.Tabs())));
    var t := Tab(alias, View.Create(status), src, Normal, switch, notifier);
    SourcesInsert(c.Tabs(), idx, t);
    r := c.WithTabs(Insert(c.Tabs(), idx, t));
  }

  /** `new_tab` as the tab-opening operations below use it: where the tab
      goes, what it holds, and its switch key, chosen against the tabs open
      before. */
  method OpenTab(c: Tui, idx: nat, src: MsgSource, status: bool, notifier: Notifier, alias: Option<string>) returns (r: Tui)
    requires idx <= |c.Tabs()|
    ensures r.Active() == c.Active() && r.next == c.next && r.prev == c.prev
    ensures |r.Tabs()| == |c.Tabs()| + 1
    ensures r.Tabs() == Insert(c.Tabs(), idx, r.Tabs()[idx])
    ensures Sources(r.Tabs()) == Insert(Sources(c.Tabs()), idx, src)
    ensures var t := r.Tabs()[idx];
      && t.src == src && t.alias == alias && t.style == Normal && t.notifier == notifier
      && t.widget == View.Create(status)
    ensures KeyChosen(c.Tabs(), r.Tabs()[idx])
  {
    r := NewTab(c, idx, src, status, notifier, alias);
    TabKeyCountsAgree(c.Tabs(), |c.Tabs()|);
    assert Switches(c.Tabs())[..|c.Tabs()|] == Switches(c.Tabs());
  }

  /** `new_server_tab`: appends the server tab `serv` unless it exists, with
      a view created with status `true` (so its ignore state is on) and
      notifying on mentions; returns the new index, or `None` with nothing
      changed. */
  method NewServerTab(c: Tui, serv: string, alias: Option<string>) returns (r: Created)
    ensures FindServTabIdx(Sources(c.Tabs()), serv).Some? ==> r.idx.None? && r.tui == c
    ensures FindServTabIdx(Sources(c.Tabs()), serv).None? ==>
      && r.idx == Some(|c.Tabs()|)
      && Sources(r.tui.Tabs()) == Sources(c.Tabs()) + [MsgSource.Serv(serv)]
      && r.tui.Tabs()[..|c.Tabs()|] == c.Tabs()
      && var t := r.tui.Tabs()[|c.Tabs()|];
         && t.alias == alias && t.style == Normal && t.notifier == Mentions && t.widget == View.Create(true)
         && KeyChosen(c.Tabs(), t)
    ensures FindServTabIdx(Sources(r.tui.Tabs()), serv).Some?
    ensures r.tui.Active() == c.Active() && r.tui.next == c.next && r.tui.prev == c.prev
    ensures c.Valid() ==> r.tui.Valid()
    ensures WellFormed(Sources(c.Tabs())) ==> WellFormed(Sources(r.tui.Tabs()))
  {
    var srcs := Sources(c.Tabs());
    if FindServTabIdx(srcs, serv).Some? {
      return Created(c, None);
    }
    var t := OpenTab(c, |c.Tabs()|, MsgSource.Serv(serv), true, Mentions, alias);
    InsertAtEnd(srcs, MsgSource.Serv(serv));
    assert t.Tabs()[..|c.Tabs()|] == c.Tabs();
    if WellFormed(srcs) {
      AppendServerKeepsWellFormed(srcs, serv);
    }
    r := Created(t, Some(|c.Tabs()|));
  }

  /** Ignore state and notifier a new channel tab of `serv` takes over: those of
      the first server tab named `serv`, or (`true`, `Mentions`) without one. */
  function ServerSettings(tabs: seq<Tab>, serv: string): (r: (bool, Notifier))
    ensures (forall k :: 0 <= k < |tabs| ==> tabs[k].src != MsgSource.Serv(serv)) ==> r == (true, Mentions)
    ensures forall i :: 0 <= i < |tabs| && tabs[i].src == MsgSource.Serv(serv)
                        && (forall k :: 0 <= k < i ==> tabs[k].src != MsgSource.Serv(serv)) ==>
      r == (tabs[i].widget.ignore, tabs[i].notifier)
  {
    match FindServTabIdx(Sources(tabs), serv)
    case Some(i) => (tabs[i].widget.ignore, tabs[i].notifier)
    case None => (true, Mentions)
  }

  /** Gives the view of tab `i` the own nick of the view of tab `from`, when it has one. */
  function CopyNick(tabs: seq<Tab>, from: nat, i: nat): (r: seq<Tab>)
    requires from < |tabs| && i < |tabs|
    ensures |r| == |tabs| && Sources(r) == Sources(tabs)
    ensures forall k :: 0 <= k < |tabs| && k != i ==> r[k] == tabs[k]
    ensures tabs[from].widget.nick.Some? ==> r[i].widget.nick == tabs[from].widget.nick
    ensures r[i].alias == tabs[i].alias && r[i].src == tabs[i].src && r[i].style == tabs[i].style
    ensures r[i].switch == tabs[i].switch && r[i].notifier == tabs[i].notifier
    ensures r[i].widget.ignore == tabs[i].widget.ignore && r[i].widget.log == tabs[i].widget.log
    ensures tabs[from].widget.nick.None? ==> r[i] == tabs[i]
  {
    match tabs[from].widget.nick
    case Some(n) => tabs[i := tabs[i].(widget := tabs[i].widget.SetNick(n))]
    case None => tabs
  }

  /** The `next_tab` call of `new_chan_tab`: taken exactly when the active
      index is at or past `idx`, and then only the tab moved to changes: it
      is shown as read. */
  method AdvanceIfShifted(c: Tui, idx: nat) returns (r: Tui)
    requires c.Valid() && |c.Tabs()| > 0
    ensures r.Valid() && r.next == c.next && r.prev == c.prev
    ensures r.Active() == (if c.Active() >= idx then c.next(c.Active(), |c.Tabs()|) else c.Active())
    ensures r.Tabs() == if c.Active() >= idx then Restyle(c.Tabs(), r.Active(), Normal) else c.Tabs()
    ensures |r.Tabs()| == |c.Tabs()| && Sources(r.Tabs()) == Sources(c.Tabs())
  {
    r := c;
    if c.Active() >= idx {
      r := NextTab(c);
    }
  }

  /** Tab `k` of a list that had a tab inserted at `idx`, for `k != idx`: the
      tab that was at `k` before `idx`, the one at `k - 1` after it. */
  function Shifted(tabs: seq<Tab>, idx: nat, k: nat): Tab
    requires idx <= |tabs| && k <= |tabs| && k != idx
  {
    if k < idx then tabs[k] else tabs[k - 1]
  }

  /** `r` is `tabs` with one more tab at `idx`; every other tab is kept in
      order and unchanged, except that when `advance` holds the tab at `a` is
      shown as read. */
  predicate InsertedAt(tabs: seq<Tab>, idx: nat, r: seq<Tab>, advance: bool, a: nat)
  {
    && idx <= |tabs| && |r| == |tabs| + 1
    && forall k {:trigger Shifted(tabs, idx, k)} :: 0 <= k < |r| && k != idx ==>
         r[k] == if advance && k == a then Shifted(tabs, idx, k).SetStyle(Normal) else Shifted(tabs, idx, k)
  }


  /** Inserting a tab is the plain case of `InsertedAt`. */
  lemma InsertedAtInsert(tabs: seq<Tab>, idx: nat, t: Tab, a: nat)
    requires idx <= |tabs|
    ensures InsertedAt(tabs, idx, Insert(tabs, idx, t), false, a)
  {
    var r := Insert(tabs, idx, t);
    forall k | 0 <= k < |r| && k != idx
      ensures r[k] == Shifted(tabs, idx, k)
    {
      if k > idx {
        assert r[(k - 1) + 1] == tabs[k - 1];
      }
    }
  }

  /** Showing the tab at `a` as read after an insertion is the advancing case
      of `InsertedAt`. */
  lemma InsertedAtRestyle(tabs: seq<Tab>, idx: nat, s: seq<Tab>, a: nat)
    requires InsertedAt(tabs, idx, s, false, a) && a < |s|
    ensures InsertedAt(tabs, idx, Restyle(s, a, Normal), true, a)
  {
    var r := Restyle(s, a, Normal);
    forall k | 0 <= k < |r| && k != idx
      ensures r[k] == if k == a then Shifted(tabs, idx, k).SetStyle(Normal) else Shifted(tabs, idx, k)
    {
    }
  }

  /** `InsertedAt` says nothing about the inserted tab itself, so changing
      only that tab keeps it. */
  lemma InsertedAtKeep(tabs: seq<Tab>, idx: nat, s: seq<Tab>, s': seq<Tab>, advance: bool, a: nat)
    requires InsertedAt(tabs, idx, s, advance, a)
    requires |s'| == |s| && forall k :: 0 <= k < |s| && k != idx ==> s'[k] == s[k]
    ensures InsertedAt(tabs, idx, s', advance, a)
  {
    forall k | 0 <= k < |s'| && k != idx
      ensures s'[k] == if advance && k == a then Shifted(tabs, idx, k).SetStyle(Normal) else Shifted(tabs, idx, k)
    {
    }
  }

  /** Without the advance, the tabs before the insertion point are kept. */
  lemma InsertedAtPrefix(tabs: seq<Tab>, idx: nat, r: seq<Tab>, advance: bool, a: nat)
    requires InsertedAt(tabs, idx, r, advance, a) && !advance
    ensures r[..idx] == tabs[..idx]
  {
    forall k | 0 <= k < idx
      ensures r[k] == tabs[k]
    {
      assert Shifted(tabs, idx, k) == tabs[k];
    }
  }

  /** A tab inserted right after a freshly appended tab leaves the list
      before them, and the appended tab, as they were. */
  lemma InsertedAfterAppend(tabs: seq<Tab>, s: seq<Tab>, r: seq<Tab>, a: nat)
    requires |s| == |tabs| + 1 && s[..|tabs|] == tabs
    requires InsertedAt(s, |tabs| + 1, r, false, a)
    ensures |r| == |tabs| + 2 && r[..|tabs|] == tabs && r[|tabs|] == s[|tabs|]
    ensures r[..|tabs| + 1] == s
  {
    InsertedAtPrefix(s, |tabs| + 1, r, false, a);
    assert r[..|tabs|] == r[..|tabs| + 1][..|tabs|];
  }

  /** `r` is `c` with a channel tab for `chan` inserted at `l + 1`: the list
      and the active index change as `InsertedAt` says, and the new tab has
      the given ignore state and notifier, the own nick of the tab at `l`, no
      lines, style Normal and the switch key chosen against the tabs of `c`. */
  ghost predicate ChanTabInserted(c: Tui, serv: string, chan: string, l: nat, status: bool, notifier: Notifier, r: Tui)
    requires c.Active() <= |c.Tabs()| && l < |c.Tabs()|
  {
    && r.Valid() && r.next == c.next && r.prev == c.prev
    && r.Active() == (if c.Active() >= l + 1 then c.next(c.Active(), |c.Tabs()| + 1) else c.Active())
    && InsertedAt(c.Tabs(), l + 1, r.Tabs(), c.Active() >= l + 1, r.Active())
    && r.Tabs()[l + 1] == Tab(None, View(status, c.Tabs()[l].widget.nick, []), MsgSource.Chan(serv, chan),
                              Normal, r.Tabs()[l + 1].switch, notifier)
    && KeyChosen(c.Tabs(), r.Tabs()[l + 1])
    && Sources(r.Tabs()) == Insert(Sources(c.Tabs()), l + 1, MsgSource.Chan(serv, chan))
  }

  /** Branch of `new_chan_tab` for a server whose last tab is at `l`: the
      channel tab goes right after it with the given ignore state and
      notifier and the own nick of the tab at `l`; when the insertion pushed
      the active tab right, the active index moves forward and the tab it
      reaches is shown as read. The active index may be one past the end, as
      a close can leave it. */
  method InsertChanTab(c: Tui, serv: string, chan: string, l: nat, status: bool, notifier: Notifier) returns (r: Tui)
    requires c.Active() <= |c.Tabs()| && l < |c.Tabs()|
    ensures ChanTabInserted(c, serv, chan, l, status, notifier, r)
  {
    var idx := l + 1;
    var a := if c.Active() >= idx then c.next(c.Active(), |c.Tabs()| + 1) else c.Active();
    var c1 := OpenTab(c, idx, MsgSource.Chan(serv, chan), status, notifier, None);
    InsertedAtInsert(c.Tabs(), idx, c1.Tabs()[idx], a);
    assert c1.Tabs()[l] == c.Tabs()[l];
    var c2 := AdvanceIfShifted(c1, idx);
    if c.Active() >= idx {
      InsertedAtRestyle(c.Tabs(), idx, c1.Tabs(), a);
    }
    assert c2.Tabs()[idx] == c1.Tabs()[idx];
    var tabs := CopyNick(c2.Tabs(), l, idx);
    InsertedAtKeep(c.Tabs(), idx, c2.Tabs(), tabs, c.Active() >= idx, a);
    r := c2.WithTabs(tabs);
    assert r.Tabs()[l + 1] == tabs[idx];
    KeyChosenKept(c.Tabs(), c1.Tabs()[idx], r.Tabs()[l + 1]);
  }

  /** The insertion path of `new_chan_tab` for a server whose last tab is at
      `l` and a channel not yet open: the channel tab takes over the ignore
      state and notifier of the server tab and is found at `l + 1`. */
  method ChanTabAfter(c: Tui, serv: string, chan: string, l: nat) returns (r: Created)
    requires c.Active() <= |c.Tabs()| && l < |c.Tabs()| && c.Tabs()[l].src.ServName() == serv
    requires FindChanTabIdx(Sources(c.Tabs()), serv, chan).None?
    ensures r.idx == Some(l + 1)
    ensures ChanTabInserted(c, serv, chan, l, ServerSettings(c.Tabs(), serv).0, ServerSettings(c.Tabs(), serv).1, r.tui)
    ensures FindChanTabIdx(Sources(r.tui.Tabs()), serv, chan) == r.idx
    ensures WellFormed(Sources(c.Tabs())) ==> WellFormed(Sources(r.tui.Tabs()))
  {
    var srcs := Sources(c.Tabs());
    var settings := ServerSettings(c.Tabs(), serv);
    var t := InsertChanTab(c, serv, chan, l, settings.0, settings.1);
    FindChanAfterInsert(srcs, l + 1, serv, chan);
    if WellFormed(srcs) {
      InsertAfterKeepsWellFormed(srcs, l, MsgSource.Chan(serv, chan));
    }
    r := Created(t, Some(l + 1));
  }

  /** The path of `new_chan_tab` for a server without tabs: the server tab is
      appended, and the retry that follows can only take the insertion path,
      right after the new server tab, with the server tab's fresh settings. */
  method ChanTabWithNewServer(c: Tui, serv: string, chan: string) returns (r: Created)
    requires c.Active() <= |c.Tabs()| && FindLastServTabIdx(Sources(c.Tabs()), serv).None?
    ensures r.idx == Some(|c.Tabs()| + 1)
    ensures r.tui.Valid() && r.tui.next == c.next && r.tui.prev == c.prev
    ensures r.tui.Active() == c.Active()
    ensures |r.tui.Tabs()| == |c.Tabs()| + 2 && r.tui.Tabs()[..|c.Tabs()|] == c.Tabs()
    ensures r.tui.Tabs()[|c.Tabs()|]
         == Tab(None, View.Create(true), MsgSource.Serv(serv), Normal, r.tui.Tabs()[|c.Tabs()|].switch, Mentions)
    ensures r.tui.Tabs()[|c.Tabs()| + 1]
         == Tab(None, View.Create(true), MsgSource.Chan(serv, chan), Normal, r.tui.Tabs()[|c.Tabs()| + 1].switch, Mentions)
    ensures KeyChosen(c.Tabs(), r.tui.Tabs()[|c.Tabs()|])
    ensures KeyChosen(r.tui.Tabs()[..|c.Tabs()| + 1], r.tui.Tabs()[|c.Tabs()| + 1])
    ensures Sources(r.tui.Tabs()) == Sources(c.Tabs()) + [MsgSource.Serv(serv), MsgSource.Chan(serv, chan)]
    ensures FindChanTabIdx(Sources(r.tui.Tabs()), serv, chan) == r.idx
    ensures WellFormed(Sources(c.Tabs())) ==> WellFormed(Sources(r.tui.Tabs()))
  {
    var srcs := Sources(c.Tabs());
    var n := |c.Tabs()|;
    var x := MsgSource.Chan(serv, chan);
    FindAfterServerAppend(srcs, serv, chan, "");
    var s := NewServerTab(c, serv, None);
    assert Sources(s.tui.Tabs()) == srcs + [MsgSource.Serv(serv)];
    assert s.tui.Tabs()[n].src == MsgSource.Serv(serv);
    assert ServerSettings(s.tui.Tabs(), serv) == (true, Mentions);
    r := ChanTabAfter(s.tui, serv, chan, n);
    InsertAfterAppend(srcs, MsgSource.Serv(serv), x);
    InsertedAfterAppend(c.Tabs(), s.tui.Tabs(), r.tui.Tabs(), r.tui.Active());
  }

  /** `new_chan_tab`: opens the channel tab right after the last tab of its
      server, taking over the ignore state and notifier of the server tab and
      the own nick of the server's last tab; when the server has no tab,
      creates the server tab first. Returns the new index, or `None` with
      nothing changed when the channel tab exists. The active index may be
      one past the end, as a close can leave it. */
  method NewChanTab(c: Tui, serv: string, chan: string) returns (r: Created)
    requires c.Active() <= |c.Tabs()|
    ensures r.tui.next == c.next && r.tui.prev == c.prev
    ensures c.Valid() ==> r.tui.Valid()
    ensures FindChanTabIdx(Sources(c.Tabs()), serv, chan).Some? ==> r.idx.None? && r.tui == c
    ensures FindChanTabIdx(Sources(c.Tabs()), serv, chan).None? ==>
      && r.tui.Valid()
      && r.idx.Some? && r.idx.value < |r.tui.Tabs()|
      && FindChanTabIdx(Sources(r.tui.Tabs()), serv, chan) == r.idx
    ensures FindChanTabIdx(Sources(c.Tabs()), serv, chan).None? ==>
      match FindLastServTabIdx(Sources(c.Tabs()), serv)
      case Some(l) =>
        && r.idx == Some(l + 1)
        && r.tui.Active() == (if c.Active() >= l + 1 then c.next(c.Active(), |c.Tabs()| + 1) else c.Active())
        && InsertedAt(c.Tabs(), l + 1, r.tui.Tabs(), c.Active() >= l + 1, r.tui.Active())
        && r.tui.Tabs()[l + 1]
           == Tab(None, View(ServerSettings(c.Tabs(), serv).0, c.Tabs()[l].widget.nick, []), MsgSource.Chan(serv, chan),
                  Normal, r.tui.Tabs()[l + 1].switch, ServerSettings(c.Tabs(), serv).1)
        && KeyChosen(c.Tabs(), r.tui.Tabs()[l + 1])
        && Sources(r.tui.Tabs()) == Insert(Sources(c.Tabs()), l + 1, MsgSource.Chan(serv, chan))
      case None =>
        && r.idx == Some(|c.Tabs()| + 1)
        && r.tui.Active() == c.Active()
        && |r.tui.Tabs()| == |c.Tabs()| + 2 && r.tui.Tabs()[..|c.Tabs()|] == c.Tabs()
        && r.tui.Tabs()[|c.Tabs()|]
           == Tab(None, View.Create(true), MsgSource.Serv(serv), Normal, r.tui.Tabs()[|c.Tabs()|].switch, Mentions)
        && r.tui.Tabs()[|c.Tabs()| + 1]
           == Tab(None, View.Create(true), MsgSource.Chan(serv, chan), Normal, r.tui.Tabs()[|c.Tabs()| + 1].switch, Mentions)
        && KeyChosen(c.Tabs(), r.tui.Tabs()[|c.Tabs()|])
        && KeyChosen(r.tui.Tabs()[..|c.Tabs()| + 1], r.tui.Tabs()[|c.Tabs()| + 1])
        && Sources(r.tui.Tabs()) == Sources(c.Tabs()) + [MsgSource.Serv(serv), MsgSource.Chan(serv, chan)]
    ensures WellFormed(Sources(c.Tabs())) ==> WellFormed(Sources(r.tui.Tabs()))
  {
    var srcs := Sources(c.Tabs());
    if FindChanTabIdx(srcs, serv, chan).Some? {
      return Created(c, None);
    }
    match FindLastServTabIdx(srcs, serv)
    case Some(l) =>
      r := ChanTabAfter(c, serv, chan, l);
    case None =>
      r := ChanTabWithNewServer(c, serv, chan);
  }

  /** Branch of `new_user_tab` for a server whose last tab is at `l`: the
      private tab goes right after it with ignore state `true`, notifying on
      every message, with the own nick of the tab at `l` and the user joined;
      the active index is not moved and no other tab changes. */
  method InsertUserTab(c: Tui, serv: string, nick: string, l: nat) returns (r: Tui)
    requires l < |c.Tabs()|
    ensures r.Active() == c.Active() && r.next == c.next && r.prev == c.prev
    ensures InsertedAt(c.Tabs(), l + 1, r.Tabs(), false, r.Active())
    ensures r.Tabs()[l + 1] == Tab(None, View(true, c.Tabs()[l].widget.nick, [Join(nick)]), MsgSource.User(serv, nick),
                                   Normal, r.Tabs()[l + 1].switch, Messages)
    ensures KeyChosen(c.Tabs(), r.Tabs()[l + 1])
    ensures Sources(r.Tabs()) == Insert(Sources(c.Tabs()), l + 1, MsgSource.User(serv, nick))
  {
    var idx := l + 1;
    var c1 := OpenTab(c, idx, MsgSource.User(serv, nick), true, Messages, None);
    var tabs := CopyNick(c1.Tabs(), l, idx);
    var joined := tabs[idx := tabs[idx].(widget := tabs[idx].widget.Record(Join(nick)))];
    assert Sources(joined) == Sources(tabs);
    KeyChosenKept(c.Tabs(), c1.Tabs()[idx], joined[idx]);
    InsertedAtInsert(c.Tabs(), idx, c1.Tabs()[idx], c.Active());
    InsertedAtKeep(c.Tabs(), idx, c1.Tabs(), joined, false, c.Active());
    r := c1.WithTabs(joined);
  }

  /** The insertion path of `new_user_tab` for a server whose last tab is at
      `l` and a private tab not yet open: found at `l + 1` afterwards. */
  method UserTabAfter(c: Tui, serv: string, nick: string, l: nat) returns (r: Created)
    requires l < |c.Tabs()| && c.Tabs()[l].src.ServName() == serv
    requires FindUserTabIdx(Sources(c.Tabs()), serv, nick).None?
    ensures r.idx == Some(l + 1)
    ensures r.tui.Active() == c.Active() && r.tui.next == c.next && r.tui.prev == c.prev
    ensures InsertedAt(c.Tabs(), l + 1, r.tui.Tabs(), false, r.tui.Active())
    ensures r.tui.Tabs()[l + 1] == Tab(None, View(true, c.Tabs()[l].widget.nick, [Join(nick)]), MsgSource.User(serv, nick),
                                       Normal, r.tui.Tabs()[l + 1].switch, Messages)
    ensures KeyChosen(c.Tabs(), r.tui.Tabs()[l + 1])
    ensures Sources(r.tui.Tabs()) == Insert(Sources(c.Tabs()), l + 1, MsgSource.User(serv, nick))
    ensures FindUserTabIdx(Sources(r.tui.Tabs()), serv, nick) == r.idx
    ensures WellFormed(Sources(c.Tabs())) ==> WellFormed(Sources(r.tui.Tabs()))
  {
    var srcs := Sources(c.Tabs());
    var t := InsertUserTab(c, serv, nick, l);
    FindUserAfterInsert(srcs, l + 1, serv, nick);
    if WellFormed(srcs) {
      InsertAfterKeepsWellFormed(srcs, l, MsgSource.User(serv, nick));
    }
    r := Created(t, Some(l + 1));
  }

  /** The path of `new_user_tab` for a server without tabs: the server tab is
      appended, and the retry that follows can only take the insertion path,
      right after the new server tab. */
  method UserTabWithNewServer(c: Tui, serv: string, nick: string) returns (r: Created)
    requires FindLastServTabIdx(Sources(c.Tabs()), serv).None?
    ensures r.idx == Some(|c.Tabs()| + 1)
    ensures r.tui.Active() == c.Active() && r.tui.next == c.next && r.tui.prev == c.prev
    ensures |r.tui.Tabs()| == |c.Tabs()| + 2 && r.tui.Tabs()[..|c.Tabs()|] == c.Tabs()
    ensures r.tui.Tabs()[|c.Tabs()|]
         == Tab(None, View.Create(true), MsgSource.Serv(serv), Normal, r.tui.Tabs()[|c.Tabs()|].switch, Mentions)
    ensures r.tui.Tabs()[|c.Tabs()| + 1]
         == Tab(None, View(true, None, [Join(nick)]), MsgSource.User(serv, nick), Normal, r.tui.Tabs()[|c.Tabs()| + 1].switch, Messages)
    ensures KeyChosen(c.Tabs(), r.tui.Tabs()[|c.Tabs()|])
    ensures KeyChosen(r.tui.Tabs()[..|c.Tabs()| + 1], r.tui.Tabs()[|c.Tabs()| + 1])
    ensures Sources(r.tui.Tabs()) == Sources(c.Tabs()) + [MsgSource.Serv(serv), MsgSource.User(serv, nick)]
    ensures FindUserTabIdx(Sources(r.tui.Tabs()), serv, nick) == r.idx
    ensures WellFormed(Sources(c.Tabs())) ==> WellFormed(Sources(r.tui.Tabs()))
  {
    var srcs := Sources(c.Tabs());
    var n := |c.Tabs()|;
    var x := MsgSource.User(serv, nick);
    FindAfterServerAppend(srcs, serv, "", nick);
    var s := NewServerTab(c, serv, None);
    assert Sources(s.tui.Tabs()) == srcs + [MsgSource.Serv(serv)];
    assert s.tui.Tabs()[n].src == MsgSource.Serv(serv);
    r := UserTabAfter(s.tui, serv, nick, n);
    InsertAfterAppend(srcs, MsgSource.Serv(serv), x);
    InsertedAfterAppend(c.Tabs(), s.tui.Tabs(), r.tui.Tabs(), r.tui.Active());
  }

  /** `new_user_tab`: opens the private tab right after the last tab of its
      server; when the server has no tab, creates the server tab first.
      Returns the new index, or `None` with nothing changed when the tab
      exists. Unlike `new_chan_tab` it never moves the active index. */
  method NewUserTab(c: Tui, serv: string, nick: string) returns (r: Created)
    ensures r.tui.Active() == c.Active() && r.tui.next == c.next && r.tui.prev == c.prev
    ensures c.Valid() ==> r.tui.Valid()
    ensures FindUserTabIdx(Sources(c.Tabs()), serv, nick).Some? ==> r.idx.None? && r.tui == c
    ensures FindUserTabIdx(Sources(c.Tabs()), serv, nick).None? ==>
      && r.idx.Some? && r.idx.value < |r.tui.Tabs()|
      && FindUserTabIdx(Sources(r.tui.Tabs()), serv, nick) == r.idx
    ensures FindUserTabIdx(Sources(c.Tabs()), serv, nick).None? ==>
      match FindLastServTabIdx(Sources(c.Tabs()), serv)
      case Some(l) =>
        && r.idx == Some(l + 1)
        && InsertedAt(c.Tabs(), l + 1, r.tui.Tabs(), false, r.tui.Active())
        && r.tui.Tabs()[l + 1]
           == Tab(None, View(true, c.Tabs()[l].widget.nick, [Join(nick)]), MsgSource.User(serv, nick),
                  Normal, r.tui.Tabs()[l + 1].switch, Messages)
        && KeyChosen(c.Tabs(), r.tui.Tabs()[l + 1])
        && Sources(r.tui.Tabs()) == Insert(Sources(c.Tabs()), l + 1, MsgSource.User(serv, nick))
      case None =>
        && r.idx == Some(|c.Tabs()| + 1)
        && |r.tui.Tabs()| == |c.Tabs()| + 2 && r.tui.Tabs()[..|c.Tabs()|] == c.Tabs()
        && r.tui.Tabs()[|c.Tabs()|]
           == Tab(None, View.Create(true), MsgSource.Serv(serv), Normal, r.tui.Tabs()[|c.Tabs()|].switch, Mentions)
        && r.tui.Tabs()[|c.Tabs()| + 1]
           == Tab(None, View(true, None, [Join(nick)]), MsgSource.User(serv, nick), Normal, r.tui.Tabs()[|c.Tabs()| + 1].switch, Messages)
        && KeyChosen(c.Tabs(), r.tui.Tabs()[|c.Tabs()|])
        && KeyChosen(r.tui.Tabs()[..|c.Tabs()| + 1], r.tui.Tabs()[|c.Tabs()| + 1])
        && Sources(r.tui.Tabs()) == Sources(c.Tabs()) + [MsgSource.Serv(serv), MsgSource.User(serv, nick)]
    ensures WellFormed(Sources(c.Tabs())) ==> WellFormed(Sources(r.tui.Tabs()))
  {
    var srcs := Sources(c.Tabs());
    if FindUserTabIdx(srcs, serv, nick).Some? {
      return Created(c, None);
    }
    match FindLastServTabIdx(srcs, serv)
    case Some(l) =>
      r := UserTabAfter(c, serv, nick, l);
    case None =>
      r := UserTabWithNewServer(c, serv, nick);
  }
}

=== FILE: tui_target.dfy ===
/** Addressing tabs by message target: resolution of a target to tab indices,
    on-demand creation of the addressed tab, and the per-tab actions the
    controller applies through `apply_to_target`. */
module TuiTarget {
  import opened Msg
  import opened Seqs
  import opened Lookup
  import opened Messaging
  import opened TuiTab
  import opened TabOrder
  import opened Tui

  /** Indices at or after `from` of the tabs of server `serv`, in ascending
      order (the `AllServTabs` loop). */
  function AllOfServer(srcs: seq<MsgSource>, serv: string, from: nat): (idxs: seq<nat>)
    requires from <= |srcs|
    ensures forall j :: 0 <= j < |idxs| ==> from <= idxs[j] < |srcs| && srcs[idxs[j]].ServName() == serv
    ensures forall j, j' :: 0 <= j < j' < |idxs| ==> idxs[j] < idxs[j']
    ensures forall k :: from <= k < |srcs| && srcs[k].ServName() == serv ==> k in idxs
    decreases |srcs| - from
  {
    if from == |srcs| then []
    else
      var rest := AllOfServer(srcs, serv, from + 1);
      if srcs[from].ServName() == serv then [from] + rest else rest
  }

  /** Tab indices a target addresses, before any tab is created: the first
      exact match for a server, channel or user target, every tab of the
      server in ascending order for `AllServTabs`, the active index for
      `CurrentTab`. */
  function Resolve(srcs: seq<MsgSource>, active: nat, target: MsgTarget): (idxs: seq<nat>)
    ensures target.CurrentTab? ==> idxs == [active]
    ensures target.Server? ==> idxs == OptionToSeq(FindServTabIdx(srcs, target.serv))
    ensures target.Chan? ==> idxs == OptionToSeq(FindChanTabIdx(srcs, target.serv, target.chan))
    ensures target.User? ==> idxs == OptionToSeq(FindUserTabIdx(srcs, target.serv, target.nick))
    ensures target.AllServTabs? ==>
      && (forall j, j' :: 0 <= j < j' < |idxs| ==> idxs[j] < idxs[j'])
      && (forall k :: k in idxs <==> 0 <= k < |srcs| && srcs[k].ServName() == target.serv)
    ensures !target.CurrentTab? ==> forall j :: 0 <= j < |idxs| ==> idxs[j] < |srcs|
  {
    match target
    case Server(serv) => OptionToSeq(FindServTabIdx(srcs, serv))
    case Chan(serv, chan) => OptionToSeq(FindChanTabIdx(srcs, serv, chan))
    case User(serv, nick) => OptionToSeq(FindUserTabIdx(srcs, serv, nick))
    case AllServTabs(serv) =>
      var all := AllOfServer(srcs, serv, 0);
      assert forall k :: k in all ==> 0 <= k < |srcs| && srcs[k].ServName() == serv by {
        forall k | k in all ensures 0 <= k < |srcs| && srcs[k].ServName() == serv {
          var j :| 0 <= j < |all| && all[j] == k;
        }
      }
      all
    case CurrentTab => [active]
  }

  /** The index list holding the found index, if any. */
  function OptionToSeq(o: Option<nat>): (s: seq<nat>)
    ensures |s| <= 1 && (o.None? <==> |s| == 0) && (o.Some? ==> s == [o.value])
  {
    match o
    case None => []
    case Some(i) => [i]
  }

  /** A server, channel or user target resolves to at most one tab, and to
      none exactly when no tab has that exact source. */
  lemma ResolveSingle(srcs: seq<MsgSource>, active: nat, target: MsgTarget)
    requires target.Server? || target.Chan? || target.User?
    ensures |Resolve(srcs, active, target)| <= 1
    ensures |Resolve(srcs, active, target)| == 0 <==> forall k :: 0 <= k < |srcs| ==> srcs[k].ToTarget() != target
  {
    forall k | 0 <= k < |srcs|
      ensures srcs[k].ToTarget() == target <==> srcs[k] == TargetSource(target)
    {
    }
  }

  /** Source of the tab a server, channel or user target names. */
  function TargetSource(target: MsgTarget): (s: MsgSource)
    requires target.Server? || target.Chan? || target.User?
    ensures s.ToTarget() == target
  {
    match target
    case Server(serv) => MsgSource.Serv(serv)
    case Chan(serv, chan) => MsgSource.Chan(serv, chan)
    case User(serv, nick) => MsgSource.User(serv, nick)
  }

  /** Index of the tab `maybe_create_tab` opens for `target` when none
      matches: the server tab goes at the end; a channel or user tab right
      after the last tab of its server, or after the server tab appended for
      it. */
  function OpenedIdx(tabs: seq<Tab>, target: MsgTarget): nat
    requires !target.CurrentTab?
  {
    if target.Server? || target.AllServTabs? then |tabs|
    else
      match FindLastServTabIdx(Sources(tabs), target.serv)
      case Some(l) => l + 1
      case None => |tabs| + 1
  }

  /** Whether opening a tab for `target` appends its server tab first: a
      channel or user target whose server has no tab. */
  predicate OpensServerFirst(tabs: seq<Tab>, target: MsgTarget)
  {
    (target.Chan? || target.User?) && FindLastServTabIdx(Sources(tabs), target.serv).None?
  }

  /** The tabs against which the switch key of the tab opened for `target`
      is chosen: those open before, followed by the server tab appended
      first when there is one; `o` is the list afterwards. */
  function KeyBase(tabs: seq<Tab>, target: MsgTarget, o: seq<Tab>): seq<Tab>
  {
    if OpensServerFirst(tabs, target) && |tabs| < |o| then o[..|tabs| + 1] else tabs
  }

  /** The tab `maybe_create_tab` opens for `target`, with switch key `key`: a
      server tab has ignore state `true` and notifies on mentions; a channel
      tab takes the ignore state and notifier of its server tab and the own
      nick of the server's last tab; a private tab has ignore state `true`,
      notifies on every message, takes that nick too and has the user
      joined. */
  function OpenedTab(tabs: seq<Tab>, target: MsgTarget, key: Option<char>): (t: Tab)
    requires !target.CurrentTab?
    ensures t.alias.None? && t.style == Normal && t.switch == key
  {
    var last := FindLastServTabIdx(Sources(tabs), target.serv);
    var nick := if last.Some? then tabs[last.value].widget.nick else None;
    match target
    case Server(serv) => Tab(None, View.Create(true), MsgSource.Serv(serv), Normal, key, Mentions)
    case AllServTabs(serv) => Tab(None, View.Create(true), MsgSource.Serv(serv), Normal, key, Mentions)
    case Chan(serv, chan) =>
      var settings := ServerSettings(tabs, serv);
      Tab(None, View(settings.0, nick, []), MsgSource.Chan(serv, chan), Normal, key, settings.1)
    case User(serv, nick') => Tab(None, View(true, nick, [Join(nick')]), MsgSource.User(serv, nick'), Normal, key, Messages)
  }

  /** `o` is `c` with the tabs `new_server_tab` appends for a server without
      tabs, leaving room after them: the old tabs come first and unchanged,
      then the fresh server tab `serv`, and the active index stays. */
  ghost predicate ServerAppended(c: Tui, serv: string, o: Tui)
  {
    var n := |c.Tabs()|;
    && o.Active() == c.Active() && |o.Tabs()| == n + 2 && o.Tabs()[..n] == c.Tabs()
    && o.Tabs()[n] == Tab(None, View.Create(true), MsgSource.Serv(serv), Normal, o.Tabs()[n].switch, Mentions)
  }

  /** Everything `maybe_create_tab` does for `target` apart from the opened
      tab itself, at `OpenedIdx`: the other tabs, the server tab created on
      the way, and the active index, which only a channel tab inserted at or
      before it moves (one step forward, showing the tab reached as read). */
  ghost predicate OpenedAround(c: Tui, target: MsgTarget, o: Tui)
    requires !target.CurrentTab?
  {
    var tabs, n := c.Tabs(), |c.Tabs()|;
    && o.Valid() && o.next == c.next && o.prev == c.prev
    && if target.Server? || target.AllServTabs? then
         o.Active() == c.Active() && |o.Tabs()| == n + 1 && o.Tabs()[..n] == tabs
       else
         match FindLastServTabIdx(Sources(tabs), target.serv)
         case None => ServerAppended(c, target.serv, o)
         case Some(l) =>
           var advance := target.Chan? && c.Active() >= l + 1;
           && o.Active() == (if advance then c.next(c.Active(), n + 1) else c.Active())
           && InsertedAt(tabs, l + 1, o.Tabs(), advance, o.Active())
  }

  /** `OpenedAround` depends only on the tabs, the active index and the
      moves of the state it starts from. */
  lemma OpenedAroundSameStart(c: Tui, c': Tui, target: MsgTarget, o: Tui)
    requires !target.CurrentTab? && OpenedAround(c, target, o)
    requires c'.Tabs() == c.Tabs() && c'.Active() == c.Active() && c'.next == c.next && c'.prev == c.prev
    ensures OpenedAround(c', target, o)
  {
  }

  /** `OpenedAround` says nothing about the opened tab, so changing only that
      tab keeps it. */
  lemma OpenedAroundKeep(c: Tui, target: MsgTarget, o: Tui, tabs: seq<Tab>)
    requires !target.CurrentTab? && OpenedAround(c, target, o)
    requires |tabs| == |o.Tabs()|
    requires forall k :: 0 <= k < |tabs| && k != OpenedIdx(c.Tabs(), target) ==> tabs[k] == o.Tabs()[k]
    ensures OpenedAround(c, target, o.WithTabs(tabs))
  {
    var n := |c.Tabs()|;
    if target.Server? || target.AllServTabs? {
      assert tabs[..n] == o.Tabs()[..n];
    } else {
      match FindLastServTabIdx(Sources(c.Tabs()), target.serv)
      case None =>
        assert tabs[..n] == o.Tabs()[..n];
      case Some(l) =>
        var advance := target.Chan? && c.Active() >= l + 1;
        InsertedAtKeep(c.Tabs(), l + 1, o.Tabs(), tabs, advance, o.Active());
    }
  }

  /** What `maybe_create_tab` promises: the addressed tab is created exactly
      when it is missing (never for the current tab), at `OpenedIdx`, holding
      `OpenedTab` with the switch key `new_tab` chooses, and every other tab
      keeps its contents and order; the block order stays well formed. */
  ghost predicate CreatedFor(c: Tui, target: MsgTarget, r: Created)
    requires c.Valid()
  {
    && r.tui.Valid() && r.tui.next == c.next && r.tui.prev == c.prev
    && (target.CurrentTab? ==> r.idx.None? && r.tui == c)
    && (r.idx.None? ==> r.tui == c)
    && (r.idx.Some? ==> r.idx.value < |r.tui.Tabs()|)
    && (r.idx.Some? && (target.Server? || target.AllServTabs?) ==>
          r.tui.Tabs()[r.idx.value].src == MsgSource.Serv(target.serv))
    && (r.idx.Some? && (target.Chan? || target.User?) ==>
          r.tui.Tabs()[r.idx.value].src == TargetSource(target))
    && ((target.Server? || target.AllServTabs?) ==>
          (r.idx.None? <==> FindServTabIdx(Sources(c.Tabs()), target.serv).Some?))
    && (target.Chan? ==> (r.idx.None? <==> FindChanTabIdx(Sources(c.Tabs()), target.serv, target.chan).Some?))
    && (target.User? ==> (r.idx.None? <==> FindUserTabIdx(Sources(c.Tabs()), target.serv, target.nick).Some?))
    && (r.idx.Some? ==>
          && r.idx.value == OpenedIdx(c.Tabs(), target)
          && OpenedAround(c, target, r.tui)
          && r.tui.Tabs()[r.idx.value] == OpenedTab(c.Tabs(), target, r.tui.Tabs()[r.idx.value].switch)
          && KeyChosen(KeyBase(c.Tabs(), target, r.tui.Tabs()), r.tui.Tabs()[r.idx.value])
          && (OpensServerFirst(c.Tabs(), target) ==> KeyChosen(c.Tabs(), r.tui.Tabs()[|c.Tabs()|])))
    && (WellFormed(Sources(c.Tabs())) ==> WellFormed(Sources(r.tui.Tabs())))
  }

  /** `maybe_create_tab`: a server or all-server-tabs target opens the server
      tab, a channel or user target opens that tab (and its server tab when
      missing); the current-tab target creates nothing. */
  method MaybeCreateTab(c: Tui, target: MsgTarget) returns (r: Created)
    requires c.Valid()
    ensures CreatedFor(c, target, r)
  {
    match target
    case Server(_) =>
      r := OpenServerTarget(c, target);
    case AllServTabs(_) =>
      r := OpenServerTarget(c, target);
    case Chan(_, _) =>
      r := OpenChanTarget(c, target);
    case User(_, _) =>
      r := OpenUserTarget(c, target);
    case CurrentTab =>
      r := Created(c, None);
  }

  /** The server and all-server-tabs arms of `maybe_create_tab`. */
  method OpenServerTarget(c: Tui, target: MsgTarget) returns (r: Created)
    requires c.Valid() && (target.Server? || target.AllServTabs?)
    ensures CreatedFor(c, target, r)
  {
    r := NewServerTab(c, target.serv, None);
    ServerOpened(c, target, r);
  }

  /** The channel arm of `maybe_create_tab`. */
  method OpenChanTarget(c: Tui, target: MsgTarget) returns (r: Created)
    requires c.Valid() && target.Chan?
    ensures CreatedFor(c, target, r)
  {
    var serv, chan := target.serv, target.chan;
    assert target == MsgTarget.Chan(serv, chan);
    r := NewChanTab(c, serv, chan);
    ChanOpened(c, serv, chan, r);
  }

  /** The private-message arm of `maybe_create_tab`. */
  method OpenUserTarget(c: Tui, target: MsgTarget) returns (r: Created)
    requires c.Valid() && target.User?
    ensures CreatedFor(c, target, r)
  {
    var serv, nick := target.serv, target.nick;
    assert target == MsgTarget.User(serv, nick);
    r := NewUserTab(c, serv, nick);
    UserOpened(c, serv, nick, r);
  }

  /** The switch keys `new_chan_tab` and `new_user_tab` promise, stated
      against `KeyBase`. */
  lemma OpenedKeyChosen(tabs: seq<Tab>, target: MsgTarget, o: seq<Tab>, idx: nat)
    requires target.Chan? || target.User?
    requires match FindLastServTabIdx(Sources(tabs), target.serv)
      case Some(l) => idx == l + 1 && idx < |o| && KeyChosen(tabs, o[l + 1])
      case None =>
        && idx == |tabs| + 1 && |o| == |tabs| + 2
        && KeyChosen(tabs, o[|tabs|]) && KeyChosen(o[..|tabs| + 1], o[|tabs| + 1])
    ensures idx < |o| && KeyChosen(KeyBase(tabs, target, o), o[idx])
    ensures OpensServerFirst(tabs, target) ==> KeyChosen(tabs, o[|tabs|])
  {
  }

  /** The channel tab `new_chan_tab` opens is the one `OpenedTab` names. */
  lemma ChanOpened(c: Tui, serv: string, chan: string, r: Created)
    requires c.Valid() && r.tui.Valid() && r.tui.next == c.next && r.tui.prev == c.prev
    requires r.idx.Some? ==> FindChanTabIdx(Sources(c.Tabs()), serv, chan).None?
    requires FindChanTabIdx(Sources(c.Tabs()), serv, chan).None? ==>
      match FindLastServTabIdx(Sources(c.Tabs()), serv)
      case Some(l) =>
        && r.idx == Some(l + 1)
        && r.tui.Active() == (if c.Active() >= l + 1 then c.next(c.Active(), |c.Tabs()| + 1) else c.Active())
        && InsertedAt(c.Tabs(), l + 1, r.tui.Tabs(), c.Active() >= l + 1, r.tui.Active())
        && r.tui.Tabs()[l + 1]
           == Tab(None, View(ServerSettings(c.Tabs(), serv).0, c.Tabs()[l].widget.nick, []), MsgSource.Chan(serv, chan),
                  Normal, r.tui.Tabs()[l + 1].switch, ServerSettings(c.Tabs(), serv).1)
        && KeyChosen(c.Tabs(), r.tui.Tabs()[l + 1])
      case None =>
        && r.idx == Some(|c.Tabs()| + 1)
        && r.tui.Active() == c.Active()
        && |r.tui.Tabs()| == |c.Tabs()| + 2 && r.tui.Tabs()[..|c.Tabs()|] == c.Tabs()
        && r.tui.Tabs()[|c.Tabs()|]
           == Tab(None, View.Create(true), MsgSource.Serv(serv), Normal, r.tui.Tabs()[|c.Tabs()|].switch, Mentions)
        && r.tui.Tabs()[|c.Tabs()| + 1]
           == Tab(None, View.Create(true), MsgSource.Chan(serv, chan), Normal, r.tui.Tabs()[|c.Tabs()| + 1].switch, Mentions)
        && KeyChosen(c.Tabs(), r.tui.Tabs()[|c.Tabs()|])
        && KeyChosen(r.tui.Tabs()[..|c.Tabs()| + 1], r.tui.Tabs()[|c.Tabs()| + 1])
    ensures r.idx.Some? ==>
      && r.idx.value == OpenedIdx(c.Tabs(), MsgTarget.Chan(serv, chan))
      && OpenedAround(c, MsgTarget.Chan(serv, chan), r.tui)
      && r.tui.Tabs()[r.idx.value] == OpenedTab(c.Tabs(), MsgTarget.Chan(serv, chan), r.tui.Tabs()[r.idx.value].switch)
      && KeyChosen(KeyBase(c.Tabs(), MsgTarget.Chan(serv, chan), r.tui.Tabs()), r.tui.Tabs()[r.idx.value])
      && (OpensServerFirst(c.Tabs(), MsgTarget.Chan(serv, chan)) ==> KeyChosen(c.Tabs(), r.tui.Tabs()[|c.Tabs()|]))
  {
    if r.idx.Some? {
      OpenedKeyChosen(c.Tabs(), MsgTarget.Chan(serv, chan), r.tui.Tabs(), r.idx.value);
      match FindLastServTabIdx(Sources(c.Tabs()), serv)
      case Some(l) => ChanOpenedAfter(c, serv, chan, r.tui, l);
      case None => ChanOpenedWithServer(c, serv, chan, r.tui);
    }
  }

  /** `ChanOpened` when the server has tabs: the channel tab goes after the last. */
  lemma ChanOpenedAfter(c: Tui, serv: string, chan: string, o: Tui, l: nat)
    requires c.Valid() && o.Valid() && o.next == c.next && o.prev == c.prev
    requires FindLastServTabIdx(Sources(c.Tabs()), serv) == Some(l)
    requires o.Active() == (if c.Active() >= l + 1 then c.next(c.Active(), |c.Tabs()| + 1) else c.Active())
    requires InsertedAt(c.Tabs(), l + 1, o.Tabs(), c.Active() >= l + 1, o.Active())
    requires o.Tabs()[l + 1]
      == Tab(None, View(ServerSettings(c.Tabs(), serv).0, c.Tabs()[l].widget.nick, []), MsgSource.Chan(serv, chan),
             Normal, o.Tabs()[l + 1].switch, ServerSettings(c.Tabs(), serv).1)
    ensures OpenedIdx(c.Tabs(), MsgTarget.Chan(serv, chan)) == l + 1
    ensures OpenedAround(c, MsgTarget.Chan(serv, chan), o)
    ensures o.Tabs()[l + 1] == OpenedTab(c.Tabs(), MsgTarget.Chan(serv, chan), o.Tabs()[l + 1].switch)
  {
  }

  /** `ChanOpened` when the server has no tab: a server tab is appended first,
      and the channel tab takes the settings of a missing server. */
  lemma ChanOpenedWithServer(c: Tui, serv: string, chan: string, o: Tui)
    requires c.Valid() && o.Valid() && o.next == c.next && o.prev == c.prev
    requires FindLastServTabIdx(Sources(c.Tabs()), serv).None?
    requires o.Active() == c.Active()
    requires |o.Tabs()| == |c.Tabs()| + 2 && o.Tabs()[..|c.Tabs()|] == c.Tabs()
    requires o.Tabs()[|c.Tabs()|]
      == Tab(None, View.Create(true), MsgSource.Serv(serv), Normal, o.Tabs()[|c.Tabs()|].switch, Mentions)
    requires o.Tabs()[|c.Tabs()| + 1]
      == Tab(None, View.Create(true), MsgSource.Chan(serv, chan), Normal, o.Tabs()[|c.Tabs()| + 1].switch, Mentions)
    ensures OpenedIdx(c.Tabs(), MsgTarget.Chan(serv, chan)) == |c.Tabs()| + 1
    ensures OpenedAround(c, MsgTarget.Chan(serv, chan), o)
    ensures o.Tabs()[|c.Tabs()| + 1]
      == OpenedTab(c.Tabs(), MsgTarget.Chan(serv, chan), o.Tabs()[|c.Tabs()| + 1].switch)
  {
    assert FindServTabIdx(Sources(c.Tabs()), serv).None?;
  }

  /** The private tab `new_user_tab` opens is the one `OpenedTab` names. */
  lemma UserOpened(c: Tui, serv: string, nick: string, r: Created)
    requires c.Valid() && r.tui.Valid() && r.tui.next == c.next && r.tui.prev == c.prev
    requires r.tui.Active() == c.Active()
    requires r.idx.Some? ==> FindUserTabIdx(Sources(c.Tabs()), serv, nick).None?
    requires FindUserTabIdx(Sources(c.Tabs()), serv, nick).None? ==>
      match FindLastServTabIdx(Sources(c.Tabs()), serv)
      case Some(l) =>
        && r.idx == Some(l + 1)
        && InsertedAt(c.Tabs(), l + 1, r.tui.Tabs(), false, r.tui.Active())
        && r.tui.Tabs()[l + 1]
           == Tab(None, View(true, c.Tabs()[l].widget.nick, [Join(nick)]), MsgSource.User(serv, nick),
                  Normal, r.tui.Tabs()[l + 1].switch, Messages)
        && KeyChosen(c.Tabs(), r.tui.Tabs()[l + 1])
      case None =>
        && r.idx == Some(|c.Tabs()| + 1)
        && |r.tui.Tabs()| == |c.Tabs()| + 2 && r.tui.Tabs()[..|c.Tabs()|] == c.Tabs()
        && r.tui.Tabs()[|c.Tabs()|]
           == Tab(None, View.Create(true), MsgSource.Serv(serv), Normal, r.tui.Tabs()[|c.Tabs()|].switch, Mentions)
        && r.tui.Tabs()[|c.Tabs()| + 1]
           == Tab(None, View(true, None, [Join(nick)]), MsgSource.User(serv, nick), Normal, r.tui.Tabs()[|c.Tabs()| + 1].switch, Messages)
        && KeyChosen(c.Tabs(), r.tui.Tabs()[|c.Tabs()|])
        && KeyChosen(r.tui.Tabs()[..|c.Tabs()| + 1], r.tui.Tabs()[|c.Tabs()| + 1])
    ensures r.idx.Some? ==>
      && r.idx.value == OpenedIdx(c.Tabs(), MsgTarget.User(serv, nick))
      && OpenedAround(c, MsgTarget.User(serv, nick), r.tui)
      && r.tui.Tabs()[r.idx.value] == OpenedTab(c.Tabs(), MsgTarget.User(serv, nick), r.tui.Tabs()[r.idx.value].switch)
      && KeyChosen(KeyBase(c.Tabs(), MsgTarget.User(serv, nick), r.tui.Tabs()), r.tui.Tabs()[r.idx.value])
      && (OpensServerFirst(c.Tabs(), MsgTarget.User(serv, nick)) ==> KeyChosen(c.Tabs(), r.tui.Tabs()[|c.Tabs()|]))
  {
    if r.idx.Some? {
      OpenedKeyChosen(c.Tabs(), MsgTarget.User(serv, nick), r.tui.Tabs(), r.idx.value);
    }
  }

  /** The server tab `new_server_tab` appends is the one `OpenedTab` names. */
  lemma ServerOpened(c: Tui, target: MsgTarget, r: Created)
    requires c.Valid() && (target.Server? || target.AllServTabs?)
    requires FindServTabIdx(Sources(c.Tabs()), target.serv).None? ==>
      && r.idx == Some(|c.Tabs()|)
      && Sources(r.tui.Tabs()) == Sources(c.Tabs()) + [MsgSource.Serv(target.serv)]
      && r.tui.Tabs()[..|c.Tabs()|] == c.Tabs()
      && var t := r.tui.Tabs()[|c.Tabs()|];
         && t.alias.None? && t.style == Normal && t.notifier == Mentions && t.widget == View.Create(true)
    requires FindServTabIdx(Sources(c.Tabs()), target.serv).Some? ==> r.idx.None?
    requires r.tui.Valid() && r.tui.Active() == c.Active() && r.tui.next == c.next && r.tui.prev == c.prev
    ensures r.idx.Some? ==>
      && r.idx.value == OpenedIdx(c.Tabs(), target)
      && OpenedAround(c, target, r.tui)
      && r.tui.Tabs()[r.idx.value] == OpenedTab(c.Tabs(), target, r.tui.Tabs()[r.idx.value].switch)
  {
    if r.idx.Some? {
      var n := |c.Tabs()|;
      assert r.tui.Tabs()[n].src == Sources(r.tui.Tabs())[n];
    }
  }

  /** What a caller of `apply_to_target` does to each addressed tab. */
  datatype Action =
    | RaiseStyle(style: TabStyle)
    | ClientErr(msg: string)
    | ClientNotify(msg: string)
    | SetNotifier(notifier: Notifier)
    | ShowNotifyMode
    | ClearView
    | SetIgnore(value: Option<bool>)

  /** Message `show_notify_mode` prints for a notification level. */
  function NotifyModeText(n: Notifier): (text: string)
    ensures n == Off <==> text == "Notifications are off"
    ensures n == Mentions <==> text == "Notifications enabled for mentions"
    ensures n == Messages <==> text == "Notifications enabled for all messages"
  {
    match n
    case Off => "Notifications are off"
    case Mentions => "Notifications enabled for mentions"
    case Messages => "Notifications enabled for all messages"
  }

  /** One action on one tab; `isActive` tells whether it is the active tab. */
  function Apply(a: Action, t: Tab, isActive: bool): (t': Tab)
    ensures t'.src == t.src && t'.alias == t.alias && t'.switch == t.switch
    ensures a.RaiseStyle? ==>
      && t'.widget == t.widget && t'.notifier == t.notifier
      && t'.style.Rank() >= t.style.Rank()
      && (isActive ==> t' == t)
      && (!isActive ==> t'.style.Rank() >= a.style.Rank())
      && (t'.style != t.style ==> t'.style == a.style)
    ensures !a.RaiseStyle? ==> t'.style == t.style
    ensures a.SetNotifier? ==> t'.notifier == a.notifier && t'.widget == t.widget
    ensures (a.ClientErr? || a.ClientNotify? || a.ShowNotifyMode? || a.ClearView?) ==>
      t'.notifier == t.notifier && |t'.widget.log| == |t.widget.log| + 1
      && t'.widget.log[..|t.widget.log|] == t.widget.log
      && t'.widget.ignore == t.widget.ignore && t'.widget.nick == t.widget.nick
    ensures a.ClientErr? ==> t'.widget.log[|t.widget.log|] == ClientErrMsg(a.msg)
    ensures a.ClientNotify? ==> t'.widget.log[|t.widget.log|] == ClientNotifyMsg(a.msg)
    ensures a.ShowNotifyMode? ==> t'.widget.log[|t.widget.log|] == ClientNotifyMsg(NotifyModeText(t.notifier))
    ensures a.ClearView? ==> t'.widget.log[|t.widget.log|] == ClearLines
    ensures a.SetIgnore? ==>
      && t'.notifier == t.notifier && t'.widget.log == t.widget.log && t'.widget.nick == t.widget.nick
      && (a.value.Some? ==> t'.widget.ignore == a.value.value)
      && (a.value.None? ==> t'.widget.ignore != t.widget.ignore)
  {
    match a
    case RaiseStyle(s) => if !isActive && t.style.Rank() < s.Rank() then t.SetStyle(s) else t
    case ClientErr(msg) => t.(widget := t.widget.Record(ClientErrMsg(msg)))
    case ClientNotify(msg) => t.(widget := t.widget.Record(ClientNotifyMsg(msg)))
    case SetNotifier(n) => t.(notifier := n)
    case ShowNotifyMode => t.(widget := t.widget.Record(ClientNotifyMsg(NotifyModeText(t.notifier))))
    case ClearView => t.(widget := t.widget.Record(ClearLines))
    case SetIgnore(v) => t.(widget := t.widget.SetOrToggleIgnore(v))
  }

  /** Applies `a` to the tabs at `idxs`, in order; `active` is the active index. */
  function ApplyAt(tabs: seq<Tab>, idxs: seq<nat>, a: Action, active: nat): (r: seq<Tab>)
    requires forall j :: 0 <= j < |idxs| ==> idxs[j] < |tabs|
    requires forall j, j' :: 0 <= j < j' < |idxs| ==> idxs[j] != idxs[j']
    ensures |r| == |tabs| && Sources(r) == Sources(tabs)
    ensures forall k :: 0 <= k < |tabs| && k in idxs ==> r[k] == Apply(a, tabs[k], k == active)
    ensures forall k :: 0 <= k < |tabs| && k !in idxs ==> r[k] == tabs[k]
    decreases |idxs|
  {
    if |idxs| == 0 then tabs
    else
      var i := idxs[0];
      var rest := ApplyAt(tabs, idxs[1..], a, active);
      assert forall k :: k in idxs <==> k == i || k in idxs[1..];
      assert i !in idxs[1..];
      rest[i := Apply(a, tabs[i], i == active)]
  }

  /** `apply_to_target`: resolves the target; when nothing matches, lets
      `maybe_create_tab` open the addressed tab and uses it; then applies the
      action to every resolved tab, telling it whether it is the active one.
      The current-tab target needs an active tab (the source indexes it). */
  method ApplyToTarget(c: Tui, target: MsgTarget, a: Action) returns (r: Tui, idxs: seq<nat>)
    requires c.Valid()
    requires target.CurrentTab? ==> c.Active() < |c.Tabs()|
    ensures r.Valid() && r.next == c.next && r.prev == c.prev
    ensures |Resolve(Sources(c.Tabs()), c.Active(), target)| > 0 ==> r.Active() == c.Active()
    ensures |Resolve(Sources(c.Tabs()), c.Active(), target)| > 0 ==>
      idxs == Resolve(Sources(c.Tabs()), c.Active(), target)
      && |r.Tabs()| == |c.Tabs()| && Sources(r.Tabs()) == Sources(c.Tabs())
      && forall k :: 0 <= k < |c.Tabs()| ==>
           r.Tabs()[k] == if k in idxs then Apply(a, c.Tabs()[k], k == c.Active()) else c.Tabs()[k]
    ensures |Resolve(Sources(c.Tabs()), c.Active(), target)| == 0 ==>
      var i := OpenedIdx(c.Tabs(), target);
      && idxs == [i] && i < |r.Tabs()|
      && OpenedAround(c, target, r)
      && r.Tabs()[i] == Apply(a, OpenedTab(c.Tabs(), target, r.Tabs()[i].switch), i == r.Active())
    ensures forall j :: 0 <= j < |idxs| ==> idxs[j] < |r.Tabs()|
    ensures WellFormed(Sources(c.Tabs())) ==> WellFormed(Sources(r.Tabs()))
  {
    var srcs := Sources(c.Tabs());
    idxs := Resolve(srcs, c.Active(), target);
    if |idxs| == 0 {
      var i;
      r, i := ApplyToOpened(c, target, a);
      idxs := [i];
    } else {
      r := c.WithTabs(ApplyAt(c.Tabs(), idxs, a, c.Active()));
    }
  }

  /** The path of `apply_to_target` where nothing matches: the tab
      `maybe_create_tab` opens is the one the action applies to. */
  method ApplyToOpened(c: Tui, target: MsgTarget, a: Action) returns (r: Tui, i: nat)
    requires c.Valid() && |Resolve(Sources(c.Tabs()), c.Active(), target)| == 0
    ensures !target.CurrentTab? && i == OpenedIdx(c.Tabs(), target) && i < |r.Tabs()|
    ensures OpenedAround(c, target, r)
    ensures r.Tabs()[i] == Apply(a, OpenedTab(c.Tabs(), target, r.Tabs()[i].switch), i == r.Active())
    ensures WellFormed(Sources(c.Tabs())) ==> WellFormed(Sources(r.Tabs()))
  {
    var created := MaybeCreateTab(c, target);
    var o := created.tui;
    i := created.idx.value;
    r := o.WithTabs(o.Tabs()[i := Apply(a, o.Tabs()[i], i == o.Active())]);
    ApplyOpened(c, target, o, a);
  }

  /** Applying the action to the opened tab keeps everything around it. */
  lemma ApplyOpened(c: Tui, target: MsgTarget, o: Tui, a: Action)
    requires !target.CurrentTab? && OpenedIdx(c.Tabs(), target) < |o.Tabs()| && OpenedAround(c, target, o)
    ensures var i := OpenedIdx(c.Tabs(), target);
      var r := o.WithTabs(o.Tabs()[i := Apply(a, o.Tabs()[i], i == o.Active())]);
      OpenedAround(c, target, r) && Sources(r.Tabs()) == Sources(o.Tabs())
  {
    var i := OpenedIdx(c.Tabs(), target);
    var tabs := o.Tabs()[i := Apply(a, o.Tabs()[i], i == o.Active())];
    OpenedAroundKeep(c, target, o, tabs);
    assert Sources(tabs) == Sources(o.Tabs());
  }

  /** `set_tab_style`: each addressed tab other than the active one is raised
      to at least `style`; no style decreases, only styles change, and a tab
      not addressed or active is left as it was. A tab opened for the target
      takes `style` unless it is the active one. */
  method SetTabStyle(c: Tui, style: TabStyle, target: MsgTarget) returns (r: Tui)
    requires c.Valid()
    requires target.CurrentTab? ==> c.Active() < |c.Tabs()|
    ensures r.Valid() && r.next == c.next && r.prev == c.prev
    ensures |Resolve(Sources(c.Tabs()), c.Active(), target)| > 0 ==>
      && |r.Tabs()| == |c.Tabs()| && r.Active() == c.Active()
      && (forall k :: 0 <= k < |c.Tabs()| ==> r.Tabs()[k].style.Rank() >= c.Tabs()[k].style.Rank())
      && (forall k :: 0 <= k < |c.Tabs()| && r.Tabs()[k].style != c.Tabs()[k].style ==> r.Tabs()[k].style == style)
      && (c.Active() < |c.Tabs()| ==> r.Tabs()[c.Active()] == c.Tabs()[c.Active()])
      && (forall k :: 0 <= k < |c.Tabs()| && k != c.Active() && k in Resolve(Sources(c.Tabs()), c.Active(), target) ==>
            r.Tabs()[k].style.Rank() >= style.Rank())
      && forall k :: 0 <= k < |c.Tabs()| ==>
           && r.Tabs()[k] == c.Tabs()[k].SetStyle(r.Tabs()[k].style)
           && (k !in Resolve(Sources(c.Tabs()), c.Active(), target) ==> r.Tabs()[k] == c.Tabs()[k])
    ensures |Resolve(Sources(c.Tabs()), c.Active(), target)| == 0 ==> OpenedIdx(c.Tabs(), target) < |r.Tabs()| && OpenedAround(c, target, r)
    ensures |Resolve(Sources(c.Tabs()), c.Active(), target)| == 0 ==>
      var i := OpenedIdx(c.Tabs(), target);
      var t := OpenedTab(c.Tabs(), target, r.Tabs()[i].switch);
      r.Tabs()[i] == if i != r.Active() && style != Normal then t.SetStyle(style) else t
  {
    var idxs;
    r, idxs := ApplyToTarget(c, target, RaiseStyle(style));
  }

  /** `add_client_err_msg`: every addressed tab gets the error appended to
      its view, and no other tab changes; with no tab addressed, the tab
      opened for the target gets it. */
  method AddClientErrMsg(c: Tui, msg: string, target: MsgTarget) returns (r: Tui)
    requires c.Valid()
    requires target.CurrentTab? ==> c.Active() < |c.Tabs()|
    ensures r.Valid() && r.next == c.next && r.prev == c.prev
    ensures |Resolve(Sources(c.Tabs()), c.Active(), target)| > 0 ==>
      && |r.Tabs()| == |c.Tabs()| && r.Active() == c.Active() && Sources(r.Tabs()) == Sources(c.Tabs())
      && forall k :: 0 <= k < |c.Tabs()| ==>
           r.Tabs()[k] == if k in Resolve(Sources(c.Tabs()), c.Active(), target) then c.Tabs()[k].(widget := c.Tabs()[k].widget.Record(ClientErrMsg(msg))) else c.Tabs()[k]
    ensures |Resolve(Sources(c.Tabs()), c.Active(), target)| == 0 ==> OpenedIdx(c.Tabs(), target) < |r.Tabs()| && OpenedAround(c, target, r)
    ensures |Resolve(Sources(c.Tabs()), c.Active(), target)| == 0 ==>
      var i := OpenedIdx(c.Tabs(), target);
      var t := OpenedTab(c.Tabs(), target, r.Tabs()[i].switch);
      r.Tabs()[i] == t.(widget := t.widget.Record(ClientErrMsg(msg)))
  {
    var idxs;
    r, idxs := ApplyToTarget(c, target, ClientErr(msg));
  }

  /** `add_client_notify_msg`: as `AddClientErrMsg`, with a notice. */
  method AddClientNotifyMsg(c: Tui, msg: string, target: MsgTarget) returns (r: Tui)
    requires c.Valid()
    requires target.CurrentTab? ==> c.Active() < |c.Tabs()|
    ensures r.Valid() && r.next == c.next && r.prev == c.prev
    ensures |Resolve(Sources(c.Tabs()), c.Active(), target)| > 0 ==>
      && |r.Tabs()| == |c.Tabs()| && r.Active() == c.Active() && Sources(r.Tabs()) == Sources(c.Tabs())
      && forall k :: 0 <= k < |c.Tabs()| ==>
           r.Tabs()[k] == if k in Resolve(Sources(c.Tabs()), c.Active(), target) then c.Tabs()[k].(widget := c.Tabs()[k].widget.Record(ClientNotifyMsg(msg))) else c.Tabs()[k]
    ensures |Resolve(Sources(c.Tabs()), c.Active(), target)| == 0 ==> OpenedIdx(c.Tabs(), target) < |r.Tabs()| && OpenedAround(c, target, r)
    ensures |Resolve(Sources(c.Tabs()), c.Active(), target)| == 0 ==>
      var i := OpenedIdx(c.Tabs(), target);
      var t := OpenedTab(c.Tabs(), target, r.Tabs()[i].switch);
      r.Tabs()[i] == t.(widget := t.widget.Record(ClientNotifyMsg(msg)))
  {
    var idxs;
    r, idxs := ApplyToTarget(c, target, ClientNotify(msg));
  }

  /** `set_notifier`: the addressed tabs take the new level; a later
      `show_notify_mode` on them reports it. */
  method SetNotifierOf(c: Tui, n: Notifier, target: MsgTarget) returns (r: Tui)
    requires c.Valid()
    requires target.CurrentTab? ==> c.Active() < |c.Tabs()|
    ensures r.Valid() && r.next == c.next && r.prev == c.prev
    ensures |Resolve(Sources(c.Tabs()), c.Active(), target)| > 0 ==>
      && |r.Tabs()| == |c.Tabs()| && r.Active() == c.Active() && Sources(r.Tabs()) == Sources(c.Tabs())
      && forall k :: 0 <= k < |c.Tabs()| ==>
           r.Tabs()[k] == if k in Resolve(Sources(c.Tabs()), c.Active(), target) then c.Tabs()[k].(notifier := n) else c.Tabs()[k]
    ensures |Resolve(Sources(c.Tabs()), c.Active(), target)| == 0 ==> OpenedIdx(c.Tabs(), target) < |r.Tabs()| && OpenedAround(c, target, r)
    ensures |Resolve(Sources(c.Tabs()), c.Active(), target)| == 0 ==>
      var i := OpenedIdx(c.Tabs(), target);
      var t := OpenedTab(c.Tabs(), target, r.Tabs()[i].switch);
      r.Tabs()[i] == t.(notifier := n)
  {
    var idxs;
    r, idxs := ApplyToTarget(c, target, SetNotifier(n));
  }

  /** `show_notify_mode`: each addressed tab reports its own level. */
  method ShowNotifyModeOf(c: Tui, target: MsgTarget) returns (r: Tui)
    requires c.Valid()
    requires target.CurrentTab? ==> c.Active() < |c.Tabs()|
    ensures r.Valid() && r.next == c.next && r.prev == c.prev
    ensures |Resolve(Sources(c.Tabs()), c.Active(), target)| > 0 ==>
      && |r.Tabs()| == |c.Tabs()| && r.Active() == c.Active() && Sources(r.Tabs()) == Sources(c.Tabs())
      && forall k :: 0 <= k < |c.Tabs()| ==>
           r.Tabs()[k] == if k in Resolve(Sources(c.Tabs()), c.Active(), target) then c.Tabs()[k].(widget := c.Tabs()[k].widget.Record(ClientNotifyMsg(NotifyModeText(c.Tabs()[k].notifier))))
                          else c.Tabs()[k]
    ensures |Resolve(Sources(c.Tabs()), c.Active(), target)| == 0 ==> OpenedIdx(c.Tabs(), target) < |r.Tabs()| && OpenedAround(c, target, r)
    ensures |Resolve(Sources(c.Tabs()), c.Active(), target)| == 0 ==>
      var i := OpenedIdx(c.Tabs(), target);
      var t := OpenedTab(c.Tabs(), target, r.Tabs()[i].switch);
      r.Tabs()[i] == t.(widget := t.widget.Record(ClientNotifyMsg(NotifyModeText(t.notifier))))
  {
    var idxs;
    r, idxs := ApplyToTarget(c, target, ShowNotifyMode);
  }

  /** `r` is `c` after `clear` on `target`: each addressed view records the
      clearing and every other tab stays; when nothing is addressed, the tab
      for `target` is opened as `maybe_create_tab` opens it, already cleared. */
  ghost predicate Cleared(c: Tui, target: MsgTarget, r: Tui)
    requires c.Valid() && (target.CurrentTab? ==> c.Active() < |c.Tabs()|)
  {
    var idxs := Resolve(Sources(c.Tabs()), c.Active(), target);
    && r.Valid() && r.next == c.next && r.prev == c.prev
    && (|idxs| > 0 ==>
          && |r.Tabs()| == |c.Tabs()| && r.Active() == c.Active() && Sources(r.Tabs()) == Sources(c.Tabs())
          && forall k :: 0 <= k < |c.Tabs()| ==>
               r.Tabs()[k] == if k in idxs then c.Tabs()[k].(widget := c.Tabs()[k].widget.Record(ClearLines)) else c.Tabs()[k])
    && (|idxs| == 0 ==>
          && OpenedIdx(c.Tabs(), target) < |r.Tabs()| && OpenedAround(c, target, r)
          && var i := OpenedIdx(c.Tabs(), target);
             var t := OpenedTab(c.Tabs(), target, r.Tabs()[i].switch);
             r.Tabs()[i] == t.(widget := t.widget.Record(ClearLines)))
  }

  /** `clear`: every addressed tab that existed gets its lines cleared, and
      no other tab changes. */
  method ClearOf(c: Tui, target: MsgTarget) returns (r: Tui)
    requires c.Valid()
    requires target.CurrentTab? ==> c.Active() < |c.Tabs()|
    ensures Cleared(c, target, r)
  {
    var idxs;
    r, idxs := ApplyToTarget(c, target, ClearView);
  }

  /** Ignore state of the server tab `serv`, or `false` without one (the
      first loop of `toggle_ignore`). */
  function ServerIgnoreState(tabs: seq<Tab>, serv: string): (b: bool)
    ensures FindServTabIdx(Sources(tabs), serv).None? ==> !b
    ensures FindServTabIdx(Sources(tabs), serv).Some? ==>
      b == tabs[FindServTabIdx(Sources(tabs), serv).value].widget.ignore
  {
    match FindServTabIdx(Sources(tabs), serv)
    case None => false
    case Some(i) => tabs[i].widget.ignore
  }

  /** `r` is `c` after `toggle_ignore` on `target`: each addressed tab takes
      the opposite of the server tab's state (for all tabs of a server) or of
      its own (otherwise) and every other tab stays; when nothing is
      addressed, the tab for `target` is opened and toggled the same way. */
  ghost predicate IgnoreToggled(c: Tui, target: MsgTarget, r: Tui)
    requires c.Valid() && (target.CurrentTab? ==> c.Active() < |c.Tabs()|)
  {
    var idxs := Resolve(Sources(c.Tabs()), c.Active(), target);
    && r.Valid() && r.next == c.next && r.prev == c.prev
    && (|idxs| > 0 ==>
          && |r.Tabs()| == |c.Tabs()| && r.Active() == c.Active() && Sources(r.Tabs()) == Sources(c.Tabs())
          && forall k :: 0 <= k < |c.Tabs()| ==>
               r.Tabs()[k] == if k !in idxs then c.Tabs()[k]
                              else c.Tabs()[k].(widget := c.Tabs()[k].widget.(ignore :=
                                     if target.AllServTabs? then !ServerIgnoreState(c.Tabs(), target.serv) else !c.Tabs()[k].widget.ignore)))
    && (|idxs| == 0 ==>
          && OpenedIdx(c.Tabs(), target) < |r.Tabs()| && OpenedAround(c, target, r)
          && var i := OpenedIdx(c.Tabs(), target);
             var t := OpenedTab(c.Tabs(), target, r.Tabs()[i].switch);
             r.Tabs()[i] == t.(widget := t.widget.(ignore :=
                              if target.AllServTabs? then !ServerIgnoreState(c.Tabs(), target.serv) else !t.widget.ignore)))
  }

  /** `toggle_ignore`: for all tabs of a server, every tab takes the opposite
      of the server tab's ignore state, so they end up agreeing; for any other
      target each addressed tab flips its own state. */
  method ToggleIgnore(c: Tui, target: MsgTarget) returns (r: Tui)
    requires c.Valid()
    requires target.CurrentTab? ==> c.Active() < |c.Tabs()|
    ensures IgnoreToggled(c, target, r)
  {
    var idxs;
    if target.AllServTabs? {
      r, idxs := ApplyToTarget(c, target, SetIgnore(Some(!ServerIgnoreState(c.Tabs(), target.serv))));
    } else {
      r, idxs := ApplyToTarget(c, target, SetIgnore(None));
    }
  }
}

=== FILE: ui_tabs.dfy ===
/** The front-end-independent tab list: tabs over an arbitrary widget type `W`,
    with server-tab creation and switch-key assignment on insertion. */
module UiTabs {
  import opened Msg
  import opened Seqs
  import opened SwitchKey
  import opened Lookup

  datatype Tab<W> = Tab(widget: W, src: MsgSource, style: TabStyle, switch: Option<char>, notifier: Notifier)

  datatype Tabs<W> = Tabs(tabs: seq<Tab<W>>)
  {
    function Sources(): (srcs: seq<MsgSource>)
      ensures |srcs| == |tabs|
      ensures forall k :: 0 <= k < |tabs| ==> srcs[k] == tabs[k].src
    {
      seq(|tabs|, k requires 0 <= k < |tabs| => tabs[k].src)
    }

    function Switches(): (keys: seq<Option<char>>)
      ensures |keys| == |tabs|
      ensures forall k :: 0 <= k < |tabs| ==> keys[k] == tabs[k].switch
    {
      seq(|tabs|, k requires 0 <= k < |tabs| => tabs[k].switch)
    }

    /** Inserts a tab for `src` at `idx` with style `Normal`, the given notifier
        and a switch key chosen from the source's name against the keys of the
        tabs already open. The status-line flag is accepted and unused. */
    function NewTab(idx: nat, src: MsgSource, showStatusline: bool, notifier: Notifier, widget: W): (r: Tabs<W>)
      requires idx <= |tabs|
      ensures |r.tabs| == |tabs| + 1
      ensures forall k :: 0 <= k < idx ==> r.tabs[k] == tabs[k]
      ensures forall k :: idx <= k < |tabs| ==> r.tabs[k + 1] == tabs[k]
      ensures r.tabs[idx].src == src && r.tabs[idx].widget == widget
      ensures r.tabs[idx].style == Normal && r.tabs[idx].notifier == notifier
      ensures IsSwitchChoice(src.VisibleName(), KeyCounts(Switches()), r.tabs[idx].switch)
    {
      var switch := ChooseSwitch(src.VisibleName(), KeyCounts(Switches()));
      Tabs(Insert(tabs, idx, Tab(widget, src, Normal, switch, notifier)))
    }

    /** Opens the server tab `serv` at the end of the list unless one exists;
        returns the index of the new tab, or `None` when nothing was created. */
    function NewServerTab(serv: string, widget: W): (r: (Tabs<W>, Option<nat>))
      ensures FindServTabIdx(Sources(), serv).Some? ==> r.0 == this && r.1.None?
      ensures FindServTabIdx(Sources(), serv).None? ==>
        && r.1 == Some(|tabs|)
        && |r.0.tabs| == |tabs| + 1
        && r.0.tabs[..|tabs|] == tabs
        && r.0.tabs[|tabs|].src == MsgSource.Serv(serv)
        && r.0.tabs[|tabs|].notifier == Mentions
        && r.0.tabs[|tabs|].style == Normal
      ensures FindServTabIdx(r.0.Sources(), serv).Some?
    {
      match FindServTabIdx(Sources(), serv)
      case Some(_) => (this, None)
      case None =>
        var r := NewTab(|tabs|, MsgSource.Serv(serv), true, Mentions, widget);
        assert r.Sources()[|tabs|] == MsgSource.Serv(serv);
        assert r.tabs[..|tabs|] == tabs;
        (r, Some(|tabs|))
    }
  }
}
